=== FILE: README.md ===
# cpprdmasim in Dafny

A model of the core of cpprdmasim, a software simulation of an RDMA NIC.
Its central object, `RdmaDevice`, keeps queue pairs (QPs), completion
queues (CQs), memory regions (MRs) and protection domains (PDs). Each of
these lives in one of three tiers:

- a capacity-limited **device tier**, an ordinary map;
- a **middle cache**, one `Rdma*Cache` per resource kind, with a capacity
  of twice the device limit. When it is full, it evicts whatever entry the
  hash map's iteration happens to start with;
- an unlimited **host tier**, used instead of the middle cache when the
  global middle-cache switch is off.

The project models these parts of the system:

- the tier placement of every create, lookup, destroy and state-change
  operation;
- the simulated data path between devices (`post_send`, `post_recv`,
  `poll_cq`), with the process-wide QP registry that routes a send to its
  destination QP;
- the control channel's byte codec for `RdmaControlMsg`, its big-endian
  length-prefix framing, and its DISCONNECTED / CONNECTING / CONNECTED /
  ERROR state machine.

Modules, in dependency order:

| module | file | contents |
|---|---|---|
| `RdmaTypes` | rdma_types.dfy | opcodes, QP states, message types, value records and their default constructors |
| `OverflowCache` | overflow_cache.dfy | the four `Rdma*Cache` classes as one generic cache with two insertion policies; the CQ cache's batch operations |
| `RdmaDevice` | rdma_device.dfy | the device state, tier placement, lookup, destroy, QP state changes, completion append and poll |
| `DeviceProperties` | device_properties.dfy | lemmas about `RdmaDevice` |
| `DataPath` | data_path.dfy | the world of devices, the buffer heap, the QP registry, `post_send` and `post_recv` |
| `DataPathProperties` | data_path_properties.dfy | lemmas about the data path |
| `ControlCodec` | control_codec.dfy | `serialize_message`, `deserialize_message` and the length prefix |
| `CodecProperties` | codec_properties.dfy | the round trip and the behaviour of the decoder on arbitrary bytes |
| `ControlChannel` | control_channel.dfy | the connection state machine and its message stream |
| `ChannelProperties` | channel_properties.dfy | lemmas about connections and the transfer of messages |

Each operation is a pure function from a state value to a new state value
and a result. The following become parameters:

- the middle-cache switch becomes `Config`;
- the cache's "first entry in iteration order" becomes a `Chooser`, which
  picks some member of the key set;
- each socket-call outcome becomes a parameter of the operation.

Every `Chooser` result is proved to be a key of the cache, and the lemmas
hold for every chooser.

The QP state machine `validate_qp_transition` is a stub in the source that
accepts every transition (src/rdma_device.cpp:786-790). The device test
expects RTS→INIT to be refused (test/test_rdma_device.cpp:157-159).
`ModifyQpState` therefore takes the validator as a parameter:

- `ValidateTransitionStub` is the code as written;
- `LegalTransition` is the transition table this model adopts over the
  seven states: RESET→INIT, INIT→RTR, RTR→RTS, RTS→SQD, SQD→RTS, SQD→SQE, RTS→SQE,
  any state to ERR, ERR→RESET and SQE→RESET. No other move to RESET is
  allowed.

The device test also asks for RESET→RESET as its first step. The table
refuses that step, so under `LegalTransition` that step of the test does
not pass. The stub accepts it.

## Model

| member | source | states |
|---|---|---|
| RdmaTypes.StateByteInjective | include/rdma_types.h:23-31 | two QP states with the same one-byte code are the same state |
| RdmaTypes.StateOfByte | src/rdma_control_channel.cpp:492-493 | every byte, also one outside the seven named codes, is a state value whose code is that byte, as the unchecked cast gives |
| RdmaTypes.TypeByteInjective | include/rdma_types.h:127-132 | two message types with the same one-byte code are the same type |
| RdmaTypes.TypeByte | include/rdma_types.h:127-132 | the four named message types are exactly the ones with codes 0..3 |
| RdmaTypes.TypeOfByte | src/rdma_control_channel.cpp:387-388 | every byte is a message type value whose code is that byte, as the unchecked cast gives |
| OverflowCache.Victim | src/rdma_qp_cache.cpp:18-31 | the entry chosen for eviction is always present in the cache |
| OverflowCache.EvictOne | src/rdma_qp_cache.cpp:22-28 | eviction removes exactly one present key from a non-empty cache and leaves an empty one alone |
| OverflowCache.Put | src/rdma_qp_cache.cpp:18-31 | after a QP/CQ cache set, the key maps to the new value; below capacity every other key is untouched; no other key ever gains or changes a value |
| OverflowCache.PutFullEvictsOne | src/rdma_cq_cache.cpp:20-32 | a set into a full QP/CQ cache removes exactly one existing entry and then stores the key |
| OverflowCache.PutOverwriteCanEvictNeighbour | src/rdma_qp_cache.cpp:18-31 | overwriting a key that is already cached in a full QP/CQ cache can still evict a different key |
| OverflowCache.PutKeepsBound | src/rdma_qp_cache.cpp:18-31 | a QP/CQ cache set never takes the cache beyond max(capacity, 1) entries |
| OverflowCache.PutZeroCapacityKeepsOnlyLast | src/rdma_cq_cache.cpp:20-32 | a zero-capacity QP/CQ cache holds exactly the last key set |
| OverflowCache.PutKeep | src/rdma_mr_cache.cpp:12-20 | after an MR/PD cache set the key maps to the new value; an overwrite or a set below capacity leaves every other key untouched |
| OverflowCache.PutKeepOverwriteNeverEvicts | src/rdma_pd_cache.cpp:12-20 | overwriting a present key in an MR/PD cache changes only that key's value and keeps the size |
| OverflowCache.PutKeepFullEvictsOne | src/rdma_mr_cache.cpp:12-20 | a new key in a full MR/PD cache evicts exactly one other entry |
| OverflowCache.PutKeepKeepsBound | src/rdma_pd_cache.cpp:12-20 | an MR/PD cache set never takes the cache beyond max(capacity, 1) entries |
| OverflowCache.AddCompletions | src/rdma_cq_cache.cpp:34-50 | a batch add appends the entries, in order, to the CQ's list, creating the CQ if absent; other CQs are unchanged |
| OverflowCache.AddCompletionsIgnoresCapacity | src/rdma_cq_cache.cpp:34-50 | a batch add for an unknown CQ grows a full cache past its capacity, because it bypasses the eviction in set |
| OverflowCache.TakeCompletions | src/rdma_cq_cache.cpp:53-70 | a batch get removes min(max_count, length) entries from the front and returns them in order; the remaining list is what follows them |
| OverflowCache.AddThenTakeIsFifo | src/rdma_cq_cache.cpp:34-70 | entries added to an empty CQ are returned in the same order by a get of that many |
| RdmaDevice.NewDevice | src/rdma_device.cpp:7-23 | a new device has caches of twice each device limit, counters starting at 1 and all tiers consistent |
| RdmaDevice.GetQpInfo | src/rdma_device.cpp:207-228 | get_qp_info finds a QP exactly when the device map holds it, or the cache does with the switch on, or the host map does with the switch off; the answer is the value stored in that tier, the device map's when it holds one |
| RdmaDevice.GetCqInfo | src/rdma_device.cpp:230-251 | get_cq_info finds a CQ exactly when the device map, or the tier the switch selects (cache on, host map off), holds it, and answers with the value stored there, the device map's first |
| RdmaDevice.GetMrInfo | src/rdma_device.cpp:253-265 | get_mr_info finds an MR exactly when the device map or the MR cache holds it, whatever the switch says, and answers with the stored value, the device map's first |
| RdmaDevice.CreateQp | src/rdma_device.cpp:58-119 | create_qp refuses, changing nothing, when a CQ cannot be found; otherwise it places the new QP in the device tier below the limit, else in the cache or the host tier by the switch, leaving the CQs alone |
| RdmaDevice.CreateCq | src/rdma_device.cpp:121-150 | create_cq returns the next counter value and places an empty CQ of that depth in the device tier when it has room, otherwise in the middle cache (switch on) or the host map (switch off), leaving the other tiers and all QPs unchanged |
| RdmaDevice.RegisterMr | src/rdma_device.cpp:152-181 | register_mr returns the next lkey and places the MR in the device tier when below the limit, else in the MR cache, whatever the switch says |
| RdmaDevice.CreatePd | src/rdma_device.cpp:183-205 | create_pd returns the next handle and places the PD in the device tier when below the limit, else in the PD cache |
| RdmaDevice.ModifyQpState | src/rdma_device.cpp:355-390 | a state change succeeds exactly when the QP is found and the validator accepts the move, and then only the QP's state changes as seen by lookup; on failure nothing changes |
| RdmaDevice.ConnectQp | src/rdma_device.cpp:392-425 | connect_qp succeeds exactly when the QP is found; it then copies the remote QP number, LID, PSN and GID into the QP and leaves every other field as it was |
| RdmaDevice.AppendCompletion | src/rdma_device.cpp:483-511 | a completion appended to a CQ lands at the end of that CQ's list, in whichever tier holds it; every other device-tier and host-tier CQ and every QP, MR and PD is unchanged, while an append to a cached CQ goes through the cache's set and may evict another cached CQ |
| RdmaDevice.TakeFront | src/rdma_device.cpp:702-746 | polling takes min(max_entries, count) entries off the front of a CQ, in order, and leaves the rest |
| RdmaDevice.PollCq | src/rdma_device.cpp:702-746 | poll_cq reports success exactly when the tier that holds the CQ has entries (and, for the cache tier, max_entries > 0); from the device map when the CQ there is non-empty, otherwise from the cache (switch on) or the host map (switch off), it appends that CQ's first min(max_entries, count) completions to the output in order and keeps exactly the rest queued; no other cached CQ, no other tier and nothing but CQs changes |
| RdmaDevice.CreateQpChecked | src/rdma_device.cpp:58-119 | the create_qp the tests expect: it refuses a zero send depth and otherwise behaves as create_qp |
| RdmaDevice.CreateCqChecked | src/rdma_device.cpp:121-150 | the create_cq the tests expect: it refuses a zero depth and otherwise behaves as create_cq |
| RdmaDevice.RegisterMrChecked | src/rdma_device.cpp:152-181 | the register_mr the tests expect: it refuses a null address and otherwise behaves as register_mr |
| RdmaDevice.DestroyQp | src/rdma_device.cpp:294-307 | destroy_qp removes the QP from the device map whichever tier holds it; a QP held only by the cache is overwritten there with the default QP, and other cached QPs can only be evicted, never altered; the host map and everything but the QP device map and cache is unchanged |
| RdmaDevice.DestroyCq | src/rdma_device.cpp:309-322 | destroy_cq removes the CQ from the device map; a CQ held only by the cache is overwritten there with the default CQ, and other cached CQs can only be evicted; the host map and everything else is unchanged |
| RdmaDevice.DeregisterMr | src/rdma_device.cpp:324-337 | deregister_mr removes the MR from the device map; an MR held only by the cache is overwritten there with the default MR and every other cached MR stays as it was; nothing else changes |
| RdmaDevice.DestroyPd | src/rdma_device.cpp:339-352 | destroy_pd removes the PD from the device map; a PD held only by the cache is overwritten there with the default PD and every other cached PD stays as it was; nothing else changes |
| RdmaDevice.ValidateTransitionStub | src/rdma_device.cpp:786-790 | validate_qp_transition as written accepts every pair of states |
| RdmaDevice.UpdateQp | src/rdma_device.cpp:369-381 | writing a QP back, as modify_qp_state, connect_qp and post_recv do, makes get_qp_info return it; only the QP tiers change, the device map keeps its ids and every other device-map and host-map QP, and only the tier get_qp_info searched is written |
| RdmaDevice.CqForAppend | src/rdma_device.cpp:483-511 | the CQ the data path appends to is found exactly when the device map, the cache, or (for post_send only) the host map holds it; post_recv's search gives the same answer as get_cq_info with the cache on, and post_send's, for a CQ outside the cache, the same as get_cq_info with the cache off |
| RdmaDevice.ReqNotifyCq | src/rdma_device.cpp:748-766 | req_notify_cq succeeds exactly when get_cq_info with the cache switched on would find the CQ, whatever the switch says, so the host map is never searched |
| DeviceProperties.CreateQpThenGet | src/rdma_device.cpp:58-119 | a created QP gets a non-zero number one above the previous, get_qp_info finds it in its default state with the given CQs, and the tiers stay consistent |
| DeviceProperties.CreateQpUnresolvableCq | src/rdma_device.cpp:63-82 | create_qp with a send or receive CQ that cannot be found returns 0 and changes nothing |
| DeviceProperties.CreateCqThenGet | src/rdma_device.cpp:121-150 | a created CQ gets a fresh non-zero number and get_cq_info finds it empty with the requested depth |
| DeviceProperties.RegisterMrThenGet | src/rdma_device.cpp:152-181 | a registered MR gets a fresh non-zero lkey and get_mr_info returns its address, length and flags |
| DeviceProperties.CreatePdKeepsInv | src/rdma_device.cpp:183-205 | a created PD gets a fresh non-zero handle and is held in the device tier or the PD cache |
| DeviceProperties.CreateCqsConsecutive | src/rdma_device.cpp:121-150 | a run of create_cq calls returns consecutive numbers starting at the counter |
| DeviceProperties.CreateCqStep | src/rdma_device.cpp:121-150 | one create_cq keeps all existing device-tier CQs and puts the new one there exactly when below the limit |
| DeviceProperties.CreateCqsPlacement | src/rdma_device.cpp:121-150 | in a run of create_cq calls, exactly the first (limit − current count) new CQs land in the device tier |
| DeviceProperties.CreateCqsHostKeepsAll | src/rdma_device.cpp:121-150 | with the middle cache off, no CQ is ever lost: every earlier CQ and every CQ of the run can still be found |
| DeviceProperties.RunGainsOnlyRunIds | src/rdma_device.cpp:121-150 | a run of create_cq calls adds to the device tier only numbers the run returned |
| DeviceProperties.ZeroCqLimitLosesFirstCq | test/rdma_device_overflow_test.cpp:10-28 | with a CQ limit of 0 the cache capacity is 0, so the second create_cq evicts the first CQ and the following create_qp on both returns 0 |
| DeviceProperties.DestroyQpOutcome | src/rdma_device.cpp:294-307 | destroy_qp erases a device-tier QP; a cached QP is overwritten with the default value, which lookups still find as QP number 0; an unknown number or a host-tier QP is left alone |
| DeviceProperties.DestroyCqOutcome | src/rdma_device.cpp:309-322 | destroy_cq erases a device-tier CQ and overwrites a cached one with the default CQ; an unknown number changes nothing |
| DeviceProperties.DeregisterMrOutcome | src/rdma_device.cpp:324-337 | deregister_mr erases a device-tier MR and overwrites a cached one with the default MR; an unknown key changes nothing |
| DeviceProperties.DestroyPdOutcome | src/rdma_device.cpp:339-352 | destroy_pd erases a device-tier PD and overwrites a cached one with the default PD; an unknown handle changes nothing |
| DeviceProperties.ModifyDeviceTierOnlyState | src/rdma_device.cpp:358-366 | an accepted state change on a device-tier QP changes that QP's state field and nothing else |
| DeviceProperties.ModifyQpStateKeepsInv | src/rdma_device.cpp:355-390 | a state change keeps the tiers consistent |
| DeviceProperties.CachedStateUpdateCanEvictNeighbour | src/rdma_device.cpp:369-381 | changing the state of a QP held in a full cache writes it back through set, which can evict another cached QP |
| DeviceProperties.StubAcceptsRtsToInit | src/rdma_device.cpp:786-790 | the validator as written lets an RTS QP go back to INIT |
| DeviceProperties.LegalTransitionByTarget | test/test_rdma_device.cpp:140-159 | the transition table this model adopts, read by target: RESET only from ERR or SQE, INIT only from RESET, RTR only from INIT, RTS only from RTR or SQD, SQD only from RTS, SQE only from RTS or SQD, ERR from every state; no state but ERR may move to itself |
| DeviceProperties.LegalTableDrivesToRtsAndRejectsInit | test/test_rdma_device.cpp:140-159 | with the transition table a RESET QP reaches RTS through INIT and RTR, and RTS→INIT is then refused with the QP still in RTS |
| DeviceProperties.CreateCqAcceptsZeroDepth | src/rdma_device.cpp:121-150 | create_cq as written accepts depth 0 and returns a non-zero CQ |
| DeviceProperties.CreateCqCheckedRejectsOnlyZero | test/test_rdma_device.cpp:57-58 | the checked create_cq returns 0 exactly for depth 0, and otherwise creates the CQ |
| DeviceProperties.CreateQpAcceptsZeroSendDepth | src/rdma_device.cpp:58-119 | create_qp as written ignores max_send_wr and accepts 0 |
| DeviceProperties.CreateQpCheckedRejectsOnlyZero | test/test_rdma_device.cpp:84-86 | the checked create_qp returns 0 exactly for send depth 0, and otherwise creates the QP |
| DeviceProperties.RegisterMrAcceptsNull | src/rdma_device.cpp:152-181 | register_mr as written accepts a null address and returns a non-zero lkey |
| DeviceProperties.RegisterMrCheckedRejectsOnlyNull | test/test_rdma_device.cpp:117-118 | the checked register_mr returns 0 exactly for a null address, and otherwise registers it |
| DeviceProperties.ConnectQpKeepsInv | src/rdma_device.cpp:392-425 | connect_qp keeps the tiers consistent |
| DeviceProperties.UpdateQpKeepsInv | src/rdma_device.cpp:669-690 | writing a found QP back to its tier keeps the tiers consistent |
| DeviceProperties.PollFoundCq | src/rdma_device.cpp:702-746 | for a CQ get_cq_info finds, in any tier, polling returns its first min(max_entries, count) completions in order, get_cq_info afterwards finds exactly the rest, and the tier invariant holds |
| DeviceProperties.PollInBatches | src/rdma_device.cpp:702-746 | polling k1 entries and then k2 more yields the same completions in the same order, and leaves the same rest, as polling k1 + k2 at once |
| DeviceProperties.PollDrainThenEmpty | src/rdma_device.cpp:702-746 | a poll large enough to drain a device-tier CQ returns all its completions, and the next poll reports nothing |
| DeviceProperties.NotifyIgnoresHostTier | src/rdma_device.cpp:748-766 | req_notify_cq fails for a CQ that only the host tier holds, although get_cq_info finds it |
| DataPath.ReadBuf | src/rdma_device.cpp:534-583 | reading n bytes of a buffer yields exactly its n bytes, with unwritten and null memory reading as zero |
| DataPath.WriteBuf | src/rdma_device.cpp:534-536 | a write into a buffer reads back as the data written and leaves every other buffer and every byte beyond the data unchanged; a null destination writes nothing |
| DataPath.StoreTier | src/rdma_device.cpp:669-690 | writing a QP back to a tier makes that tier return it and leaves every other tier and QP number unchanged |
| DataPath.SendLookup | src/rdma_device.cpp:436-468 | post_send finds the sender through get_qp_info's tiers, and registers it exactly when it is in the device tier or, with the switch off, the host tier |
| DataPath.Deliver | src/rdma_device.cpp:514-585 | delivering to a destination that the registry cannot resolve changes nothing; delivery never changes the registry or which QPs exist, and changes no device other than the one the destination is registered on |
| DataPath.FillBuffer | src/rdma_device.cpp:534-577 | with a posted receive buffer, min(send length, buffer length) bytes are copied, the buffer is disarmed, and a receive completion of that length is appended |
| DataPath.StorePending | src/rdma_device.cpp:578-583 | without a posted receive buffer, the sent bytes are stored as the destination's pending data and no completion is produced |
| DataPath.CompleteSend | src/rdma_device.cpp:475-512 | a signaled send appends its send completion to the sender's CQ; an unsignaled send adds nothing |
| DataPath.PostSend | src/rdma_device.cpp:433-588 | post_send succeeds exactly when the QP is found and in RTS; on failure no device and no memory changes |
| DataPath.ConsumePending | src/rdma_device.cpp:635-667 | a receive posted over pending data copies min(pending, length) bytes into the buffer, clears the pending data and the receive buffer, and appends a receive completion |
| DataPath.PostRecv | src/rdma_device.cpp:590-699 | post_recv succeeds exactly when the QP is found in RTR or RTS; on failure nothing changes; only the posting device changes |
| DataPathProperties.PostSendRegistration | src/rdma_device.cpp:441-464 | post_send registers the sender under its QP number for the device or host tier, and never for the middle cache |
| DataPathProperties.CachedQpNeverRegistered | src/rdma_device.cpp:670-690 | a QP that lives only in the middle cache is never registered, by post_send or by post_recv |
| DataPathProperties.RegistryKeyCollision | src/rdma_device.cpp:429-431 | two devices with the same QP number share one registry slot, so a post_send on one device steals the slot from the other |
| DataPathProperties.PostSendKeepsQpKeys | src/rdma_device.cpp:433-588 | post_send never adds or removes QPs on any device |
| DataPathProperties.DestroyedQpReceivesNothing | src/rdma_device.cpp:294-307 | destroy_qp leaves the registry entry in place, and a send to that QP then changes nothing |
| DataPathProperties.PostSendOrder | src/rdma_device.cpp:433-588 | a successful post_send is the registration, then the send completion on the sender's device, then (for SEND and RDMA_WRITE only) delivery to the QP registered under dest_qp_num |
| DataPathProperties.PostSendCompletion | src/rdma_device.cpp:475-515 | a successful post_send appends exactly one send completion at the back of the send CQ when signaled and leaves the sender's device alone when not; with no payload no other device and no memory changes, and with a payload bound for another device the sender's device gets only that completion |
| DataPathProperties.DeliverFillsBuffer | src/rdma_device.cpp:532-577 | a delivery into a posted receive buffer copies the bytes, disarms the buffer and appends the receive completion |
| DataPathProperties.DeliverStoresPending | src/rdma_device.cpp:578-583 | a delivery with no posted buffer stores the bytes as pending data and leaves all CQs alone |
| DataPathProperties.UpdateQpThenGet | src/rdma_device.cpp:669-690 | a QP written back through its tier is what get_qp_info then returns |
| DataPathProperties.PostRecvArmsBuffer | src/rdma_device.cpp:626-690 | post_recv on a ready QP with no pending data records the receive buffer and length and touches no memory or CQ |
| DataPathProperties.PostRecvConsumesPending | src/rdma_device.cpp:631-690 | post_recv on a ready QP with pending data copies it into the buffer, clears it and appends a receive completion of the copied length |
| DataPathProperties.PostSendReachesPeer | src/rdma_device.cpp:514-585 | a successful SEND or RDMA_WRITE to a QP registered on another device changes that device and memory exactly as a bare delivery does |
| DataPathProperties.DeliverIsLocal | src/rdma_device.cpp:514-585 | delivery depends only on the destination's registry entry, its device and the buffers |
| DataPathProperties.SendBeforeRecvArrives | src/rdma_device.cpp:433-699 | a post_send to a remote QP with no buffer posted, followed by post_recv on that QP: the buffer receives the first min(send length, recv length) bytes of the sender's buffer, the receive CQ gains one completion with the receive's wr_id and that length, and the QP ends with no payload and no buffer |
| DataPathProperties.RecvBeforeSendFills | src/rdma_device.cpp:433-699 | a post_recv with nothing pending followed by a post_send to that QP from another device: the buffer receives the first min(send length, recv length) bytes, the receiver's CQ gains one completion with wr_id 0 and that length, and the buffer is cleared |
| ControlCodec.Le16RoundTrip | src/rdma_control_channel.cpp:314-371 | a 16-bit field written in host (little-endian) order reads back unchanged |
| ControlCodec.Le32RoundTrip | src/rdma_control_channel.cpp:314-371 | a 32-bit field written in host (little-endian) order reads back unchanged |
| ControlCodec.Be32RoundTrip | src/rdma_control_channel.cpp:200-201 | the 32-bit length prefix in network order reads back unchanged |
| ControlCodec.Trunc32 | src/rdma_control_channel.cpp:364-365 | the error-text length is stored modulo 2^32, and is unchanged below 2^32 |
| ControlCodec.Serialize | src/rdma_control_channel.cpp:314-371 | a serialized message is 68 bytes plus the error text, and the text follows the fixed header |
| ControlCodec.Deserialize | src/rdma_control_channel.cpp:373-525 | empty data is refused with the message untouched; decoding succeeds exactly when the 68-byte header and the declared error text are present, and the text is then the bytes after the header; the caller's CQ ids, receive buffer and pending data are never touched |
| ControlCodec.DeserializeNamesCutField | src/rdma_control_channel.cpp:383-512 | a truncation failure names the header field inside which the data ends |
| ControlCodec.Frame | src/rdma_control_channel.cpp:200-222 | a frame is the big-endian length followed by the payload |
| ControlCodec.Unframe | src/rdma_control_channel.cpp:250-275 | fewer than 4 bytes is exactly the short-length failure; a success splits the stream into the big-endian length, that many payload bytes and the rest |
| CodecProperties.WireCopy | src/rdma_control_channel.cpp:314-371 | the message a peer sees has the type, accept flag, error text and every serialized QP field sent (numbers, LIDs, port, access flags, PSNs, GIDs, MTU, state), and keeps the receiver's own CQ numbers, receive buffer and pending data |
| CodecProperties.RoundTrip | src/rdma_control_channel.cpp:314-525 | deserializing a serialized message, followed by any bytes, succeeds and gives exactly the wire copy of the message |
| CodecProperties.RoundTripSelf | src/rdma_control_channel.cpp:314-525 | a message that already holds the receiver's local fields survives the round trip unchanged |
| CodecProperties.TrailingBytesIgnored | src/rdma_control_channel.cpp:514-522 | bytes after the error text do not change the decoded message |
| CodecProperties.StrictPrefixRefused | src/rdma_control_channel.cpp:383-522 | every strict prefix of a serialized message is refused |
| CodecProperties.PresentFieldsStored | src/rdma_control_channel.cpp:383-503 | every header field that is wholly present in the data is stored into the message, even when decoding later fails |
| CodecProperties.MissingFieldsKept | src/rdma_control_channel.cpp:383-503 | a header field that the data does not wholly hold keeps the value the caller's message had |
| CodecProperties.TypeByteUnchecked | src/rdma_control_channel.cpp:387-388 | any type byte, also one outside 0..3, is accepted and stored |
| CodecProperties.StateByteUnchecked | src/rdma_control_channel.cpp:492-493 | any state byte is accepted and stored |
| CodecProperties.AcceptByteNonZero | src/rdma_control_channel.cpp:501-502 | the accept flag is true exactly when its byte is non-zero |
| CodecProperties.AnyHeaderParses | src/rdma_control_channel.cpp:373-525 | any 68 or more bytes with a zero text length decode successfully, with an empty error text |
| CodecProperties.CutInDestQpNum | src/rdma_control_channel.cpp:383-408 | data that ends inside the destination QP number fails there, after the type and QP number are already stored |
| CodecProperties.FrameRoundTrip | src/rdma_control_channel.cpp:200-275 | unframing a frame followed by any bytes returns the payload and exactly those bytes |
| CodecProperties.FramePrefixRefused | src/rdma_control_channel.cpp:250-275 | every strict prefix of a frame is refused |
| ControlChannel.StartServer | src/rdma_control_channel.cpp:9-67 | start_server works only from DISCONNECTED, and moves to CONNECTING with a listening socket, or to ERROR when a socket call fails |
| ControlChannel.AcceptConnection | src/rdma_control_channel.cpp:69-110 | accept works only in CONNECTING; a timeout changes nothing, a failure moves to ERROR, a peer moves to CONNECTED and records the peer's address |
| ControlChannel.ConnectToServer | src/rdma_control_channel.cpp:112-156 | connect works only from DISCONNECTED, and moves to CONNECTED with the peer recorded, or to ERROR on a failed socket, address or connect |
| ControlChannel.SendConnectRequest | src/rdma_control_channel.cpp:158-163 | send_connect_request sends, as send_message does, a CONNECT_REQUEST carrying the given QP description with the accept flag off and no error text |
| ControlChannel.SendConnectResponse | src/rdma_control_channel.cpp:165-172 | send_connect_response sends, as send_message does, a CONNECT_RESPONSE carrying the QP description and the accept decision, with no error text |
| ControlChannel.SendReady | src/rdma_control_channel.cpp:174-178 | send_ready sends, as send_message does, a READY message with the default QP description, the accept flag off and no error text |
| ControlChannel.SendMessage | src/rdma_control_channel.cpp:189-225 | a send on a connected channel writes one frame of the serialized message; a failed length or body write moves to ERROR, a failed body leaving only the length on the wire |
| ControlChannel.SendError | src/rdma_control_channel.cpp:180-187 | send_error sends an ERROR message with the text and then always ends in ERROR; the result, the bytes sent and every other part of the channel (recorded error, received stream, sockets, peer) are what send_message leaves |
| ControlChannel.ReceiveMessage | src/rdma_control_channel.cpp:227-279 | a receive on a connected channel takes one frame and decodes it into the caller's message; an incomplete frame moves to ERROR; a decoding failure reports false and records its cause as the last error but stays CONNECTED; a successful decode keeps the last error |
| ControlChannel.Close | src/rdma_control_channel.cpp:293-312 | closing returns to DISCONNECTED with no sockets open |
| ChannelProperties.ConnectRequestArrives | src/rdma_control_channel.cpp:158-163 | a connect request between two connected ends arrives as exactly the wire copy of a CONNECT_REQUEST holding the sender's QP description, accept off and no error text: its QP numbers, LID, PSN, GID, MTU and state are the sender's |
| ChannelProperties.ConnectResponseArrives | src/rdma_control_channel.cpp:165-172 | a connect response arrives as exactly the wire copy of a CONNECT_RESPONSE holding the QP description and the accept decision, with no error text |
| ChannelProperties.ReadyArrives | src/rdma_control_channel.cpp:174-178 | a ready message arrives as exactly the wire copy of a READY message with the default QP description, accept off and no error text |
| ChannelProperties.ErrorTextArrives | src/rdma_control_channel.cpp:180-187 | send_error delivers its text as an ERROR message while its own end goes to ERROR even though the send succeeded |
| ChannelProperties.ErrorIsSticky | src/rdma_control_channel.cpp:9-279 | in ERROR every operation fails and changes nothing |
| ChannelProperties.ServerHandshake | src/rdma_control_channel.cpp:9-110 | a fresh channel that listens and accepts a peer is CONNECTED to that peer |
| ChannelProperties.ClientHandshake | src/rdma_control_channel.cpp:112-156 | a successful connect is possible exactly from DISCONNECTED and ends CONNECTED to the given address |
| ChannelProperties.ReceiveFrameOf | src/rdma_control_channel.cpp:227-279 | a received whole frame of a serialized message is consumed and yields the wire copy of that message |
| ChannelProperties.SendThenReceive | src/rdma_control_channel.cpp:189-279 | a message sent on one connected end and carried to the other is received there whole, as its wire copy, with nothing left over |
| ChannelProperties.MessagesArriveInOrder | src/rdma_control_channel.cpp:227-279 | two frames in the stream are received as two messages in the order they were sent; the first receive leaves exactly the second frame unread and the second leaves nothing |
| ChannelProperties.EmptyFrameKeepsConnection | src/rdma_control_channel.cpp:375-378 | a zero-length frame is consumed and refused with the empty-data error recorded, the connection stays up and the caller's message is untouched |
| ChannelProperties.FailedBodyLeavesBrokenFrame | src/rdma_control_channel.cpp:203-222 | a send whose body fails leaves only the length prefix on the wire, and the peer cannot read a frame from it |

## Left out

- Threads, mutexes, atomics, the network thread and the configurable sleeps (`maybe_sleep_ns`): every operation is modelled as one atomic step.
- `allocate_mr` and `free_mr` (src/rdma_device.cpp:769-785): both are stubs that allocate and free nothing.
- `cleanup_resources` and the destructor (src/rdma_device.cpp:47-56, 267-284): cleanup clears the four device maps and destroys the four caches, and it runs only when the device is destroyed. The model has no operation that removes a device. In C++ the global registry entries of that device's QPs are then left dangling; the model does not reach that state.
- `created_time`, the `comp_vector` field of `CQValue`, the `resources` table of `PDValue` and `max_connections`: nothing in the core reads them.
- The `std::cout`/`std::cerr` logging of post_send and post_recv (for example src/rdma_device.cpp:488-508): it changes no state.
- Raw pointers: a buffer is a `BufferId` into a byte heap. Reading past what was written reads zero, where C++ would read undefined memory.
- DataPath.ReadBuf: a null source pointer reads zeros. The C++ memcpy from a null `local_addr` (src/rdma_device.cpp:535 and 580-582) is undefined behaviour.
- DataPath.WriteBuf: a null destination writes nothing. The C++ memcpy to a null `local_addr` in post_recv (src/rdma_device.cpp:640) is undefined behaviour.
- DataPath.WriteBuf: a write longer than the buffer extends it. In C++ the copy would run past the caller's allocation; the model does not track allocation sizes.
- Socket calls, `poll` and `inet_pton`: their outcomes are parameters of the channel operations. `errno` texts are not modelled; the error becomes a `ChannelError` kind, and the text deserialize_message stores becomes `DecodeFailed` with the `DecodeError` cause.
- The port given to `start_server` is not recorded, since nothing reads it back.
- TCP short reads and writes: the byte stream is everything that will arrive. A failed body write is modelled as sending nothing of the body.
- `close_connection` is private and runs only from the destructor. `Close` models it as a separate operation.
- Host byte order is fixed as little-endian for the fields of `serialize_message`. The length prefix is big-endian, as `htonl` gives.
- `OverflowCache.Victim`: the eviction choice is a function of the key set alone. The real hash map's iteration order also depends on insertion history, so the lemmas hold for any choice but do not model one particular standard library.
- DeviceProperties.CreateQpThenGet: requires the QP counter below 2^32 − 1. The wrap-around of the 32-bit counter to 0 is modelled (`Bump`) but not given its own lemma. The same holds for CreateCqThenGet, RegisterMrThenGet and CreatePdKeepsInv, and for CreateCqsConsecutive and CreateCqsPlacement, which require that the CQ counter does not wrap over the whole run.
- CodecProperties.RoundTrip: requires the error text to be shorter than 2^32 bytes. Longer texts have their length truncated by the 32-bit field (`Trunc32`), which the model states but the round trip does not cover.
- A registry entry whose QP was destroyed holds a dangling pointer in C++. The model resolves such an entry to no QP, so a send to it delivers nothing, where C++ would write through freed memory.
- The stale header include/rdma_device.hpp, the benchmarks and the other tests are not part of this model.

## Findings

| source | as written | input that shows it | evidently intended | confidence | as-written member | corrected member |
|---|---|---|---|---|---|---|
| src/rdma_device.cpp:786-790 | `validate_qp_transition` returns true for every pair of states | a QP in RTS asked to move to INIT | RTS→INIT is refused (test/test_rdma_device.cpp:157-159) | not executed | DeviceProperties.StubAcceptsRtsToInit | DeviceProperties.LegalTableDrivesToRtsAndRejectsInit |
| src/rdma_device.cpp:121-150 | `create_cq` never checks `max_cqe` | `create_cq(0)` | returns 0 (test/test_rdma_device.cpp:57-58) | not executed | DeviceProperties.CreateCqAcceptsZeroDepth | DeviceProperties.CreateCqCheckedRejectsOnlyZero |
| src/rdma_device.cpp:58-119 | `create_qp` ignores `max_send_wr` | `create_qp(0, 8, cq, cq)` with a valid CQ | returns 0 (test/test_rdma_device.cpp:84-86) | not executed | DeviceProperties.CreateQpAcceptsZeroSendDepth | DeviceProperties.CreateQpCheckedRejectsOnlyZero |
| src/rdma_device.cpp:152-181 | `register_mr` never checks the address | `register_mr(nullptr, 4096, flags)` | returns 0 (test/test_rdma_device.cpp:117-118) | not executed | DeviceProperties.RegisterMrAcceptsNull | DeviceProperties.RegisterMrCheckedRejectsOnlyNull |

=== FILE: channel_properties.dfy ===
/**
 * Properties of the connection state machine: that ERROR is left only by
 * closing, how a connection is established, and that a message sent on
 * one end arrives, in order, on the other.
 */
module ChannelProperties {
  import opened RdmaTypes
  import opened ControlCodec
  import opened CodecProperties
  import opened ControlChannel

  /** Once in ERROR every operation fails and the channel stays in ERROR until it is closed. */
  lemma ErrorIsSticky(c: Channel, setup: ServerSetup, poll: PollResult, peer: Option<(string, u16)>,
                      ip: string, port: u16, ok1: bool, ok2: bool, ok3: bool,
                      msg: ControlMsg, prior: ControlMsg, text: seq<u8>)
    requires c.state == Error
    ensures StartServer(c, setup) == (c, false)
    ensures AcceptConnection(c, poll, peer) == (c, false)
    ensures ConnectToServer(c, ip, port, ok1, ok2, ok3) == (c, false)
    ensures SendMessage(c, msg, ok1, ok2) == (c, false)
    ensures SendError(c, text, ok1, ok2) == (c, false)
    ensures ReceiveMessage(c, prior, poll) == (c, prior, false)
  {
  }

  /** A fresh channel that listens and accepts a peer is connected to that peer. */
  lemma ServerHandshake(address: string, port: u16)
    ensures var s := StartServer(NewChannel, ServerReady);
      var a := AcceptConnection(s.0, PollReady, Some((address, port)));
      && s.1 && a.1
      && a.0.state == Connected && a.0.socket && a.0.peerAddress == address && a.0.peerPort == port
      && Inv(a.0)
  {
  }

  /** A fresh channel that connects successfully is connected, and only a fresh one can. */
  lemma ClientHandshake(c: Channel, ip: string, port: u16)
    ensures ConnectToServer(c, ip, port, true, true, true).1 <==> c.state == Disconnected
    ensures var r := ConnectToServer(NewChannel, ip, port, true, true, true);
      r.0.state == Connected && r.0.peerAddress == ip && Inv(r.0)
  {
  }

  /** A whole frame holding `m`'s bytes is consumed and read as the wire copy of `m`. */
  lemma ReceiveFrameOf(c: Channel, m: ControlMsg, prior: ControlMsg, rest: seq<u8>)
    requires c.state == Connected && c.socket
    requires FixedSize + |m.errorMsg| < 0x1_0000_0000
    requires c.received == Frame(Serialize(m)) + rest
    ensures ReceiveMessage(c, prior, PollReady) == (c.(received := rest), WireCopy(prior, m), true)
  {
    var s := Serialize(m);
    FrameRoundTrip(s, rest);
    RoundTrip(m, prior, []);
    assert s + [] == s;
  }

  /**
   * A message sent on one connected end and carried to the other arrives
   * there whole: the receiver gets the wire copy of it in its message,
   * stays connected and has nothing left unread.
   */
  lemma SendThenReceive(a: Channel, b: Channel, msg: ControlMsg, prior: ControlMsg)
    requires a.state == Connected && a.socket && a.sent == []
    requires b.state == Connected && b.socket && b.received == []
    requires FixedSize + |msg.errorMsg| < 0x1_0000_0000
    ensures var a1 := SendMessage(a, msg, true, true).0;
      var t := Transfer(a1, b);
      ReceiveMessage(t.1, prior, PollReady) == (b, WireCopy(prior, msg), true)
  {
    var t := Transfer(SendMessage(a, msg, true, true).0, b);
    assert t.1.received == Frame(Serialize(msg)) + [];
    ReceiveFrameOf(t.1, msg, prior, []);
  }

  /** Two frames in the stream are read as two messages, in the order they were written. */
  lemma MessagesArriveInOrder(c: Channel, m1: ControlMsg, m2: ControlMsg, p1: ControlMsg, p2: ControlMsg)
    requires c.state == Connected && c.socket
    requires FixedSize + |m1.errorMsg| < 0x1_0000_0000 && FixedSize + |m2.errorMsg| < 0x1_0000_0000
    requires c.received == Frame(Serialize(m1)) + Frame(Serialize(m2))
    ensures var c1 := c.(received := Frame(Serialize(m2)));
      && ReceiveMessage(c, p1, PollReady) == (c1, WireCopy(p1, m1), true)
      && ReceiveMessage(c1, p2, PollReady) == (c.(received := []), WireCopy(p2, m2), true)
  {
    var c1 := c.(received := Frame(Serialize(m2)));
    ReceiveFrameOf(c, m1, p1, Frame(Serialize(m2)));
    ReceiveLastFrame(c1, m2, p2);
    assert c1.(received := []) == c.(received := []);
  }

  /** The last whole frame in the stream is read as the wire copy of its message, leaving nothing unread. */
  lemma ReceiveLastFrame(c: Channel, m: ControlMsg, prior: ControlMsg)
    requires c.state == Connected && c.socket
    requires FixedSize + |m.errorMsg| < 0x1_0000_0000
    requires c.received == Frame(Serialize(m))
    ensures ReceiveMessage(c, prior, PollReady) == (c.(received := []), WireCopy(prior, m), true)
  {
    assert c.received == Frame(Serialize(m)) + [];
    ReceiveFrameOf(c, m, prior, []);
  }

  /**
   * A zero-length frame is consumed and refused by deserialize_message,
   * which records the empty data as the last error; the connection stays
   * up and the caller's message is untouched.
   */
  lemma EmptyFrameKeepsConnection(c: Channel, prior: ControlMsg, rest: seq<u8>)
    requires c.state == Connected && c.socket && c.received == Be32(0) + rest
    ensures ReceiveMessage(c, prior, PollReady) == (c.(received := rest, error := Some(DecodeFailed(EmptyData))), prior, false)
  {
    assert Frame([]) == Be32(0) + [];
    FrameRoundTrip([], rest);
    assert Frame([]) + rest == c.received;
  }

  /**
   * A send whose body fails leaves the length prefix alone on the wire,
   * and the peer then cannot read a frame from it.
   */
  lemma FailedBodyLeavesBrokenFrame(a: Channel, b: Channel, msg: ControlMsg)
    requires a.state == Connected && a.socket && a.sent == [] && b.received == []
    requires FixedSize + |msg.errorMsg| < 0x1_0000_0000
    ensures var s := SendMessage(a, msg, true, false);
      var t := Transfer(s.0, b);
      && !s.1 && s.0.state == Error
      && t.1.received == Be32(|Serialize(msg)|)
      && Unframe(t.1.received).error == Some(ShortBody)
  {
    var p := Serialize(msg);
    var s := SendMessage(a, msg, true, false);
    assert Frame(p)[..4] == Be32(|p|);
    assert s.0.sent == Be32(|p|);
    Be32RoundTrip(|p|);
    assert Transfer(s.0, b).1.received == Be32(|p|);
  }

  /**
   * A connect request carries the sender's QP description: the peer reads
   * exactly the wire copy of a CONNECT_REQUEST holding `qp`, with the
   * accept flag off and no error text, so its QP numbers, LIDs, PSNs, GIDs,
   * MTU and state are the sender's.
   */
  lemma ConnectRequestArrives(a: Channel, b: Channel, qp: QPValue, prior: ControlMsg)
    requires a.state == Connected && a.socket && a.sent == []
    requires b.state == Connected && b.socket && b.received == []
    ensures var s := SendConnectRequest(a, qp, true, true);
      var r := ReceiveMessage(Transfer(s.0, b).1, prior, PollReady);
      && s.1
      && r == (b, WireCopy(prior, ControlMsg(ConnectRequest, qp, false, [])), true)
  {
    SendThenReceive(a, b, ControlMsg(ConnectRequest, qp, false, []), prior);
  }

  /**
   * A connect response carries the QP description and the accept decision:
   * the peer reads exactly the wire copy of a CONNECT_RESPONSE holding
   * `qp` and `accept`, with no error text.
   */
  lemma ConnectResponseArrives(a: Channel, b: Channel, qp: QPValue, accept: bool, prior: ControlMsg)
    requires a.state == Connected && a.socket && a.sent == []
    requires b.state == Connected && b.socket && b.received == []
    ensures var s := SendConnectResponse(a, qp, accept, true, true);
      var r := ReceiveMessage(Transfer(s.0, b).1, prior, PollReady);
      && s.1
      && r == (b, WireCopy(prior, ControlMsg(ConnectResponse, qp, accept, [])), true)
  {
    SendThenReceive(a, b, ControlMsg(ConnectResponse, qp, accept, []), prior);
  }

  /**
   * A ready message arrives as READY with the default QP description: the
   * peer reads exactly the wire copy of that message.
   */
  lemma ReadyArrives(a: Channel, b: Channel, prior: ControlMsg)
    requires a.state == Connected && a.socket && a.sent == []
    requires b.state == Connected && b.socket && b.received == []
    ensures var s := SendReady(a, true, true);
      var r := ReceiveMessage(Transfer(s.0, b).1, prior, PollReady);
      && s.1
      && r == (b, WireCopy(prior, ControlMsg(Ready, DefaultQp, false, [])), true)
  {
    SendThenReceive(a, b, ControlMsg(Ready, DefaultQp, false, []), prior);
  }

  /**
   * send_error delivers its text to the peer as an ERROR message, yet
   * leaves its own end in ERROR even when the send succeeds.
   */
  lemma ErrorTextArrives(a: Channel, b: Channel, text: seq<u8>, prior: ControlMsg)
    requires a.state == Connected && a.socket && a.sent == []
    requires b.state == Connected && b.socket && b.received == []
    requires FixedSize + |text| < 0x1_0000_0000
    ensures var s := SendError(a, text, true, true);
      var r := ReceiveMessage(Transfer(s.0, b).1, prior, PollReady);
      && s.1 && s.0.state == Error
      && r.2 && r.1.msgType == ErrorMsg && r.1.errorMsg == text && r.0.state == Connected
  {
    var m := ControlMsg(ErrorMsg, DefaultQp, false, text);
    SendThenReceive(a, b, m, prior);
    assert Transfer(SendError(a, text, true, true).0, b).1 == Transfer(SendMessage(a, m, true, true).0, b).1;
  }
}

=== FILE: codec_properties.dfy ===
/**
 * Properties of the control-message codec and its frame: round trips,
 * refusal of truncated input, and what a refused or unusual input leaves
 * in the caller's message.
 */
module CodecProperties {
  import opened RdmaTypes
  import opened ControlCodec

  // ---------------------------------------------------------------------
  // The header walk
  // ---------------------------------------------------------------------

  /** A later header field ends no earlier than an earlier one. */
  lemma EndMonotone(f: Field, g: Field)
    requires Index(f) <= Index(g)
    ensures Offset(f) + Width(f) <= Offset(g) + Width(g)
    ensures Index(f) < Index(g) ==> Offset(f) + Width(f) <= Offset(g)
  {
  }

  /** Every field but the error length is a header field. */
  lemma HeaderIndex(g: Field)
    requires g != ErrorLenField
    ensures Index(g) <= 13
  {
  }

  lemma IndexInjective(f: Field, g: Field)
    requires Index(f) == Index(g)
    ensures f == g
  {
  }

  lemma SameRefl(m: ControlMsg, g: Field)
    ensures Same(m, m, g)
  {
  }

  /** One step of the walk: store field `f`, then go on from the next one. */
  lemma ReadFromStep(data: seq<u8>, f: Field, m: ControlMsg)
    requires Index(f) < 13 && Offset(f) + Width(f) <= |data|
    ensures Offset(Next(f).value) <= |data|
    ensures ReadFrom(data, f, m).0 == ReadFrom(data, Next(f).value, StoreField(m, f, data[Offset(f)..Offset(f) + Width(f)])).0
  {
  }

  /** The last header field ends the walk. */
  lemma ReadFromEnd(data: seq<u8>, f: Field, m: ControlMsg)
    requires Index(f) == 13 && Offset(f) + Width(f) <= |data|
    ensures ReadFrom(data, f, m).0 == StoreField(m, f, data[Offset(f)..Offset(f) + Width(f)])
  {
  }

  /** A field whose bytes are not all there stops the walk with nothing stored. */
  lemma ReadFromStop(data: seq<u8>, f: Field, m: ControlMsg)
    requires Index(f) <= 13 && Offset(f) <= |data| < Offset(f) + Width(f)
    ensures ReadFrom(data, f, m).0 == m
  {
  }

  /** The walk from `f` on never touches a field before `f`. */
  lemma {:induction false} ReadFromKeepsEarlier(data: seq<u8>, f: Field, m: ControlMsg, g: Field)
    requires Index(f) <= 13 && Offset(f) <= |data| && Index(g) < Index(f)
    ensures Same(ReadFrom(data, f, m).0, m, g)
    decreases 13 - Index(f)
  {
    if Offset(f) + Width(f) > |data| {
      ReadFromStop(data, f, m);
      SameRefl(m, g);
    } else {
      var b := data[Offset(f)..Offset(f) + Width(f)];
      var m1 := StoreField(m, f, b);
      StoreFieldFrame(m, f, b, g);
      if Index(f) == 13 {
        ReadFromEnd(data, f, m);
      } else {
        ReadFromStep(data, f, m);
        ReadFromKeepsEarlier(data, Next(f).value, m1, g);
        SameTrans(ReadFrom(data, f, m).0, m1, m, g);
      }
    }
  }

  /** The field the walk starts at is stored from its bytes when they are all there. */
  lemma ReadFromStoresHere(data: seq<u8>, f: Field, m: ControlMsg)
    requires Index(f) <= 13 && Offset(f) + Width(f) <= |data|
    ensures HasField(ReadFrom(data, f, m).0, f, data[Offset(f)..Offset(f) + Width(f)])
  {
    var b := data[Offset(f)..Offset(f) + Width(f)];
    var m1 := StoreField(m, f, b);
    StoreFieldHas(m, f, b);
    if Index(f) == 13 {
      ReadFromEnd(data, f, m);
    } else {
      ReadFromStep(data, f, m);
      ReadFromKeepsEarlier(data, Next(f).value, m1, f);
      HasFieldTransfer(ReadFrom(data, f, m).0, m1, f, b);
    }
  }

  /** Every header field from `f` on whose bytes are all present is stored from them. */
  lemma {:induction false} ReadFromStores(data: seq<u8>, f: Field, m: ControlMsg, g: Field)
    requires Index(f) <= Index(g) <= 13 && Offset(f) <= |data| && Offset(g) + Width(g) <= |data|
    ensures HasField(ReadFrom(data, f, m).0, g, data[Offset(g)..Offset(g) + Width(g)])
    decreases 13 - Index(f)
  {
    if Index(f) == Index(g) {
      IndexInjective(f, g);
      ReadFromStoresHere(data, f, m);
    } else {
      EndMonotone(f, g);
      ReadFromStep(data, f, m);
      ReadFromStores(data, Next(f).value, StoreField(m, f, data[Offset(f)..Offset(f) + Width(f)]), g);
    }
  }

  /** A header field the input does not fully contain keeps its prior value. */
  lemma {:induction false} ReadFromKeepsUnreached(data: seq<u8>, f: Field, m: ControlMsg, g: Field)
    requires Index(f) <= Index(g) <= 13 && Offset(f) <= |data| && |data| < Offset(g) + Width(g)
    ensures Same(ReadFrom(data, f, m).0, m, g)
    decreases 13 - Index(f)
  {
    if Offset(f) + Width(f) > |data| {
      ReadFromStop(data, f, m);
      SameRefl(m, g);
    } else {
      EndMonotone(f, g);
      if Index(f) == Index(g) {
        IndexInjective(f, g);
      }
      var b := data[Offset(f)..Offset(f) + Width(f)];
      var m1 := StoreField(m, f, b);
      StoreFieldFrame(m, f, b, g);
      ReadFromStep(data, f, m);
      ReadFromKeepsUnreached(data, Next(f).value, m1, g);
      SameTrans(ReadFrom(data, f, m).0, m1, m, g);
    }
  }

  /** The header bytes from `f` on are `f`'s bytes followed by those from the next field. */
  lemma EncodeFromStep(m: ControlMsg, f: Field)
    requires Index(f) < 13
    ensures EncodeFrom(m, f) == FieldBytes(m, f) + EncodeFrom(m, Next(f).value)
  {
  }

  /** Where field `g` sits in the header bytes from `f` on. */
  lemma {:induction false} EncodeFromSlice(m: ControlMsg, f: Field, g: Field)
    requires Index(f) <= Index(g) <= 13
    ensures Offset(f) <= Offset(g) && Offset(g) + Width(g) <= HeaderEnd
    ensures EncodeFrom(m, f)[Offset(g) - Offset(f)..Offset(g) - Offset(f) + Width(g)] == FieldBytes(m, g)
    decreases 13 - Index(f)
  {
    if Index(f) == Index(g) {
      IndexInjective(f, g);
      EncodeFromHead(m, f);
    } else {
      EncodeFromSlice(m, Next(f).value, g);
      EncodeFromSliceStep(m, f, g);
    }
  }

  /** The header bytes from `f` on start with `f`'s bytes. */
  lemma EncodeFromHead(m: ControlMsg, f: Field)
    requires Index(f) <= 13
    ensures Offset(f) + Width(f) <= HeaderEnd
    ensures EncodeFrom(m, f)[..Width(f)] == FieldBytes(m, f)
  {
    HeaderFieldBounds(f);
  }

  /** The position of `g` after `f` is its position after the next field, shifted by `f`'s width. */
  lemma EncodeFromSliceStep(m: ControlMsg, f: Field, g: Field)
    requires Index(f) < Index(g) <= 13
    ensures Offset(Next(f).value) <= Offset(g) && Offset(g) + Width(g) <= HeaderEnd
    ensures EncodeFrom(m, f)[Offset(g) - Offset(f)..Offset(g) - Offset(f) + Width(g)]
         == EncodeFrom(m, Next(f).value)[Offset(g) - Offset(Next(f).value)..Offset(g) - Offset(Next(f).value) + Width(g)]
  {
    var n := Next(f).value;
    EndMonotone(n, g);
    HeaderFieldBounds(g);
    EncodeFromStep(m, f);
    SliceOfJoin(EncodeFrom(m, f), FieldBytes(m, f), EncodeFrom(m, n), Offset(g) - Offset(f), Offset(g) - Offset(n), Width(g));
  }

  lemma SliceOfJoin(whole: seq<u8>, head: seq<u8>, rest: seq<u8>, at: int, j: int, w: int)
    requires whole == head + rest && at == |head| + j && 0 <= j && 0 <= w && j + w <= |rest|
    ensures whole[at..at + w] == rest[j..j + w]
  {
    SliceOfAppend(head, rest, j, j + w);
  }

  lemma SliceOfAppend(a: seq<u8>, b: seq<u8>, i: nat, j: nat)
    requires i <= j <= |b|
    ensures (a + b)[|a| + i..|a| + j] == b[i..j]
  {
  }

  /** In a header that encodes `m`, field `g`'s bytes are `m`'s encoding of it. */
  lemma EncodedFieldBytes(data: seq<u8>, m: ControlMsg, g: Field)
    requires |data| >= HeaderEnd && data[..HeaderEnd] == EncodeFrom(m, TypeField) && Index(g) <= 13
    ensures Offset(g) + Width(g) <= HeaderEnd
    ensures data[Offset(g)..Offset(g) + Width(g)] == FieldBytes(m, g)
  {
    TypeFieldFirst();
    EncodeFromSlice(m, TypeField, g);
    SliceOfPrefix(data, HeaderEnd, Offset(g), Offset(g) + Width(g));
  }

  lemma TypeFieldFirst()
    ensures Index(TypeField) == 0 && Offset(TypeField) == 0
  {
  }

  lemma SliceOfPrefix(s: seq<u8>, k: nat, i: nat, j: nat)
    requires i <= j <= k <= |s|
    ensures s[..k][i..j] == s[i..j]
  {
  }

  /** A field that holds `m`'s encoding of it agrees with `m` there. */
  lemma SameFromEncoding(h: ControlMsg, m: ControlMsg, g: Field)
    requires HasField(h, g, FieldBytes(m, g))
    ensures Same(h, m, g)
  {
    StoreFieldBytes(h, m, g);
  }

  /** Reading a header that encodes `m` takes field `g` from `m`. */
  lemma ReadsFieldOf(data: seq<u8>, p: ControlMsg, m: ControlMsg, g: Field)
    requires |data| >= HeaderEnd && data[..HeaderEnd] == EncodeFrom(m, TypeField) && g != ErrorLenField
    ensures Same(ReadFrom(data, TypeField, p).0, m, g)
  {
    HeaderIndex(g);
    EncodedFieldBytes(data, m, g);
    ReadFromStores(data, TypeField, p, g);
    SameFromEncoding(ReadFrom(data, TypeField, p).0, m, g);
  }

  // ---------------------------------------------------------------------
  // Round trip
  // ---------------------------------------------------------------------

  /**
   * What deserializing `m`'s bytes into `prior` yields: every transmitted
   * field from `m`; the CQ ids, receive buffer and pending data of the QP
   * description from `prior`.
   */
  function WireCopy(prior: ControlMsg, m: ControlMsg): (r: ControlMsg)
    ensures r.msgType == m.msgType && r.accept == m.accept && r.errorMsg == m.errorMsg
    ensures var q, n := r.qpInfo, m.qpInfo;
      && q.qpNum == n.qpNum && q.destQpNum == n.destQpNum && q.lid == n.lid && q.remoteLid == n.remoteLid
      && q.portNum == n.portNum && q.qpAccessFlags == n.qpAccessFlags && q.psn == n.psn
      && q.remotePsn == n.remotePsn && q.gid == n.gid && q.remoteGid == n.remoteGid
      && q.mtu == n.mtu && q.state == n.state
    ensures SameLocal(r.qpInfo, prior.qpInfo)
  {
    var p := prior.qpInfo;
    m.(qpInfo := m.qpInfo.(sendCq := p.sendCq, recvCq := p.recvCq, recvAddr := p.recvAddr,
                           recvLength := p.recvLength, pendingData := p.pendingData))
  }

  /** `h` agrees with `m` on every header field. */
  predicate SameHeader(h: ControlMsg, m: ControlMsg)
  {
    && Same(h, m, TypeField) && Same(h, m, QpNumField) && Same(h, m, DestQpNumField)
    && Same(h, m, LidField) && Same(h, m, RemoteLidField) && Same(h, m, PortNumField)
    && Same(h, m, AccessFlagsField) && Same(h, m, PsnField) && Same(h, m, RemotePsnField)
    && Same(h, m, GidField) && Same(h, m, RemoteGidField) && Same(h, m, MtuField)
    && Same(h, m, StateField) && Same(h, m, AcceptField)
  }

  /** A message that agrees with `m` on the header and with `p` elsewhere is their wire copy. */
  lemma AgreeingIsWireCopy(h: ControlMsg, p: ControlMsg, m: ControlMsg)
    requires SameHeader(h, m) && SameLocal(h.qpInfo, p.qpInfo) && h.errorMsg == p.errorMsg
    ensures h == WireCopy(p, m).(errorMsg := p.errorMsg)
  {
    assert h.qpInfo == WireCopy(p, m).qpInfo;
  }

  /** Reading `m`'s header takes the first seven fields from `m`. */
  lemma ReadsFirstFieldsOf(data: seq<u8>, p: ControlMsg, m: ControlMsg)
    requires |data| >= HeaderEnd && data[..HeaderEnd] == EncodeFrom(m, TypeField)
    ensures var h := ReadFrom(data, TypeField, p).0;
      && Same(h, m, TypeField) && Same(h, m, QpNumField) && Same(h, m, DestQpNumField)
      && Same(h, m, LidField) && Same(h, m, RemoteLidField) && Same(h, m, PortNumField)
      && Same(h, m, AccessFlagsField)
  {
    ReadsFieldOf(data, p, m, TypeField);
    ReadsFieldOf(data, p, m, QpNumField);
    ReadsFieldOf(data, p, m, DestQpNumField);
    ReadsFieldOf(data, p, m, LidField);
    ReadsFieldOf(data, p, m, RemoteLidField);
    ReadsFieldOf(data, p, m, PortNumField);
    ReadsFieldOf(data, p, m, AccessFlagsField);
  }

  /** Reading `m`'s header takes the last seven fields from `m`. */
  lemma ReadsLastFieldsOf(data: seq<u8>, p: ControlMsg, m: ControlMsg)
    requires |data| >= HeaderEnd && data[..HeaderEnd] == EncodeFrom(m, TypeField)
    ensures var h := ReadFrom(data, TypeField, p).0;
      && Same(h, m, PsnField) && Same(h, m, RemotePsnField) && Same(h, m, GidField)
      && Same(h, m, RemoteGidField) && Same(h, m, MtuField) && Same(h, m, StateField)
      && Same(h, m, AcceptField)
  {
    ReadsFieldOf(data, p, m, PsnField);
    ReadsFieldOf(data, p, m, RemotePsnField);
    ReadsFieldOf(data, p, m, GidField);
    ReadsFieldOf(data, p, m, RemoteGidField);
    ReadsFieldOf(data, p, m, MtuField);
    ReadsFieldOf(data, p, m, StateField);
    ReadsFieldOf(data, p, m, AcceptField);
  }

  /** The header of `m`'s bytes read into `p` is the wire copy, error text aside. */
  lemma ReadHeaderOf(data: seq<u8>, p: ControlMsg, m: ControlMsg)
    requires |data| >= HeaderEnd && data[..HeaderEnd] == EncodeFrom(m, TypeField)
    ensures ReadFrom(data, TypeField, p).0 == WireCopy(p, m).(errorMsg := p.errorMsg)
  {
    ReadsFirstFieldsOf(data, p, m);
    ReadsLastFieldsOf(data, p, m);
    AgreeingIsWireCopy(ReadFrom(data, TypeField, p).0, p, m);
  }

  /**
   * deserialize(serialize(m) ++ junk) succeeds and restores the type, the
   * 12 transmitted QP fields, accept and the error text; bytes after the
   * error text are ignored.
   */
  lemma RoundTrip(m: ControlMsg, prior: ControlMsg, junk: seq<u8>)
    requires |m.errorMsg| < 0x1_0000_0000
    ensures Deserialize(Serialize(m) + junk, prior) == Decoded(WireCopy(prior, m), None)
  {
    var s := Serialize(m);
    var data := s + junk;
    assert data[..HeaderEnd] == s[..HeaderEnd];
    assert data[HeaderEnd..FixedSize] == s[HeaderEnd..FixedSize];
    ReadHeaderOf(data, prior, m);
    Le32RoundTrip(|m.errorMsg|);
    assert ErrorLenOf(data) == |m.errorMsg|;
    assert data[FixedSize..FixedSize + |m.errorMsg|] == m.errorMsg by {
      assert s[FixedSize..] == m.errorMsg;
    }
  }

  /** Deserializing into the message itself gives it back unchanged. */
  lemma RoundTripSelf(m: ControlMsg)
    requires |m.errorMsg| < 0x1_0000_0000
    ensures Deserialize(Serialize(m), m) == Decoded(m, None)
  {
    RoundTrip(m, m, []);
    assert Serialize(m) + [] == Serialize(m);
  }

  /** Trailing bytes after the error text change nothing. */
  lemma TrailingBytesIgnored(m: ControlMsg, prior: ControlMsg, junk: seq<u8>)
    requires |m.errorMsg| < 0x1_0000_0000
    ensures Deserialize(Serialize(m) + junk, prior) == Deserialize(Serialize(m), prior)
  {
    RoundTrip(m, prior, junk);
    RoundTrip(m, prior, []);
    assert Serialize(m) + [] == Serialize(m);
  }

  /** Every strict prefix of a serialized message is refused. */
  lemma StrictPrefixRefused(m: ControlMsg, prior: ControlMsg, n: nat)
    requires |m.errorMsg| < 0x1_0000_0000 && n < |Serialize(m)|
    ensures Deserialize(Serialize(m)[..n], prior).error.Some?
  {
    var s := Serialize(m);
    var data := s[..n];
    if n >= FixedSize {
      assert data[HeaderEnd..FixedSize] == s[HeaderEnd..FixedSize];
      Le32RoundTrip(|m.errorMsg|);
      assert ErrorLenOf(data) == |m.errorMsg|;
    }
  }

  // ---------------------------------------------------------------------
  // Arbitrary input
  // ---------------------------------------------------------------------

  /**
   * Success or not, every header field whose bytes are all present has
   * been stored into the caller's message: a refusal further on does not
   * undo it.
   */
  lemma PresentFieldsStored(data: seq<u8>, prior: ControlMsg, g: Field)
    requires g != ErrorLenField && Offset(g) + Width(g) <= |data|
    ensures HasField(Deserialize(data, prior).msg, g, data[Offset(g)..Offset(g) + Width(g)])
  {
    HeaderIndex(g);
    var h := ReadFrom(data, TypeField, prior);
    ReadFromStores(data, TypeField, prior, g);
    if h.1.None? {
      var r := ReadErrorText(data, h.0);
      assert Deserialize(data, prior) == r;
      assert r.msg == h.0.(errorMsg := r.msg.errorMsg);
    }
  }

  /** A header field the input does not fully contain keeps the caller's prior value. */
  lemma MissingFieldsKept(data: seq<u8>, prior: ControlMsg, g: Field)
    requires g != ErrorLenField && |data| < Offset(g) + Width(g)
    ensures Same(Deserialize(data, prior).msg, prior, g)
  {
    HeaderIndex(g);
    if |data| > 0 {
      ReadFromKeepsUnreached(data, TypeField, prior, g);
      HeaderFieldBounds(g);
      var h := ReadFrom(data, TypeField, prior);
      assert h.1.Some?;
    }
  }

  /** The type byte is cast to a message type without a range check. */
  lemma TypeByteUnchecked(data: seq<u8>, prior: ControlMsg)
    requires |data| >= 1
    ensures Deserialize(data, prior).msg.msgType == TypeOfByte(data[0])
  {
    PresentFieldsStored(data, prior, TypeField);
  }

  /** The state byte is cast to a QP state without a range check. */
  lemma StateByteUnchecked(data: seq<u8>, prior: ControlMsg)
    requires |data| >= 63
    ensures Deserialize(data, prior).msg.qpInfo.state == StateOfByte(data[62])
  {
    PresentFieldsStored(data, prior, StateField);
  }

  /** Any non-zero accept byte reads as true. */
  lemma AcceptByteNonZero(data: seq<u8>, prior: ControlMsg)
    requires |data| >= HeaderEnd
    ensures Deserialize(data, prior).msg.accept <==> data[63] != 0
  {
    PresentFieldsStored(data, prior, AcceptField);
  }

  /**
   * No header byte is range-checked: every input of at least FixedSize
   * bytes that announces no error text parses, whatever its type, state
   * and accept bytes hold.
   */
  lemma AnyHeaderParses(data: seq<u8>, prior: ControlMsg)
    requires |data| >= FixedSize && ErrorLenOf(data) == 0
    ensures var r := Deserialize(data, prior);
      && r.error.None?
      && r.msg.msgType == TypeOfByte(data[0])
      && r.msg.qpInfo.state == StateOfByte(data[62])
      && (r.msg.accept <==> data[63] != 0)
      && r.msg.errorMsg == []
  {
    TypeByteUnchecked(data, prior);
    StateByteUnchecked(data, prior);
    AcceptByteNonZero(data, prior);
  }

  /**
   * Example of a partial overwrite: five to eight bytes hold the type and
   * qp_num and are cut off inside dest_qp_num. The call is refused there, yet
   * type and qp_num have already been overwritten and dest_qp_num keeps
   * its prior value.
   */
  lemma CutInDestQpNum(data: seq<u8>, prior: ControlMsg)
    requires 5 <= |data| < 9
    ensures var r := Deserialize(data, prior);
      && r.error == Some(Truncated(DestQpNumField))
      && r.msg.msgType == TypeOfByte(data[0])
      && r.msg.qpInfo.qpNum == FromLe32(data[1..5])
      && r.msg.qpInfo.destQpNum == prior.qpInfo.destQpNum
  {
    PresentFieldsStored(data, prior, TypeField);
    PresentFieldsStored(data, prior, QpNumField);
    MissingFieldsKept(data, prior, DestQpNumField);
    DeserializeNamesCutField(data, prior);
    var r := Deserialize(data, prior);
    assert r.error.Some? && r.error.value.Truncated?;
  }

  // ---------------------------------------------------------------------
  // Frame
  // ---------------------------------------------------------------------

  /** Reading a frame back yields exactly the payload and leaves what followed it. */
  lemma FrameRoundTrip(payload: seq<u8>, rest: seq<u8>)
    requires |payload| < 0x1_0000_0000
    ensures Unframe(Frame(payload) + rest) == Unframed(payload, rest, None)
  {
    var s := Frame(payload) + rest;
    assert s[..4] == Be32(|payload|);
    Be32RoundTrip(|payload|);
    assert s[4..4 + |payload|] == payload;
    assert s[4 + |payload|..] == rest;
  }

  /** A stream that ends inside a frame is an error. */
  lemma FramePrefixRefused(payload: seq<u8>, n: nat)
    requires |payload| < 0x1_0000_0000 && n < |Frame(payload)|
    ensures Unframe(Frame(payload)[..n]).error.Some?
  {
    var s := Frame(payload)[..n];
    if n >= 4 {
      assert s[..4] == Be32(|payload|);
      Be32RoundTrip(|payload|);
    }
  }
}

=== FILE: control_channel.dfy ===
/**
 * The connection state machine of RdmaControlChannel
 * (src/rdma_control_channel.cpp). Every socket call becomes a parameter
 * saying how it went; the bytes written to the connection and the bytes
 * the peer has written and this side has not read yet are sequences.
 */
module ControlChannel {
  import opened RdmaTypes
  import opened ControlCodec

  /** ConnectionState, in declaration order. */
  datatype ConnState = Disconnected | Connecting | Connected | Error

  /** Which call failed, in place of error_msg_ (the errno text is not modelled). */
  datatype ChannelError =
    | SocketFailed | SockOptFailed | BindFailed | ListenFailed
    | PollFailed | AcceptFailed | InvalidAddress | ConnectFailed
    | SendLengthFailed | SendBodyFailed | RecvLengthFailed | RecvBodyFailed
    | DecodeFailed(cause: DecodeError)

  /**
   * socket, server and client say whether socket_fd_, server_socket_fd_
   * and client_socket_fd_ hold an open descriptor.
   */
  datatype Channel = Channel(
    state: ConnState,
    socket: bool,
    server: bool,
    client: bool,
    error: Option<ChannelError>,
    peerAddress: string,
    peerPort: u16,
    sent: seq<u8>,
    received: seq<u8>)

  /** The constructor: nothing open, disconnected. */
  const NewChannel := Channel(Disconnected, false, false, false, None, "", 0, [], [])

  /** A connected channel has a socket; a listening one has a server socket. */
  predicate Inv(c: Channel)
  {
    (c.state == Connected ==> c.socket) && (c.state == Connecting ==> c.server)
  }

  /**
   * The moves the state may make outside close_connection: stay, fail,
   * leave DISCONNECTED for CONNECTING or CONNECTED, or go from CONNECTING
   * to CONNECTED.
   */
  predicate Allowed(s: ConnState, t: ConnState)
  {
    s == t || t == Error
    || (s == Disconnected && (t == Connecting || t == Connected))
    || (s == Connecting && t == Connected)
  }

  // ---------------------------------------------------------------------
  // Establishing a connection
  // ---------------------------------------------------------------------

  /** How the socket, setsockopt, bind and listen calls of start_server went. */
  datatype ServerSetup = ServerReady | SocketFails | SetSockOptFails | BindFails | ListenFails

  /**
   * start_server: only from DISCONNECTED; a failing setup call leaves the
   * channel in ERROR without a server socket, success leaves it CONNECTING
   * with one.
   */
  function StartServer(c: Channel, setup: ServerSetup): (r: (Channel, bool))
    ensures c.state != Disconnected ==> r == (c, false)
    ensures r.1 <==> c.state == Disconnected && setup == ServerReady
    ensures r.1 ==> r.0 == c.(state := Connecting, server := true)
    ensures c.state == Disconnected && !r.1 ==> r.0.state == Error && !r.0.server && r.0.error.Some?
    ensures Inv(c) ==> Inv(r.0)
    ensures Allowed(c.state, r.0.state)
  {
    if c.state != Disconnected then (c, false)
    else
      match setup
      case ServerReady => (c.(state := Connecting, server := true), true)
      case SocketFails => (c.(state := Error, server := false, error := Some(SocketFailed)), false)
      case SetSockOptFails => (c.(state := Error, server := false, error := Some(SockOptFailed)), false)
      case BindFails => (c.(state := Error, server := false, error := Some(BindFailed)), false)
      case ListenFails => (c.(state := Error, server := false, error := Some(ListenFailed)), false)
  }

  /** What poll reported. */
  datatype PollResult = PollTimeout | PollFailure | PollReady

  /**
   * accept_connection: only when CONNECTING with a server socket. A
   * timeout changes nothing; a poll or accept failure is ERROR; an
   * accepted peer (address and port) makes the channel CONNECTED.
   */
  function AcceptConnection(c: Channel, poll: PollResult, peer: Option<(string, u16)>): (r: (Channel, bool))
    ensures c.state != Connecting || !c.server ==> r == (c, false)
    ensures poll == PollTimeout ==> r == (c, false)
    ensures r.1 <==> c.state == Connecting && c.server && poll == PollReady && peer.Some?
    ensures r.1 ==> r.0 == c.(state := Connected, socket := true, client := true,
                             peerAddress := peer.value.0, peerPort := peer.value.1)
    ensures c.state == Connecting && c.server && poll != PollTimeout && !r.1 ==> r.0.state == Error
    ensures Inv(c) ==> Inv(r.0)
    ensures Allowed(c.state, r.0.state)
  {
    if c.state != Connecting || !c.server then (c, false)
    else
      match poll
      case PollTimeout => (c, false)
      case PollFailure => (c.(state := Error, error := Some(PollFailed)), false)
      case PollReady =>
        match peer
        case None => (c.(state := Error, client := false, error := Some(AcceptFailed)), false)
        case Some(p) =>
          (c.(state := Connected, socket := true, client := true, peerAddress := p.0, peerPort := p.1), true)
  }

  /**
   * connect_to_server: only from DISCONNECTED. A failed socket call, an
   * address inet_pton rejects, or a failed connect is ERROR without a
   * socket; otherwise CONNECTED to that address and port.
   */
  function ConnectToServer(c: Channel, ip: string, port: u16, socketOk: bool, addrValid: bool, connectOk: bool): (r: (Channel, bool))
    ensures c.state != Disconnected ==> r == (c, false)
    ensures r.1 <==> c.state == Disconnected && socketOk && addrValid && connectOk
    ensures r.1 ==> r.0 == c.(state := Connected, socket := true, peerAddress := ip, peerPort := port)
    ensures c.state == Disconnected && !r.1 ==> r.0.state == Error && !r.0.socket && r.0.peerAddress == c.peerAddress
    ensures Inv(c) ==> Inv(r.0)
    ensures Allowed(c.state, r.0.state)
  {
    if c.state != Disconnected then (c, false)
    else if !socketOk then (c.(state := Error, socket := false, error := Some(SocketFailed)), false)
    else if !addrValid then (c.(state := Error, socket := false, error := Some(InvalidAddress)), false)
    else if !connectOk then (c.(state := Error, socket := false, error := Some(ConnectFailed)), false)
    else (c.(state := Connected, socket := true, peerAddress := ip, peerPort := port), true)
  }

  // ---------------------------------------------------------------------
  // Messages
  // ---------------------------------------------------------------------

  /**
   * send_message: only when CONNECTED with a socket. The length goes out
   * first; if that send fails nothing was written. If a body send fails
   * only the length counts as written. Either failure is ERROR.
   */
  function SendMessage(c: Channel, msg: ControlMsg, lengthSent: bool, bodySent: bool): (r: (Channel, bool))
    ensures c.state != Connected || !c.socket ==> r == (c, false)
    ensures r.1 <==> c.state == Connected && c.socket && lengthSent && bodySent
    ensures r.1 ==> r.0 == c.(sent := c.sent + Frame(Serialize(msg)))
    ensures c.state == Connected && c.socket && !r.1 ==> r.0.state == Error
    ensures r.0.received == c.received
    ensures Inv(c) ==> Inv(r.0)
    ensures Allowed(c.state, r.0.state)
  {
    if c.state != Connected || !c.socket then (c, false)
    else
      var frame := Frame(Serialize(msg));
      assert |frame| >= 4 by {
        assert |Serialize(msg)| >= FixedSize;
      }
      if !lengthSent then (c.(state := Error, error := Some(SendLengthFailed)), false)
      else if !bodySent then (c.(state := Error, error := Some(SendBodyFailed), sent := c.sent + frame[..4]), false)
      else (c.(sent := c.sent + frame), true)
  }

  /** send_connect_request: a default message of type CONNECT_REQUEST carrying the QP. */
  function SendConnectRequest(c: Channel, qp: QPValue, lengthSent: bool, bodySent: bool): (r: (Channel, bool))
    ensures r == SendMessage(c, ControlMsg(ConnectRequest, qp, false, []), lengthSent, bodySent)
  {
    SendMessage(c, DefaultControlMsg.(msgType := ConnectRequest, qpInfo := qp), lengthSent, bodySent)
  }

  /** send_connect_response: CONNECT_RESPONSE carrying the QP and the decision. */
  function SendConnectResponse(c: Channel, qp: QPValue, accept: bool, lengthSent: bool, bodySent: bool): (r: (Channel, bool))
    ensures r == SendMessage(c, ControlMsg(ConnectResponse, qp, accept, []), lengthSent, bodySent)
  {
    SendMessage(c, DefaultControlMsg.(msgType := ConnectResponse, qpInfo := qp, accept := accept), lengthSent, bodySent)
  }

  /** send_ready: READY with a default QP description. */
  function SendReady(c: Channel, lengthSent: bool, bodySent: bool): (r: (Channel, bool))
    ensures r == SendMessage(c, ControlMsg(Ready, DefaultQp, false, []), lengthSent, bodySent)
  {
    SendMessage(c, DefaultControlMsg.(msgType := Ready), lengthSent, bodySent)
  }

  /**
   * send_error: sends an ERROR message carrying the text, then puts the
   * channel in ERROR whether or not the send went through; everything else
   * (the recorded error, the received stream, the sockets, the peer) is
   * what the send left.
   */
  function SendError(c: Channel, text: seq<u8>, lengthSent: bool, bodySent: bool): (r: (Channel, bool))
    ensures r.0.state == Error
    ensures r.1 == SendMessage(c, ControlMsg(ErrorMsg, DefaultQp, false, text), lengthSent, bodySent).1
    ensures r.0.sent == SendMessage(c, ControlMsg(ErrorMsg, DefaultQp, false, text), lengthSent, bodySent).0.sent
    ensures r.0 == SendMessage(c, ControlMsg(ErrorMsg, DefaultQp, false, text), lengthSent, bodySent).0.(state := Error)
  {
    var s := SendMessage(c, DefaultControlMsg.(msgType := ErrorMsg, errorMsg := text), lengthSent, bodySent);
    (s.0.(state := Error), s.1)
  }

  /**
   * receive_message into the caller's message `prior`: only when CONNECTED
   * with a socket. A poll timeout changes nothing and a poll failure is
   * ERROR. A stream that ends inside the length or the body is ERROR with
   * the rest of the stream consumed. A whole frame is consumed and
   * deserialized into `prior`; a refusal there returns false and records
   * the cause as the last error, but leaves the channel CONNECTED. A
   * successful decode leaves the last error as it was.
   */
  function ReceiveMessage(c: Channel, prior: ControlMsg, poll: PollResult): (r: (Channel, ControlMsg, bool))
    ensures c.state != Connected || !c.socket || poll == PollTimeout ==> r == (c, prior, false)
    ensures c.state == Connected && c.socket && poll == PollFailure ==> r.0.state == Error && r.1 == prior && !r.2
    ensures c.state == Connected && c.socket && poll == PollReady ==>
      var u := Unframe(c.received);
      && (u.error.Some? ==> r.0 == c.(state := Error, error := r.0.error, received := []) && r.1 == prior && !r.2)
      && (u.error.None? ==>
            var d := Deserialize(u.payload, prior);
            && r.0 == c.(received := u.rest, error := r.0.error)
            && r.1 == d.msg && (r.2 <==> d.error.None?)
            && (d.error.None? ==> r.0.error == c.error)
            && (d.error.Some? ==> r.0.error == Some(DecodeFailed(d.error.value))))
    ensures r.0.sent == c.sent && (Inv(c) ==> Inv(r.0))
    ensures Allowed(c.state, r.0.state)
  {
    if c.state != Connected || !c.socket then (c, prior, false)
    else
      match poll
      case PollTimeout => (c, prior, false)
      case PollFailure => (c.(state := Error, error := Some(PollFailed)), prior, false)
      case PollReady =>
        var u := Unframe(c.received);
        match u.error
        case Some(ShortLength) => (c.(state := Error, error := Some(RecvLengthFailed), received := []), prior, false)
        case Some(ShortBody) => (c.(state := Error, error := Some(RecvBodyFailed), received := []), prior, false)
        case None =>
          var d := Deserialize(u.payload, prior);
          match d.error
          case None => (c.(received := u.rest), d.msg, true)
          case Some(e) => (c.(received := u.rest, error := Some(DecodeFailed(e))), d.msg, false)
  }

  /**
   * close_connection (run by the destructor): every descriptor closed and
   * the connection's byte streams gone; the last error and the peer are
   * kept.
   */
  function Close(c: Channel): (r: Channel)
    ensures r.state == Disconnected && !r.socket && !r.server && !r.client
    ensures r.sent == [] && r.received == []
    ensures r.error == c.error && r.peerAddress == c.peerAddress && r.peerPort == c.peerPort
    ensures Inv(r)
  {
    Channel(Disconnected, false, false, false, c.error, c.peerAddress, c.peerPort, [], [])
  }

  /** The network carries what `a` has written into `b`'s unread bytes. */
  function Transfer(a: Channel, b: Channel): (r: (Channel, Channel))
    ensures r.0.sent == [] && r.1.received == b.received + a.sent
    ensures r.0 == a.(sent := []) && r.1 == b.(received := r.1.received)
  {
    (a.(sent := []), b.(received := b.received + a.sent))
  }
}

=== FILE: control_codec.dfy ===
/**
 * The control-message codec of RdmaControlChannel
 * (src/rdma_control_channel.cpp): serialize_message, deserialize_message
 * and the length-prefix frame send_message and receive_message put around
 * a serialized message.
 *
 * A serialized message is a 64-byte header of fixed fields, a 4-byte
 * error length, and the error text. The source copies integers in host
 * byte order; the model fixes little-endian. Only the frame length is
 * big-endian (htonl/ntohl).
 */
module ControlCodec {
  import opened RdmaTypes

  // ---------------------------------------------------------------------
  // Integer encodings
  // ---------------------------------------------------------------------

  function Le16(x: u16): (b: seq<u8>)
    ensures |b| == 2
  {
    [x % 0x100, x / 0x100]
  }

  function FromLe16(b: seq<u8>): u16
    requires |b| == 2
  {
    b[0] as int + 0x100 * b[1] as int
  }

  lemma Le16RoundTrip(x: u16)
    ensures FromLe16(Le16(x)) == x
  {
  }

  function Le32(x: u32): (b: seq<u8>)
    ensures |b| == 4
  {
    Le16(x % 0x1_0000) + Le16(x / 0x1_0000)
  }

  function FromLe32(b: seq<u8>): u32
    requires |b| == 4
  {
    FromLe16(b[..2]) + 0x1_0000 * FromLe16(b[2..])
  }

  lemma Le32RoundTrip(x: u32)
    ensures FromLe32(Le32(x)) == x
  {
    var b := Le32(x);
    assert b[..2] == Le16(x % 0x1_0000);
    assert b[2..] == Le16(x / 0x1_0000);
    Le16RoundTrip(x % 0x1_0000);
    Le16RoundTrip(x / 0x1_0000);
  }

  /** htonl: the most significant byte first. */
  function Be32(x: u32): (b: seq<u8>)
    ensures |b| == 4
  {
    var l := Le32(x);
    [l[3], l[2], l[1], l[0]]
  }

  /** ntohl. */
  function FromBe32(b: seq<u8>): u32
    requires |b| == 4
  {
    FromLe32([b[3], b[2], b[1], b[0]])
  }

  lemma Be32RoundTrip(x: u32)
    ensures FromBe32(Be32(x)) == x
  {
    var b := Be32(x);
    assert [b[3], b[2], b[1], b[0]] == Le32(x);
    Le32RoundTrip(x);
  }

  /** The value of a size_t length stored in a uint32_t: reduced modulo 2^32. */
  function Trunc32(n: nat): (r: u32)
    ensures n < 0x1_0000_0000 ==> r == n
  {
    if n < 0x1_0000_0000 then n else n % 0x1_0000_0000
  }

  // ---------------------------------------------------------------------
  // Wire layout
  // ---------------------------------------------------------------------

  /** The serialized fields in wire order. */
  datatype Field =
    | TypeField | QpNumField | DestQpNumField | LidField | RemoteLidField | PortNumField
    | AccessFlagsField | PsnField | RemotePsnField | GidField | RemoteGidField | MtuField
    | StateField | AcceptField | ErrorLenField

  function Index(f: Field): (i: nat)
    ensures i <= 14
  {
    match f
    case TypeField => 0
    case QpNumField => 1
    case DestQpNumField => 2
    case LidField => 3
    case RemoteLidField => 4
    case PortNumField => 5
    case AccessFlagsField => 6
    case PsnField => 7
    case RemotePsnField => 8
    case GidField => 9
    case RemoteGidField => 10
    case MtuField => 11
    case StateField => 12
    case AcceptField => 13
    case ErrorLenField => 14
  }

  function Width(f: Field): nat
  {
    match f
    case TypeField => 1
    case QpNumField => 4
    case DestQpNumField => 4
    case LidField => 2
    case RemoteLidField => 2
    case PortNumField => 1
    case AccessFlagsField => 4
    case PsnField => 4
    case RemotePsnField => 4
    case GidField => 16
    case RemoteGidField => 16
    case MtuField => 4
    case StateField => 1
    case AcceptField => 1
    case ErrorLenField => 4
  }

  function Offset(f: Field): nat
  {
    match f
    case TypeField => 0
    case QpNumField => 1
    case DestQpNumField => 5
    case LidField => 9
    case RemoteLidField => 11
    case PortNumField => 13
    case AccessFlagsField => 14
    case PsnField => 18
    case RemotePsnField => 22
    case GidField => 26
    case RemoteGidField => 42
    case MtuField => 58
    case StateField => 62
    case AcceptField => 63
    case ErrorLenField => 64
  }

  /** Bytes before the error length: type, the 12 QP fields and the accept flag. */
  const HeaderEnd: nat := 64

  /** Bytes before the error text. */
  const FixedSize: nat := 68

  /** The header field after `f`; the header ends after the accept flag. */
  function Next(f: Field): (g: Option<Field>)
    ensures g.Some? ==> Index(g.value) == Index(f) + 1 && Offset(g.value) == Offset(f) + Width(f)
    ensures g.None? <==> Index(f) >= 13
  {
    match f
    case TypeField => Some(QpNumField)
    case QpNumField => Some(DestQpNumField)
    case DestQpNumField => Some(LidField)
    case LidField => Some(RemoteLidField)
    case RemoteLidField => Some(PortNumField)
    case PortNumField => Some(AccessFlagsField)
    case AccessFlagsField => Some(PsnField)
    case PsnField => Some(RemotePsnField)
    case RemotePsnField => Some(GidField)
    case GidField => Some(RemoteGidField)
    case RemoteGidField => Some(MtuField)
    case MtuField => Some(StateField)
    case StateField => Some(AcceptField)
    case AcceptField => None
    case ErrorLenField => None
  }

  /** Every header field ends within the header, and only the accept flag ends exactly at its end. */
  lemma HeaderFieldBounds(f: Field)
    requires Index(f) <= 13
    ensures Offset(f) + Width(f) <= HeaderEnd
    ensures Offset(f) + Width(f) == HeaderEnd <==> f == AcceptField
  {
  }

  // ---------------------------------------------------------------------
  // One field: its bytes, storing them, copying it
  // ---------------------------------------------------------------------

  /** The bytes serialize_message appends for field `f` of `m`. */
  function FieldBytes(m: ControlMsg, f: Field): (b: seq<u8>)
    ensures |b| == Width(f)
  {
    match f
    case TypeField => [TypeByte(m.msgType)]
    case QpNumField => Le32(m.qpInfo.qpNum)
    case DestQpNumField => Le32(m.qpInfo.destQpNum)
    case LidField => Le16(m.qpInfo.lid)
    case RemoteLidField => Le16(m.qpInfo.remoteLid)
    case PortNumField => [m.qpInfo.portNum]
    case AccessFlagsField => Le32(m.qpInfo.qpAccessFlags)
    case PsnField => Le32(m.qpInfo.psn)
    case RemotePsnField => Le32(m.qpInfo.remotePsn)
    case GidField => m.qpInfo.gid
    case RemoteGidField => m.qpInfo.remoteGid
    case MtuField => Le32(m.qpInfo.mtu)
    case StateField => [StateByte(m.qpInfo.state)]
    case AcceptField => [if m.accept then 1 else 0]
    case ErrorLenField => Le32(Trunc32(|m.errorMsg|))
  }

  /**
   * What deserialize_message stores for field `f` read from `b`: the type
   * and state bytes are cast without a range check, any non-zero accept
   * byte is true, and the error length is kept in no field.
   */
  function StoreField(m: ControlMsg, f: Field, b: seq<u8>): ControlMsg
    requires |b| == Width(f)
  {
    var q := m.qpInfo;
    match f
    case TypeField => m.(msgType := TypeOfByte(b[0]))
    case QpNumField => m.(qpInfo := q.(qpNum := FromLe32(b)))
    case DestQpNumField => m.(qpInfo := q.(destQpNum := FromLe32(b)))
    case LidField => m.(qpInfo := q.(lid := FromLe16(b)))
    case RemoteLidField => m.(qpInfo := q.(remoteLid := FromLe16(b)))
    case PortNumField => m.(qpInfo := q.(portNum := b[0]))
    case AccessFlagsField => m.(qpInfo := q.(qpAccessFlags := FromLe32(b)))
    case PsnField => m.(qpInfo := q.(psn := FromLe32(b)))
    case RemotePsnField => m.(qpInfo := q.(remotePsn := FromLe32(b)))
    case GidField => m.(qpInfo := q.(gid := b))
    case RemoteGidField => m.(qpInfo := q.(remoteGid := b))
    case MtuField => m.(qpInfo := q.(mtu := FromLe32(b)))
    case StateField => m.(qpInfo := q.(state := StateOfByte(b[0])))
    case AcceptField => m.(accept := b[0] != 0)
    case ErrorLenField => m
  }

  /** `m` with field `f` taken from `src`. */
  function CopyField(m: ControlMsg, src: ControlMsg, f: Field): ControlMsg
  {
    var q := m.qpInfo;
    var s := src.qpInfo;
    match f
    case TypeField => m.(msgType := src.msgType)
    case QpNumField => m.(qpInfo := q.(qpNum := s.qpNum))
    case DestQpNumField => m.(qpInfo := q.(destQpNum := s.destQpNum))
    case LidField => m.(qpInfo := q.(lid := s.lid))
    case RemoteLidField => m.(qpInfo := q.(remoteLid := s.remoteLid))
    case PortNumField => m.(qpInfo := q.(portNum := s.portNum))
    case AccessFlagsField => m.(qpInfo := q.(qpAccessFlags := s.qpAccessFlags))
    case PsnField => m.(qpInfo := q.(psn := s.psn))
    case RemotePsnField => m.(qpInfo := q.(remotePsn := s.remotePsn))
    case GidField => m.(qpInfo := q.(gid := s.gid))
    case RemoteGidField => m.(qpInfo := q.(remoteGid := s.remoteGid))
    case MtuField => m.(qpInfo := q.(mtu := s.mtu))
    case StateField => m.(qpInfo := q.(state := s.state))
    case AcceptField => m.(accept := src.accept)
    case ErrorLenField => m
  }

  /** `a` and `b` agree on field `f`. */
  predicate Same(a: ControlMsg, b: ControlMsg, f: Field)
  {
    CopyField(a, b, f) == a
  }

  /** Field `f` of `m` holds what decoding `b` yields. */
  predicate HasField(m: ControlMsg, f: Field, b: seq<u8>)
    requires |b| == Width(f)
  {
    StoreField(m, f, b) == m
  }

  /** Decoding a field's encoding restores that field and nothing else. */
  lemma StoreFieldBytes(m: ControlMsg, src: ControlMsg, f: Field)
    ensures StoreField(m, f, FieldBytes(src, f)) == CopyField(m, src, f)
  {
    match f
    case TypeField =>
      TypeByteInjective(TypeOfByte(TypeByte(src.msgType)), src.msgType);
    case StateField =>
      StateByteInjective(StateOfByte(StateByte(src.qpInfo.state)), src.qpInfo.state);
    case QpNumField => Le32RoundTrip(src.qpInfo.qpNum);
    case DestQpNumField => Le32RoundTrip(src.qpInfo.destQpNum);
    case LidField => Le16RoundTrip(src.qpInfo.lid);
    case RemoteLidField => Le16RoundTrip(src.qpInfo.remoteLid);
    case AccessFlagsField => Le32RoundTrip(src.qpInfo.qpAccessFlags);
    case PsnField => Le32RoundTrip(src.qpInfo.psn);
    case RemotePsnField => Le32RoundTrip(src.qpInfo.remotePsn);
    case MtuField => Le32RoundTrip(src.qpInfo.mtu);
    case _ =>
  }

  /** Storing field `f` leaves every other field as it was. */
  lemma StoreFieldFrame(m: ControlMsg, f: Field, b: seq<u8>, g: Field)
    requires |b| == Width(f) && g != f
    ensures Same(StoreField(m, f, b), m, g)
  {
  }

  /** Storing field `f` then makes `f` hold those bytes. */
  lemma StoreFieldHas(m: ControlMsg, f: Field, b: seq<u8>)
    requires |b| == Width(f)
    ensures HasField(StoreField(m, f, b), f, b)
  {
  }

  /** A field that holds some bytes still holds them in a message that agrees with it on that field. */
  lemma HasFieldTransfer(a: ControlMsg, b: ControlMsg, f: Field, bytes: seq<u8>)
    requires |bytes| == Width(f) && HasField(b, f, bytes) && Same(a, b, f)
    ensures HasField(a, f, bytes)
  {
  }

  lemma SameTrans(a: ControlMsg, b: ControlMsg, c: ControlMsg, f: Field)
    requires Same(a, b, f) && Same(b, c, f)
    ensures Same(a, c, f)
  {
  }

  /** The fields of a QP description that are never transmitted. */
  predicate SameLocal(a: QPValue, b: QPValue)
  {
    a.sendCq == b.sendCq && a.recvCq == b.recvCq && a.recvAddr == b.recvAddr
    && a.recvLength == b.recvLength && a.pendingData == b.pendingData
  }

  // ---------------------------------------------------------------------
  // serialize_message
  // ---------------------------------------------------------------------

  /** The header bytes from field `f` on. */
  function EncodeFrom(m: ControlMsg, f: Field): (b: seq<u8>)
    requires Index(f) <= 13
    ensures |b| == HeaderEnd - Offset(f)
    decreases 13 - Index(f)
  {
    match Next(f)
    case None => FieldBytes(m, f)
    case Some(g) => FieldBytes(m, f) + EncodeFrom(m, g)
  }

  /**
   * serialize_message: the header, the error length as a uint32_t, and the
   * error text when that length is non-zero.
   */
  function Serialize(m: ControlMsg): (b: seq<u8>)
    ensures |m.errorMsg| < 0x1_0000_0000 ==> |b| == FixedSize + |m.errorMsg|
    ensures |b| >= FixedSize
    ensures b[..HeaderEnd] == EncodeFrom(m, TypeField)
    ensures b[HeaderEnd..FixedSize] == Le32(Trunc32(|m.errorMsg|))
    ensures b[FixedSize..] == if Trunc32(|m.errorMsg|) > 0 then m.errorMsg else []
  {
    var n := Trunc32(|m.errorMsg|);
    var head := EncodeFrom(m, TypeField);
    var tail := if n > 0 then m.errorMsg else [];
    var b := head + Le32(n) + tail;
    assert b[..HeaderEnd] == head;
    assert b[HeaderEnd..FixedSize] == Le32(n);
    assert b[FixedSize..] == tail;
    b
  }

  // ---------------------------------------------------------------------
  // deserialize_message
  // ---------------------------------------------------------------------

  /** Why deserialize_message refused its input. */
  datatype DecodeError = EmptyData | Truncated(field: Field) | TruncatedErrorText

  /** The caller's message after the call, and the refusal if there was one. */
  datatype Decoded = Decoded(msg: ControlMsg, error: Option<DecodeError>)

  /**
   * Reads the header fields from `f` on into `m`, one at a time; the first
   * field whose bytes are not all there stops the walk, with every field
   * before it already stored.
   */
  function ReadFrom(data: seq<u8>, f: Field, m: ControlMsg): (r: (ControlMsg, Option<Field>))
    requires Index(f) <= 13 && Offset(f) <= |data|
    ensures r.1.None? <==> |data| >= HeaderEnd
    ensures r.1.Some? ==> Index(f) <= Index(r.1.value) <= 13 && Offset(r.1.value) <= |data| < Offset(r.1.value) + Width(r.1.value)
    ensures SameLocal(r.0.qpInfo, m.qpInfo) && r.0.errorMsg == m.errorMsg
    decreases 13 - Index(f)
  {
    HeaderFieldBounds(f);
    if Offset(f) + Width(f) > |data| then (m, Some(f))
    else
      var m1 := StoreField(m, f, data[Offset(f)..Offset(f) + Width(f)]);
      match Next(f)
      case None => (m1, None)
      case Some(g) => ReadFrom(data, g, m1)
  }

  /**
   * deserialize_message into the caller's message `prior`: empty input is
   * refused; otherwise each field is checked for length and stored in wire
   * order, the error text is read when its length is non-zero and cleared
   * otherwise, and bytes after it are ignored.
   */
  function Deserialize(data: seq<u8>, prior: ControlMsg): (r: Decoded)
    ensures |data| == 0 ==> r == Decoded(prior, Some(EmptyData))
    ensures r.error.None? <==> |data| >= FixedSize && FixedSize + ErrorLenOf(data) <= |data|
    ensures r.error.None? ==> r.msg.errorMsg == data[FixedSize..FixedSize + ErrorLenOf(data)]
    ensures SameLocal(r.msg.qpInfo, prior.qpInfo)
  {
    if |data| == 0 then Decoded(prior, Some(EmptyData))
    else
      var h := ReadFrom(data, TypeField, prior);
      if h.1.Some? then Decoded(h.0, Some(Truncated(h.1.value)))
      else ReadErrorText(data, h.0)
  }

  /** A refusal for a cut-off field names the field the input ends in. */
  lemma DeserializeNamesCutField(data: seq<u8>, prior: ControlMsg)
    ensures var r := Deserialize(data, prior);
      r.error.Some? && r.error.value.Truncated? ==>
        var f := r.error.value.field;
        Offset(f) <= |data| < Offset(f) + Width(f)
  {
    if |data| > 0 {
      var h := ReadFrom(data, TypeField, prior);
      if h.1.Some? {
        HeaderCutNamed(data, prior);
      } else {
        ErrorLenCutNamed(data, h.0);
      }
    }
  }

  /** A walk stopped inside the header reports the field it stopped at. */
  lemma HeaderCutNamed(data: seq<u8>, prior: ControlMsg)
    requires |data| > 0 && ReadFrom(data, TypeField, prior).1.Some?
    ensures Deserialize(data, prior).error == Some(Truncated(ReadFrom(data, TypeField, prior).1.value))
  {
  }

  /** After a whole header, the only field a refusal can name is the error length. */
  lemma ErrorLenCutNamed(data: seq<u8>, m: ControlMsg)
    requires |data| >= HeaderEnd
    ensures var r := ReadErrorText(data, m);
      r.error.Some? && r.error.value.Truncated? ==>
        var f := r.error.value.field;
        Offset(f) <= |data| < Offset(f) + Width(f)
  {
    if |data| < FixedSize {
      assert Offset(ErrorLenField) == HeaderEnd && Width(ErrorLenField) == 4;
    }
  }

  /** The error length a message of at least FixedSize bytes announces. */
  function ErrorLenOf(data: seq<u8>): u32
    requires |data| >= FixedSize
  {
    FromLe32(data[HeaderEnd..FixedSize])
  }

  /**
   * The tail of deserialize_message once the header is stored in `m`: the
   * error length must be there, and a non-zero one must be followed by
   * that many bytes.
   */
  function ReadErrorText(data: seq<u8>, m: ControlMsg): (r: Decoded)
    requires |data| >= HeaderEnd
    ensures r.msg.qpInfo == m.qpInfo
    ensures |data| < FixedSize ==> r == Decoded(m, Some(Truncated(ErrorLenField)))
    ensures r.error.None? <==> |data| >= FixedSize && FixedSize + ErrorLenOf(data) <= |data|
    ensures r.error.None? ==> r.msg == m.(errorMsg := data[FixedSize..FixedSize + ErrorLenOf(data)])
    ensures r.error.Some? ==> r.msg == m && (r.error == Some(TruncatedErrorText) || |data| < FixedSize)
  {
    if |data| < FixedSize then Decoded(m, Some(Truncated(ErrorLenField)))
    else
      var n := ErrorLenOf(data);
      if n == 0 then Decoded(m.(errorMsg := []), None)
      else if FixedSize + n > |data| then Decoded(m, Some(TruncatedErrorText))
      else Decoded(m.(errorMsg := data[FixedSize..FixedSize + n]), None)
  }

  // ---------------------------------------------------------------------
  // Frame
  // ---------------------------------------------------------------------

  /**
   * What send_message writes for a serialized message: its length as a
   * big-endian uint32_t, then that many bytes (the length is the size
   * reduced to 32 bits, and only that many bytes are sent).
   */
  function Frame(payload: seq<u8>): (r: seq<u8>)
    ensures |payload| < 0x1_0000_0000 ==> r == Be32(|payload|) + payload
  {
    var n := Trunc32(|payload|);
    Be32(n) + payload[..n]
  }

  /** Why receive_message could not read a frame. */
  datatype FrameError = ShortLength | ShortBody

  datatype Unframed = Unframed(payload: seq<u8>, rest: seq<u8>, error: Option<FrameError>)

  /**
   * What receive_message reads: four length bytes, then that many payload
   * bytes; a stream that ends first is an error.
   */
  function Unframe(stream: seq<u8>): (r: Unframed)
    ensures r.error.None? ==> |r.payload| < 0x1_0000_0000 && stream == Be32(|r.payload|) + r.payload + r.rest
    ensures |stream| < 4 <==> r.error == Some(ShortLength)
  {
    if |stream| < 4 then Unframed([], stream, Some(ShortLength))
    else
      var n := FromBe32(stream[..4]);
      if |stream| - 4 < n then Unframed([], stream, Some(ShortBody))
      else
        var head := stream[..4];
        assert Be32(n) == head by {
          Be32OfFromBe32(head);
        }
        assert stream == head + stream[4..4 + n] + stream[4 + n..];
        Unframed(stream[4..4 + n], stream[4 + n..], None)
  }

  /** Every four bytes are the htonl of what ntohl reads from them. */
  lemma Be32OfFromBe32(b: seq<u8>)
    requires |b| == 4
    ensures Be32(FromBe32(b)) == b
  {
    var lo := FromLe16([b[3], b[2]]);
    var hi := FromLe16([b[1], b[0]]);
    assert [b[3], b[2], b[1], b[0]][..2] == [b[3], b[2]];
    assert [b[3], b[2], b[1], b[0]][2..] == [b[1], b[0]];
    var x := FromBe32(b);
    assert x == lo as int + 0x1_0000 * hi as int;
    assert x % 0x1_0000 == lo && x / 0x1_0000 == hi;
  }
}

=== FILE: data_path.dfy ===
/**
 * The data path across device instances: post_send, post_recv and the
 * process-wide QP registry (src/rdma_device.cpp).
 *
 * A `World` holds every device, the registry and a heap of caller-owned
 * byte buffers. The source's registry stores a raw pointer into a device's
 * device map or host map; here it stores the owning device and the tier,
 * and the QP is looked up again under its number whenever the registry is
 * used. When that lookup misses (the QP was destroyed), nothing is
 * delivered.
 */
module DataPath {
  import opened RdmaTypes
  import opened OverflowCache
  import opened RdmaDevice

  type DeviceId = nat

  /** The two tiers a registry pointer can point into; cached QPs are never registered. */
  datatype Tier = DeviceTier | HostTier

  /** Where a registered QP lives: its device and tier. */
  datatype Handle = Handle(dev: DeviceId, tier: Tier)

  /** Caller-owned buffers, by id. */
  type Heap = map<BufferId, seq<u8>>

  datatype World = World(devices: map<DeviceId, Device>, registry: map<u32, Handle>, heap: Heap)

  // ---------------------------------------------------------------------
  // Caller buffers
  // ---------------------------------------------------------------------

  /** Byte i of a buffer; a null pointer, an unknown buffer or a read past its end yields 0. */
  function ByteAt(h: Heap, b: Option<BufferId>, i: nat): u8
  {
    if b.Some? && b.value in h && i < |h[b.value]| then h[b.value][i] else 0
  }

  /** The first n bytes at `b`. */
  function ReadBuf(h: Heap, b: Option<BufferId>, n: nat): (r: seq<u8>)
    ensures |r| == n
    ensures forall i :: 0 <= i < n ==> r[i] == ByteAt(h, b, i)
  {
    seq(n, i requires 0 <= i < n => ByteAt(h, b, i))
  }

  /** Reading fewer bytes reads a prefix. */
  lemma ReadBufPrefix(h: Heap, b: Option<BufferId>, m: nat, n: nat)
    requires n <= m
    ensures ReadBuf(h, b, m)[..n] == ReadBuf(h, b, n)
  {
  }

  /**
   * memcpy of `data` to the start of buffer `b`: the bytes beyond |data|
   * keep their value, and a null destination writes nothing.
   */
  function WriteBuf(h: Heap, b: Option<BufferId>, data: seq<u8>): (r: Heap)
    ensures b.None? ==> r == h
    ensures b.Some? ==> ReadBuf(r, b, |data|) == data
    ensures b.Some? ==> forall i :: |data| <= i ==> ByteAt(r, b, i) == ByteAt(h, b, i)
    ensures forall c :: c in h && Some(c) != b ==> c in r && r[c] == h[c]
    ensures forall c :: c in r ==> c in h || Some(c) == b
  {
    match b
    case None => h
    case Some(id) =>
      var old_ := if id in h then h[id] else [];
      h[id := if |data| >= |old_| then data else data + old_[|data|..]]
  }

  // ---------------------------------------------------------------------
  // Registry
  // ---------------------------------------------------------------------

  /** The QP a tier holds under `qpNum`. */
  function TierQp(d: Device, tier: Tier, qpNum: u32): Option<QPValue>
  {
    match tier
    case DeviceTier => if qpNum in d.qps then Some(d.qps[qpNum]) else None
    case HostTier => if qpNum in d.qpsHost then Some(d.qpsHost[qpNum]) else None
  }

  /** Writes a QP back into the tier a registry handle names. */
  function StoreTier(d: Device, tier: Tier, qpNum: u32, qp: QPValue): (r: Device)
    ensures TierQp(r, tier, qpNum) == Some(qp)
    ensures r.cqs == d.cqs && r.cqCache == d.cqCache && r.cqsHost == d.cqsHost
    ensures forall t, j :: j != qpNum || t != tier ==> TierQp(r, t, j) == TierQp(d, t, j)
    ensures TierQp(d, tier, qpNum).Some? ==> r.qps.Keys == d.qps.Keys
  {
    match tier
    case DeviceTier => d.(qps := d.qps[qpNum := qp])
    case HostTier => d.(qpsHost := d.qpsHost[qpNum := qp])
  }

  /** The QP the registry entry for `qpNum` leads to, if the entry exists and the QP is still there. */
  function Resolve(w: World, qpNum: u32): Option<QPValue>
  {
    if qpNum !in w.registry then None
    else
      var h := w.registry[qpNum];
      if h.dev !in w.devices then None else TierQp(w.devices[h.dev], h.tier, qpNum)
  }

  // ---------------------------------------------------------------------
  // post_send
  // ---------------------------------------------------------------------

  /**
   * The lookup at the start of post_send: the QP get_qp_info would find,
   * and the registry handle recorded for it. A device-map QP, and a
   * host-map QP while the cache is off, are registered; a cached QP is not.
   */
  function SendLookup(d: Device, cfg: Config, dev: DeviceId, qpNum: u32): (r: (Option<Handle>, Option<QPValue>))
    ensures r.1 == GetQpInfo(d, cfg, qpNum)
    ensures r.0.Some? <==> qpNum in d.qps || (!cfg.middleCache && qpNum in d.qpsHost)
    ensures r.0.Some? ==> r.0.value.dev == dev && (r.0.value.tier == DeviceTier <==> qpNum in d.qps)
    ensures r.0.Some? ==> TierQp(d, r.0.value.tier, qpNum) == r.1
  {
    if qpNum in d.qps then (Some(Handle(dev, DeviceTier)), Some(d.qps[qpNum]))
    else if cfg.middleCache then (None, Get(d.qpCache, qpNum))
    else if qpNum in d.qpsHost then (Some(Handle(dev, HostTier)), Some(d.qpsHost[qpNum]))
    else (None, None)
  }

  function SendCompletion(wr: WorkRequest): CompletionEntry
  {
    CompletionEntry(wr.wrId, 0, wr.opcode, wr.length, 0)
  }

  function RecvCompletion(wrId: u64, n: u32): CompletionEntry
  {
    CompletionEntry(wrId, 0, Recv, n, 0)
  }

  /** SEND and RDMA_WRITE move payload; the other opcodes only complete. */
  predicate CarriesPayload(op: Opcode)
  {
    op == Send || op == RdmaWrite
  }

  /**
   * The receiving half of post_send: the QP registered under `dest`, if it
   * can still be found, takes the payload, into its posted buffer when it
   * has one and into pending_data otherwise.
   */
  function Deliver(w: World, dest: u32, wr: WorkRequest, pick: Chooser): (r: World)
    ensures r.registry == w.registry
    ensures Resolve(w, dest).None? ==> r == w
    ensures r.devices.Keys == w.devices.Keys
    ensures forall k :: k in w.devices ==> r.devices[k].qps.Keys == w.devices[k].qps.Keys
    ensures forall k :: k in w.devices && (dest !in w.registry || k != w.registry[dest].dev) ==> r.devices[k] == w.devices[k]
  {
    match Resolve(w, dest)
    case None => w
    case Some(qp) =>
      if qp.recvAddr.Some? then FillBuffer(w, w.registry[dest], dest, qp, wr, pick)
      else StorePending(w, w.registry[dest], dest, qp, wr)
  }

  /**
   * Delivery to a QP with a posted buffer: min(length, recv_length) bytes
   * are copied, a RECV completion with wr_id 0 goes to the receiver's CQ
   * (device map, cache or host map of its own device), and the buffer is
   * cleared.
   */
  function FillBuffer(w: World, h: Handle, dest: u32, qp: QPValue, wr: WorkRequest, pick: Chooser): (r: World)
    requires h.dev in w.devices && TierQp(w.devices[h.dev], h.tier, dest) == Some(qp) && qp.recvAddr.Some?
    ensures r.registry == w.registry && r.devices.Keys == w.devices.Keys
    ensures forall k :: k in w.devices ==> r.devices[k].qps.Keys == w.devices[k].qps.Keys
    ensures var n := Min(wr.length, qp.recvLength);
      ReadBuf(r.heap, qp.recvAddr, n) == ReadBuf(w.heap, wr.localAddr, n)
    ensures TierQp(r.devices[h.dev], h.tier, dest) == Some(qp.(recvAddr := None, recvLength := 0))
    ensures CqForAppend(w.devices[h.dev], qp.recvCq, true).Some? ==>
      var cq := CqForAppend(w.devices[h.dev], qp.recvCq, true).value;
      CqForAppend(r.devices[h.dev], qp.recvCq, true) == Some(cq.(completions := cq.completions + [RecvCompletion(0, Min(wr.length, qp.recvLength))]))
  {
    var dd := w.devices[h.dev];
    var n: u32 := Min(wr.length, qp.recvLength);
    var heap := WriteBuf(w.heap, qp.recvAddr, ReadBuf(w.heap, wr.localAddr, n));
    var dd1 := AppendCompletion(dd, qp.recvCq, RecvCompletion(0, n), true, pick);
    var dd2 := StoreTier(dd1, h.tier, dest, qp.(recvAddr := None, recvLength := 0));
    assert CqForAppend(dd2, qp.recvCq, true) == CqForAppend(dd1, qp.recvCq, true);
    assert dd2.qps.Keys == dd.qps.Keys;
    w.(heap := heap, devices := w.devices[h.dev := dd2])
  }

  /** Delivery to a QP with no posted buffer: exactly `length` bytes of the sender's buffer replace pending_data. */
  function StorePending(w: World, h: Handle, dest: u32, qp: QPValue, wr: WorkRequest): (r: World)
    requires h.dev in w.devices && TierQp(w.devices[h.dev], h.tier, dest) == Some(qp)
    ensures r.registry == w.registry && r.devices.Keys == w.devices.Keys && r.heap == w.heap
    ensures forall k :: k in w.devices ==> r.devices[k].qps.Keys == w.devices[k].qps.Keys
    ensures TierQp(r.devices[h.dev], h.tier, dest) == Some(qp.(pendingData := ReadBuf(w.heap, wr.localAddr, wr.length)))
    ensures r.devices[h.dev].cqs == w.devices[h.dev].cqs && r.devices[h.dev].cqCache == w.devices[h.dev].cqCache
    ensures r.devices[h.dev].cqsHost == w.devices[h.dev].cqsHost
  {
    var dd := w.devices[h.dev];
    w.(devices := w.devices[h.dev := StoreTier(dd, h.tier, dest, qp.(pendingData := ReadBuf(w.heap, wr.localAddr, wr.length)))])
  }

  /**
   * The completion of a send: a signaled request appends {wr_id, 0,
   * opcode, length} to the send CQ (device map, then cache, then host map,
   * whatever the switch); an unsignaled one changes nothing.
   */
  function CompleteSend(w: World, dev: DeviceId, cqNum: u32, wr: WorkRequest, pick: Chooser): (r: World)
    requires dev in w.devices
    ensures r.registry == w.registry && r.heap == w.heap && r.devices.Keys == w.devices.Keys
    ensures forall k :: k in w.devices ==> r.devices[k].qps.Keys == w.devices[k].qps.Keys
    ensures !wr.signaled ==> r == w
    ensures wr.signaled ==> r.devices == w.devices[dev := AppendCompletion(w.devices[dev], cqNum, SendCompletion(wr), true, pick)]
  {
    if wr.signaled then w.(devices := w.devices[dev := AppendCompletion(w.devices[dev], cqNum, SendCompletion(wr), true, pick)]) else w
  }

  /**
   * post_send on QP `qpNum` of device `dev`. Fails unless the QP is found
   * and in RTS; a device- or host-map QP is registered even then. On
   * success a signaled request appends {wr_id, 0, opcode, length} to the
   * send CQ (device map, then cache, then host map, whatever the switch),
   * and a SEND or RDMA_WRITE is delivered to the QP registered under
   * dest_qp_num.
   */
  function PostSend(w: World, cfg: Config, dev: DeviceId, qpNum: u32, wr: WorkRequest, pick: Chooser): (r: (World, bool))
    requires dev in w.devices
    ensures r.1 <==> GetQpInfo(w.devices[dev], cfg, qpNum).Some? && GetQpInfo(w.devices[dev], cfg, qpNum).value.state == Rts
    ensures !r.1 ==> r.0.devices == w.devices && r.0.heap == w.heap
  {
    var d := w.devices[dev];
    var look := SendLookup(d, cfg, dev, qpNum);
    var w1 := if look.0.Some? then w.(registry := w.registry[qpNum := look.0.value]) else w;
    match look.1
    case None => (w1, false)
    case Some(qp) =>
      if qp.state != Rts then (w1, false)
      else
        var w2 := CompleteSend(w1, dev, qp.sendCq, wr, pick);
        var w3 := if CarriesPayload(wr.opcode) then Deliver(w2, qp.destQpNum, wr, pick) else w2;
        (w3, true)
  }

  // ---------------------------------------------------------------------
  // post_recv
  // ---------------------------------------------------------------------

  /**
   * The pending-payload step of post_recv on the QP `armed` (already given
   * the new buffer): with a payload waiting, min(size, length) bytes go to
   * the buffer, a RECV completion carrying wr.wr_id goes to the receive CQ
   * (device map or cache only), and payload and buffer are cleared.
   */
  function ConsumePending(d: Device, h: Heap, armed: QPValue, wr: WorkRequest, pick: Chooser): (r: (Device, Heap, QPValue))
    ensures |armed.pendingData| == 0 ==> r == (d, h, armed)
    ensures |armed.pendingData| > 0 ==>
      var n := Min(|armed.pendingData|, wr.length);
      && r.2 == armed.(pendingData := [], recvAddr := None, recvLength := 0)
      && r.1 == WriteBuf(h, wr.localAddr, armed.pendingData[..n])
      && r.0 == AppendCompletion(d, armed.recvCq, RecvCompletion(wr.wrId, n), false, pick)
  {
    if |armed.pendingData| == 0 then (d, h, armed)
    else
      var n: u32 := Min(|armed.pendingData|, wr.length);
      var heap := WriteBuf(h, wr.localAddr, armed.pendingData[..n]);
      var d1 := AppendCompletion(d, armed.recvCq, RecvCompletion(wr.wrId, n), false, pick);
      (d1, heap, armed.(pendingData := [], recvAddr := None, recvLength := 0))
  }

  /**
   * post_recv on QP `qpNum` of device `dev`: fails unless the QP is found
   * and in RTR or RTS. Otherwise records the buffer, consumes a waiting
   * payload, writes the QP back into its tier, and registers it only when
   * it lives in the device map.
   */
  function PostRecv(w: World, cfg: Config, dev: DeviceId, qpNum: u32, wr: WorkRequest, pick: Chooser): (r: (World, bool))
    requires dev in w.devices
    ensures r.1 <==> GetQpInfo(w.devices[dev], cfg, qpNum).Some? && GetQpInfo(w.devices[dev], cfg, qpNum).value.state in {Rtr, Rts}
    ensures !r.1 ==> r.0 == w
    ensures dev in r.0.devices && r.0.devices == w.devices[dev := r.0.devices[dev]]
  {
    var d := w.devices[dev];
    match GetQpInfo(d, cfg, qpNum)
    case None => (w, false)
    case Some(qp) =>
      if qp.state != Rtr && qp.state != Rts then (w, false)
      else
        var armed := qp.(recvAddr := wr.localAddr, recvLength := wr.length);
        var step := ConsumePending(d, w.heap, armed, wr, pick);
        var d2 := UpdateQp(step.0, cfg, qpNum, step.2, pick);
        var registry := if qpNum in d.qps then w.registry[qpNum := Handle(dev, DeviceTier)] else w.registry;
        (World(w.devices[dev := d2], registry, step.1), true)
  }
}

=== FILE: data_path_properties.dfy ===
/**
 * Properties of post_send, post_recv and the QP registry across devices.
 */
module DataPathProperties {
  import opened RdmaTypes
  import opened OverflowCache
  import opened RdmaDevice
  import opened DataPath

  // ---------------------------------------------------------------------
  // Registration
  // ---------------------------------------------------------------------

  /**
   * post_send registers a device-map QP, and a host-map QP while the cache
   * is off, whether or not the send then succeeds; any other lookup leaves
   * the registry as it was.
   */
  lemma PostSendRegistration(w: World, cfg: Config, dev: DeviceId, qpNum: u32, wr: WorkRequest, pick: Chooser)
    requires dev in w.devices
    ensures var d := w.devices[dev];
      var r := PostSend(w, cfg, dev, qpNum, wr, pick).0;
      && (qpNum in d.qps ==> r.registry == w.registry[qpNum := Handle(dev, DeviceTier)])
      && (qpNum !in d.qps && !cfg.middleCache && qpNum in d.qpsHost ==>
            r.registry == w.registry[qpNum := Handle(dev, HostTier)])
      && (qpNum !in d.qps && (cfg.middleCache || qpNum !in d.qpsHost) ==> r.registry == w.registry)
  {
  }

  /**
   * A QP that lives in the overflow cache is never registered by either
   * post operation, so no peer can ever deliver to it.
   */
  lemma CachedQpNeverRegistered(w: World, dev: DeviceId, qpNum: u32, wr: WorkRequest, pick: Chooser)
    requires dev in w.devices && qpNum !in w.devices[dev].qps
    ensures PostSend(w, Config(true), dev, qpNum, wr, pick).0.registry == w.registry
    ensures PostRecv(w, Config(true), dev, qpNum, wr, pick).0.registry == w.registry
  {
  }

  /**
   * The registry is keyed by the bare QP number: when two devices both
   * hold QP `q` in their device maps, a post_send on device `a` takes the
   * entry over from device `b`, and payload sent to `q` now reaches a's
   * QP, not b's.
   */
  lemma RegistryKeyCollision(w: World, cfg: Config, a: DeviceId, b: DeviceId, q: u32, wr: WorkRequest, pick: Chooser)
    requires a != b && a in w.devices && b in w.devices
    requires q in w.devices[a].qps && q in w.devices[b].qps
    requires q in w.registry && w.registry[q] == Handle(b, DeviceTier)
    ensures Resolve(w, q) == Some(w.devices[b].qps[q])
    ensures var r := PostSend(w, cfg, a, q, wr, pick).0;
      r.registry[q] == Handle(a, DeviceTier) && Resolve(r, q).Some? && Resolve(r, q) == TierQp(r.devices[a], DeviceTier, q)
  {
    PostSendRegistration(w, cfg, a, q, wr, pick);
    PostSendKeepsQpKeys(w, cfg, a, q, wr, pick);
  }

  /** post_send neither adds nor removes a device, nor a QP of any device's device map. */
  lemma PostSendKeepsQpKeys(w: World, cfg: Config, dev: DeviceId, qpNum: u32, wr: WorkRequest, pick: Chooser)
    requires dev in w.devices
    ensures var r := PostSend(w, cfg, dev, qpNum, wr, pick).0;
      && r.devices.Keys == w.devices.Keys
      && forall k :: k in w.devices ==> r.devices[k].qps.Keys == w.devices[k].qps.Keys
  {
  }

  /**
   * destroy_qp does not touch the registry: the entry is left dangling,
   * and a later delivery to that QP number finds nothing and changes nothing.
   */
  lemma DestroyedQpReceivesNothing(w: World, b: DeviceId, q: u32, wr: WorkRequest, pick: Chooser)
    requires b in w.devices && q in w.devices[b].qps
    requires q in w.registry && w.registry[q] == Handle(b, DeviceTier)
    ensures var w1 := w.(devices := w.devices[b := DestroyQp(w.devices[b], q, pick)]);
      && q in w1.registry
      && Resolve(w1, q).None?
      && Deliver(w1, q, wr, pick) == w1
  {
  }

  // ---------------------------------------------------------------------
  // post_send
  // ---------------------------------------------------------------------

  /**
   * post_send on a QP that is found and in RTS, unfolded: registration as
   * the lookup decides, the send completion, then delivery of a payload.
   */
  lemma PostSendSteps(w: World, cfg: Config, dev: DeviceId, qpNum: u32, wr: WorkRequest, pick: Chooser)
    requires dev in w.devices
    requires GetQpInfo(w.devices[dev], cfg, qpNum).Some? && GetQpInfo(w.devices[dev], cfg, qpNum).value.state == Rts
    ensures var qp := GetQpInfo(w.devices[dev], cfg, qpNum).value;
      var look := SendLookup(w.devices[dev], cfg, dev, qpNum);
      var w1 := if look.0.Some? then w.(registry := w.registry[qpNum := look.0.value]) else w;
      var sent := CompleteSend(w1, dev, qp.sendCq, wr, pick);
      PostSend(w, cfg, dev, qpNum, wr, pick) == (if CarriesPayload(wr.opcode) then Deliver(sent, qp.destQpNum, wr, pick) else sent, true)
  {
  }

  /**
   * A successful post_send is three steps in this order: the registration
   * PostSendRegistration describes, the send completion on the sender's
   * device, and, for SEND and RDMA_WRITE only, delivery to the QP then
   * registered under dest_qp_num.
   */
  lemma PostSendOrder(w: World, cfg: Config, dev: DeviceId, qpNum: u32, wr: WorkRequest, pick: Chooser)
    requires dev in w.devices
    requires PostSend(w, cfg, dev, qpNum, wr, pick).1
    ensures var qp := GetQpInfo(w.devices[dev], cfg, qpNum).value;
      var r := PostSend(w, cfg, dev, qpNum, wr, pick).0;
      var sent := CompleteSend(w.(registry := r.registry), dev, qp.sendCq, wr, pick);
      && (CarriesPayload(wr.opcode) ==> r == Deliver(sent, qp.destQpNum, wr, pick))
      && (!CarriesPayload(wr.opcode) ==> r == sent)
  {
    var d := w.devices[dev];
    var look := SendLookup(d, cfg, dev, qpNum);
    var w1 := if look.0.Some? then w.(registry := w.registry[qpNum := look.0.value]) else w;
    PostSendSteps(w, cfg, dev, qpNum, wr, pick);
    assert w.(registry := PostSend(w, cfg, dev, qpNum, wr, pick).0.registry) == w1;
  }

  /**
   * The sender's side of a successful post_send. When signaled it appends
   * exactly one completion {wr_id, 0, opcode, length} at the back of the
   * send CQ (dropped when no tier holds that CQ); when unsignaled the
   * sender's device is unchanged. A request that moves no payload changes
   * no other device and no buffer; a SEND or RDMA_WRITE whose destination
   * is registered on another device (or not at all) leaves the sender's
   * device with only that completion.
   */
  lemma PostSendCompletion(w: World, cfg: Config, dev: DeviceId, qpNum: u32, wr: WorkRequest, pick: Chooser)
    requires dev in w.devices
    requires PostSend(w, cfg, dev, qpNum, wr, pick).1
    ensures var d := w.devices[dev];
      var qp := GetQpInfo(d, cfg, qpNum).value;
      var r := PostSend(w, cfg, dev, qpNum, wr, pick).0;
      var sender := if wr.signaled then AppendCompletion(d, qp.sendCq, SendCompletion(wr), true, pick) else d;
      var remote := qp.destQpNum !in r.registry || r.registry[qp.destQpNum].dev != dev;
      && (!CarriesPayload(wr.opcode) ==> r.heap == w.heap && r.devices == w.devices[dev := sender])
      && (!CarriesPayload(wr.opcode) || remote ==> r.devices[dev] == sender)
      && (wr.signaled && CqForAppend(d, qp.sendCq, true).Some? && (!CarriesPayload(wr.opcode) || remote) ==>
            var cq := CqForAppend(d, qp.sendCq, true).value;
            CqForAppend(r.devices[dev], qp.sendCq, true) == Some(cq.(completions := cq.completions + [SendCompletion(wr)])))
  {
    PostSendOrder(w, cfg, dev, qpNum, wr, pick);
  }

  /**
   * Delivery into a posted receive buffer: the buffer's first
   * min(length, recv_length) bytes become the sender's, the receiver's
   * CQ gains one RECV completion with wr_id 0 and that length, and the
   * receiver's buffer is cleared.
   */
  lemma DeliverFillsBuffer(w: World, dest: u32, wr: WorkRequest, pick: Chooser)
    requires Resolve(w, dest).Some? && Resolve(w, dest).value.recvAddr.Some?
    ensures var qp := Resolve(w, dest).value;
      var n := Min(wr.length, qp.recvLength);
      var h := w.registry[dest];
      var r := Deliver(w, dest, wr, pick);
      && ReadBuf(r.heap, qp.recvAddr, n) == ReadBuf(w.heap, wr.localAddr, n)
      && Resolve(r, dest) == Some(qp.(recvAddr := None, recvLength := 0))
      && (CqForAppend(w.devices[h.dev], qp.recvCq, true).Some? ==>
            var cq := CqForAppend(w.devices[h.dev], qp.recvCq, true).value;
            CqForAppend(r.devices[h.dev], qp.recvCq, true) == Some(cq.(completions := cq.completions + [RecvCompletion(0, n)])))
  {
  }

  /**
   * Delivery with no posted buffer: the payload (exactly `length` bytes of
   * the sender's buffer) waits in the receiver's pending_data, replacing
   * any earlier one; no buffer and no CQ changes.
   */
  lemma DeliverStoresPending(w: World, dest: u32, wr: WorkRequest, pick: Chooser)
    requires Resolve(w, dest).Some? && Resolve(w, dest).value.recvAddr.None?
    ensures var qp := Resolve(w, dest).value;
      var h := w.registry[dest];
      var r := Deliver(w, dest, wr, pick);
      && r.heap == w.heap
      && Resolve(r, dest) == Some(qp.(pendingData := ReadBuf(w.heap, wr.localAddr, wr.length)))
      && r.devices[h.dev].cqs == w.devices[h.dev].cqs
      && r.devices[h.dev].cqCache == w.devices[h.dev].cqCache
      && r.devices[h.dev].cqsHost == w.devices[h.dev].cqsHost
  {
  }

  // ---------------------------------------------------------------------
  // post_recv
  // ---------------------------------------------------------------------

  /** Writing back a QP makes get_qp_info return it, whichever tier it goes to. */
  lemma UpdateQpThenGet(d: Device, cfg: Config, qpNum: u32, qp: QPValue, pick: Chooser)
    ensures GetQpInfo(UpdateQp(d, cfg, qpNum, qp, pick), cfg, qpNum) == Some(qp)
  {
  }

  /**
   * post_recv with nothing pending only records the buffer: get_qp_info
   * then shows the new buffer and length, and no buffer or CQ changes.
   */
  lemma PostRecvArmsBuffer(w: World, cfg: Config, dev: DeviceId, qpNum: u32, wr: WorkRequest, pick: Chooser)
    requires dev in w.devices
    requires GetQpInfo(w.devices[dev], cfg, qpNum).Some?
    requires GetQpInfo(w.devices[dev], cfg, qpNum).value.state in {Rtr, Rts}
    requires |GetQpInfo(w.devices[dev], cfg, qpNum).value.pendingData| == 0
    ensures var d := w.devices[dev];
      var qp := GetQpInfo(d, cfg, qpNum).value;
      var r := PostRecv(w, cfg, dev, qpNum, wr, pick);
      && r.1
      && r.0.heap == w.heap
      && GetQpInfo(r.0.devices[dev], cfg, qpNum) == Some(qp.(recvAddr := wr.localAddr, recvLength := wr.length))
      && r.0.devices[dev].cqs == d.cqs && r.0.devices[dev].cqCache == d.cqCache && r.0.devices[dev].cqsHost == d.cqsHost
  {
    var d := w.devices[dev];
    var qp := GetQpInfo(d, cfg, qpNum).value;
    UpdateQpThenGet(d, cfg, qpNum, qp.(recvAddr := wr.localAddr, recvLength := wr.length), pick);
  }

  /**
   * post_recv with a payload pending consumes it at once: the buffer's
   * first min(size, length) bytes become the payload's, the receive CQ
   * (device map or cache) gains one RECV completion carrying the request's
   * wr_id, and the QP is left with no payload and no buffer.
   */
  lemma PostRecvConsumesPending(w: World, cfg: Config, dev: DeviceId, qpNum: u32, wr: WorkRequest, pick: Chooser)
    requires dev in w.devices
    requires GetQpInfo(w.devices[dev], cfg, qpNum).Some?
    requires GetQpInfo(w.devices[dev], cfg, qpNum).value.state in {Rtr, Rts}
    requires |GetQpInfo(w.devices[dev], cfg, qpNum).value.pendingData| > 0
    ensures var d := w.devices[dev];
      var qp := GetQpInfo(d, cfg, qpNum).value;
      var n := Min(|qp.pendingData|, wr.length);
      var r := PostRecv(w, cfg, dev, qpNum, wr, pick);
      && r.1
      && (wr.localAddr.Some? ==> ReadBuf(r.0.heap, wr.localAddr, n) == qp.pendingData[..n])
      && GetQpInfo(r.0.devices[dev], cfg, qpNum) == Some(qp.(pendingData := [], recvAddr := None, recvLength := 0))
      && (CqForAppend(d, qp.recvCq, false).Some? ==>
            var cq := CqForAppend(d, qp.recvCq, false).value;
            CqForAppend(r.0.devices[dev], qp.recvCq, false) == Some(cq.(completions := cq.completions + [RecvCompletion(wr.wrId, n)])))
  {
    var d := w.devices[dev];
    var qp := GetQpInfo(d, cfg, qpNum).value;
    var armed := qp.(recvAddr := wr.localAddr, recvLength := wr.length);
    var step := ConsumePending(d, w.heap, armed, wr, pick);
    UpdateQpThenGet(step.0, cfg, qpNum, step.2, pick);
    var d2 := UpdateQp(step.0, cfg, qpNum, step.2, pick);
    assert d2.cqs == step.0.cqs && d2.cqCache == step.0.cqCache;
    assert PostRecv(w, cfg, dev, qpNum, wr, pick).0.devices[dev] == d2;
  }

  // ---------------------------------------------------------------------
  // Sender and receiver together
  // ---------------------------------------------------------------------

  /**
   * A successful SEND or RDMA_WRITE from QP `s` on device `a` reaches the
   * peer exactly as a bare delivery to dest_qp_num would: when the
   * destination is registered on another device `b`, that device, the
   * buffers and what the destination resolves to come out as Deliver
   * leaves them.
   */
  lemma PostSendReachesPeer(w: World, cfg: Config, a: DeviceId, s: u32, b: DeviceId, wr: WorkRequest, pick: Chooser)
    requires a in w.devices && b in w.devices && a != b
    requires GetQpInfo(w.devices[a], cfg, s).Some? && GetQpInfo(w.devices[a], cfg, s).value.state == Rts
    requires CarriesPayload(wr.opcode)
    requires var dest := GetQpInfo(w.devices[a], cfg, s).value.destQpNum;
      s != dest && dest in w.registry && w.registry[dest].dev == b
    ensures var dest := GetQpInfo(w.devices[a], cfg, s).value.destQpNum;
      var p := PostSend(w, cfg, a, s, wr, pick);
      var dl := Deliver(w, dest, wr, pick);
      && p.1
      && p.0.devices[b] == dl.devices[b]
      && p.0.heap == dl.heap
      && dest in p.0.registry && p.0.registry[dest] == w.registry[dest]
      && Resolve(p.0, dest) == Resolve(dl, dest)
  {
    var qp := GetQpInfo(w.devices[a], cfg, s).value;
    var dest := qp.destQpNum;
    var look := SendLookup(w.devices[a], cfg, a, s);
    var w1 := if look.0.Some? then w.(registry := w.registry[s := look.0.value]) else w;
    var sent := CompleteSend(w1, a, qp.sendCq, wr, pick);
    PostSendSteps(w, cfg, a, s, wr, pick);
    DeliverIsLocal(sent, w, dest, wr, pick);
  }

  /**
   * Delivery reads and writes only the destination's registry entry, its
   * device and the buffers: two worlds that agree on those deliver alike.
   */
  lemma DeliverIsLocal(v: World, w: World, dest: u32, wr: WorkRequest, pick: Chooser)
    requires dest in v.registry && dest in w.registry && v.registry[dest] == w.registry[dest]
    requires var b := w.registry[dest].dev; b in v.devices && b in w.devices && v.devices[b] == w.devices[b]
    requires v.heap == w.heap
    ensures var b := w.registry[dest].dev;
      var rv := Deliver(v, dest, wr, pick);
      var rw := Deliver(w, dest, wr, pick);
      && rv.devices[b] == rw.devices[b]
      && rv.heap == rw.heap
      && Resolve(rv, dest) == Resolve(rw, dest)
  {
    var h := w.registry[dest];
    assert Resolve(v, dest) == Resolve(w, dest);
    match Resolve(w, dest)
    case None =>
    case Some(qp) =>
      if qp.recvAddr.Some? {
        assert Deliver(v, dest, wr, pick) == FillBuffer(v, h, dest, qp, wr, pick);
        assert Deliver(w, dest, wr, pick) == FillBuffer(w, h, dest, qp, wr, pick);
      } else {
        assert Deliver(v, dest, wr, pick) == StorePending(v, h, dest, qp, wr);
        assert Deliver(w, dest, wr, pick) == StorePending(w, h, dest, qp, wr);
      }
  }

  /**
   * A send that arrives before the receive is posted is not lost. QP `s`
   * on device `a` sends to its dest_qp_num, registered in the device map of
   * another device `b` that has no buffer posted; when `b` then posts a
   * receive, the buffer holds the first min(send length, recv length)
   * bytes the sender's buffer held at send time, the receive CQ (device
   * map or cache) gains one RECV completion carrying the receive's wr_id,
   * and the QP is left with no payload and no buffer.
   */
  lemma SendBeforeRecvArrives(w: World, cfg: Config, a: DeviceId, s: u32, b: DeviceId, wr: WorkRequest, recv: WorkRequest, pick: Chooser)
    requires a in w.devices && b in w.devices && a != b
    requires GetQpInfo(w.devices[a], cfg, s).Some? && GetQpInfo(w.devices[a], cfg, s).value.state == Rts
    requires CarriesPayload(wr.opcode) && wr.length > 0 && recv.localAddr.Some?
    requires var dest := GetQpInfo(w.devices[a], cfg, s).value.destQpNum;
      && s != dest && dest in w.devices[b].qps
      && dest in w.registry && w.registry[dest] == Handle(b, DeviceTier)
      && w.devices[b].qps[dest].recvAddr.None? && w.devices[b].qps[dest].state in {Rtr, Rts}
    ensures var dest := GetQpInfo(w.devices[a], cfg, s).value.destQpNum;
      var rq := w.devices[b].qps[dest];
      var p := PostSend(w, cfg, a, s, wr, pick);
      var r := PostRecv(p.0, cfg, b, dest, recv, pick);
      var n := Min(wr.length, recv.length);
      && p.1 && r.1
      && ReadBuf(r.0.heap, recv.localAddr, n) == ReadBuf(w.heap, wr.localAddr, n)
      && GetQpInfo(r.0.devices[b], cfg, dest) == Some(rq.(pendingData := [], recvAddr := None, recvLength := 0))
      && (CqForAppend(w.devices[b], rq.recvCq, false).Some? ==>
            var cq := CqForAppend(w.devices[b], rq.recvCq, false).value;
            CqForAppend(r.0.devices[b], rq.recvCq, false) == Some(cq.(completions := cq.completions + [RecvCompletion(recv.wrId, n)])))
  {
    var dest := GetQpInfo(w.devices[a], cfg, s).value.destQpNum;
    var rq := w.devices[b].qps[dest];
    var payload := ReadBuf(w.heap, wr.localAddr, wr.length);
    var p := PostSend(w, cfg, a, s, wr, pick);
    PostSendReachesPeer(w, cfg, a, s, b, wr, pick);
    DeliverStoresPending(w, dest, wr, pick);
    assert TierQp(p.0.devices[b], DeviceTier, dest) == Some(rq.(pendingData := payload));
    assert GetQpInfo(p.0.devices[b], cfg, dest) == Some(rq.(pendingData := payload));
    assert CqForAppend(p.0.devices[b], rq.recvCq, false) == CqForAppend(w.devices[b], rq.recvCq, false);
    PostRecvConsumesPending(p.0, cfg, b, dest, recv, pick);
    ReadBufPrefix(w.heap, wr.localAddr, wr.length, Min(wr.length, recv.length));
  }

  /**
   * The other order: device `b` posts a receive on the device-map QP
   * dest_qp_num with nothing pending, and QP `s` on device `a` then sends
   * to it. The buffer holds the first min(send length, recv length) bytes
   * of the sender's buffer, the receiver's CQ (device map, cache or host
   * map) gains one RECV completion with wr_id 0 and that length, and the
   * QP's buffer is cleared.
   */
  lemma RecvBeforeSendFills(w: World, cfg: Config, a: DeviceId, s: u32, b: DeviceId, wr: WorkRequest, recv: WorkRequest, pick: Chooser)
    requires a in w.devices && b in w.devices && a != b
    requires GetQpInfo(w.devices[a], cfg, s).Some? && GetQpInfo(w.devices[a], cfg, s).value.state == Rts
    requires CarriesPayload(wr.opcode) && recv.localAddr.Some?
    requires var dest := GetQpInfo(w.devices[a], cfg, s).value.destQpNum;
      && s != dest && dest in w.devices[b].qps
      && w.devices[b].qps[dest].state in {Rtr, Rts} && |w.devices[b].qps[dest].pendingData| == 0
    ensures var dest := GetQpInfo(w.devices[a], cfg, s).value.destQpNum;
      var rq := w.devices[b].qps[dest];
      var r := PostRecv(w, cfg, b, dest, recv, pick);
      var p := PostSend(r.0, cfg, a, s, wr, pick);
      var n := Min(wr.length, recv.length);
      && r.1 && p.1
      && ReadBuf(p.0.heap, recv.localAddr, n) == ReadBuf(w.heap, wr.localAddr, n)
      && GetQpInfo(p.0.devices[b], cfg, dest) == Some(rq.(recvAddr := None, recvLength := 0))
      && (CqForAppend(w.devices[b], rq.recvCq, true).Some? ==>
            var cq := CqForAppend(w.devices[b], rq.recvCq, true).value;
            CqForAppend(p.0.devices[b], rq.recvCq, true) == Some(cq.(completions := cq.completions + [RecvCompletion(0, n)])))
  {
    var dest := GetQpInfo(w.devices[a], cfg, s).value.destQpNum;
    var rq := w.devices[b].qps[dest];
    var armed := rq.(recvAddr := recv.localAddr, recvLength := recv.length);
    var r := PostRecv(w, cfg, b, dest, recv, pick);
    PostRecvArmsBuffer(w, cfg, b, dest, recv, pick);
    assert r.0.registry[dest] == Handle(b, DeviceTier);
    assert r.0.devices[b].qps == w.devices[b].qps[dest := armed];
    assert Resolve(r.0, dest) == Some(armed);
    assert CqForAppend(r.0.devices[b], rq.recvCq, true) == CqForAppend(w.devices[b], rq.recvCq, true);
    PostSendReachesPeer(r.0, cfg, a, s, b, wr, pick);
    DeliverFillsBuffer(r.0, dest, wr, pick);
  }
}

=== FILE: device_properties.dfy ===
/**
 * Properties of one RdmaDevice: creation, lookup, destruction, QP state
 * changes and completion polling, stated over the tier invariant `Inv`
 * (ids below their counter, each id in one tier only).
 */
module DeviceProperties {
  import opened RdmaTypes
  import opened OverflowCache
  import opened RdmaDevice

  // ---------------------------------------------------------------------
  // Creation: fresh ids, placement, create-then-get
  // ---------------------------------------------------------------------

  /**
   * create_qp with two resolvable CQs returns a non-zero fresh id, keeps the
   * invariant, and get_qp_info then returns the new RESET QP, whichever tier
   * holds it.
   */
  lemma CreateQpThenGet(d: Device, cfg: Config, maxSendWr: u32, maxRecvWr: u32, sendCq: u32, recvCq: u32, pick: Chooser)
    requires Inv(d) && d.nextQp < U32_MAX
    requires GetCqInfo(d, cfg, sendCq).Some? && GetCqInfo(d, cfg, recvCq).Some?
    ensures var r := CreateQp(d, cfg, maxSendWr, maxRecvWr, sendCq, recvCq, pick);
      && r.1 != 0
      && Inv(r.0)
      && GetQpInfo(r.0, cfg, r.1) == Some(NewQp(r.1, sendCq, recvCq))
      && r.0.nextQp == d.nextQp + 1
  {
    var r := CreateQp(d, cfg, maxSendWr, maxRecvWr, sendCq, recvCq, pick).0;
    var id := d.nextQp;
    assert id !in d.qps && id !in d.qpCache.entries && id !in d.qpsHost;
    assert r == d.(nextQp := id + 1, qps := r.qps, qpCache := r.qpCache, qpsHost := r.qpsHost);
    TiersFresh(d.qps, d.qpCache.entries, d.qpsHost, id, r.qps, r.qpCache.entries, r.qpsHost);
  }

  /** A QP referencing a CQ that no lookup tier resolves is refused with 0, and no id is used up. */
  lemma CreateQpUnresolvableCq(d: Device, cfg: Config, maxSendWr: u32, maxRecvWr: u32, sendCq: u32, recvCq: u32, pick: Chooser)
    requires GetCqInfo(d, cfg, sendCq).None? || GetCqInfo(d, cfg, recvCq).None?
    ensures CreateQp(d, cfg, maxSendWr, maxRecvWr, sendCq, recvCq, pick) == (d, 0)
  {
  }

  /** create_cq returns a non-zero fresh id, keeps the invariant, and get_cq_info then returns the new empty CQ. */
  lemma CreateCqThenGet(d: Device, cfg: Config, maxCqe: u32, pick: Chooser)
    requires Inv(d) && d.nextCq < U32_MAX
    ensures var r := CreateCq(d, cfg, maxCqe, pick);
      && r.1 != 0
      && Inv(r.0)
      && GetCqInfo(r.0, cfg, r.1) == Some(CQValue(r.1, maxCqe, []))
      && r.0.nextCq == d.nextCq + 1
  {
    var r := CreateCq(d, cfg, maxCqe, pick).0;
    var id := d.nextCq;
    assert id !in d.cqs && id !in d.cqCache.entries && id !in d.cqsHost;
    assert r == d.(nextCq := id + 1, cqs := r.cqs, cqCache := r.cqCache, cqsHost := r.cqsHost);
    TiersFresh(d.cqs, d.cqCache.entries, d.cqsHost, id, r.cqs, r.cqCache.entries, r.cqsHost);
  }

  /** register_mr returns a non-zero fresh key, keeps the invariant, and get_mr_info then returns the new MR. */
  lemma RegisterMrThenGet(d: Device, addr: Option<BufferId>, length: u64, accessFlags: u32, pick: Chooser)
    requires Inv(d) && d.nextMr < U32_MAX
    ensures var r := RegisterMr(d, addr, length, accessFlags, pick);
      && r.1 != 0
      && Inv(r.0)
      && GetMrInfo(r.0, r.1) == Some(MRValue(r.1, accessFlags, length, addr))
      && r.0.nextMr == d.nextMr + 1
  {
    var r := RegisterMr(d, addr, length, accessFlags, pick).0;
    var id := d.nextMr;
    assert id !in d.mrs && id !in d.mrCache.entries;
    assert r == d.(nextMr := id + 1, mrs := r.mrs, mrCache := r.mrCache);
    TiersFresh(d.mrs, d.mrCache.entries, NoHost, id, r.mrs, r.mrCache.entries, NoHost);
  }

  /** create_pd returns a non-zero fresh handle held by the device map or the cache, and keeps the invariant. */
  lemma CreatePdKeepsInv(d: Device, pick: Chooser)
    requires Inv(d) && d.nextPd < U32_MAX
    ensures var r := CreatePd(d, pick);
      && r.1 != 0
      && Inv(r.0)
      && (r.1 in r.0.pds || r.1 in r.0.pdCache.entries)
      && r.0.nextPd == d.nextPd + 1
  {
    var r := CreatePd(d, pick).0;
    var id := d.nextPd;
    assert id !in d.pds && id !in d.pdCache.entries;
    assert r == d.(nextPd := id + 1, pds := r.pds, pdCache := r.pdCache);
    TiersFresh(d.pds, d.pdCache.entries, NoHost, id, r.pds, r.pdCache.entries, NoHost);
  }

  // ---------------------------------------------------------------------
  // Argument checks: as written and as the test suite expects
  // ---------------------------------------------------------------------

  /** As written, create_cq accepts a depth of 0 and hands out a real id; the test suite expects 0. */
  lemma CreateCqAcceptsZeroDepth(d: Device, cfg: Config, pick: Chooser)
    requires Inv(d)
    ensures CreateCq(d, cfg, 0, pick).1 != 0
  {
  }

  /** The checked create_cq answers 0 exactly for depth 0; any other depth yields a fresh id holding the new CQ. */
  lemma CreateCqCheckedRejectsOnlyZero(d: Device, cfg: Config, maxCqe: u32, pick: Chooser)
    requires Inv(d) && d.nextCq < U32_MAX
    ensures var r := CreateCqChecked(d, cfg, maxCqe, pick);
      && (r.1 == 0 <==> maxCqe == 0)
      && Inv(r.0)
      && (maxCqe > 0 ==> GetCqInfo(r.0, cfg, r.1) == Some(CQValue(r.1, maxCqe, [])))
  {
    if maxCqe > 0 {
      CreateCqThenGet(d, cfg, maxCqe, pick);
    }
  }

  /** As written, create_qp ignores a send-queue depth of 0 and hands out a real id; the test suite expects 0. */
  lemma CreateQpAcceptsZeroSendDepth(d: Device, cfg: Config, maxRecvWr: u32, sendCq: u32, recvCq: u32, pick: Chooser)
    requires Inv(d)
    requires GetCqInfo(d, cfg, sendCq).Some? && GetCqInfo(d, cfg, recvCq).Some?
    ensures CreateQp(d, cfg, 0, maxRecvWr, sendCq, recvCq, pick).1 != 0
  {
  }

  /** The checked create_qp answers 0 exactly for send depth 0 once both CQs resolve; otherwise the new QP is found. */
  lemma CreateQpCheckedRejectsOnlyZero(d: Device, cfg: Config, maxSendWr: u32, maxRecvWr: u32, sendCq: u32, recvCq: u32, pick: Chooser)
    requires Inv(d) && d.nextQp < U32_MAX
    requires GetCqInfo(d, cfg, sendCq).Some? && GetCqInfo(d, cfg, recvCq).Some?
    ensures var r := CreateQpChecked(d, cfg, maxSendWr, maxRecvWr, sendCq, recvCq, pick);
      && (r.1 == 0 <==> maxSendWr == 0)
      && Inv(r.0)
      && (maxSendWr > 0 ==> GetQpInfo(r.0, cfg, r.1) == Some(NewQp(r.1, sendCq, recvCq)))
  {
    if maxSendWr > 0 {
      CreateQpThenGet(d, cfg, maxSendWr, maxRecvWr, sendCq, recvCq, pick);
    }
  }

  /** As written, register_mr accepts a null address and hands out a real key; the test suite expects 0. */
  lemma RegisterMrAcceptsNull(d: Device, length: u64, accessFlags: u32, pick: Chooser)
    requires Inv(d)
    ensures RegisterMr(d, None, length, accessFlags, pick).1 != 0
  {
  }

  /** The checked register_mr answers 0 exactly for a null address; otherwise get_mr_info finds the new MR. */
  lemma RegisterMrCheckedRejectsOnlyNull(d: Device, addr: Option<BufferId>, length: u64, accessFlags: u32, pick: Chooser)
    requires Inv(d) && d.nextMr < U32_MAX
    ensures var r := RegisterMrChecked(d, addr, length, accessFlags, pick);
      && (r.1 == 0 <==> addr.None?)
      && Inv(r.0)
      && (addr.Some? ==> GetMrInfo(r.0, r.1) == Some(MRValue(r.1, accessFlags, length, addr)))
  {
    if addr.Some? {
      RegisterMrThenGet(d, addr, length, accessFlags, pick);
    }
  }

  /**
   * A device limit of 0 gives a cache of capacity 0, which keeps only the
   * last entry written: with max_cqs 0 and the cache on, the second
   * create_cq evicts the first CQ, so a QP naming both CQs is refused.
   */
  lemma ZeroCqLimitLosesFirstCq(maxQps: nat, maxMrs: nat, maxPds: nat, pick: Chooser)
    ensures var cfg := Config(true);
      var d0 := NewDevice(maxQps, 0, maxMrs, maxPds);
      var c1 := CreateCq(d0, cfg, 16, pick);
      var c2 := CreateCq(c1.0, cfg, 16, pick);
      && c1.1 == 1 && c2.1 == 2
      && GetCqInfo(c2.0, cfg, 1).None?
      && GetCqInfo(c2.0, cfg, 2).Some?
      && CreateQp(c2.0, cfg, 8, 8, c1.1, c2.1, pick) == (c2.0, 0)
  {
    var cfg := Config(true);
    var d0 := NewDevice(maxQps, 0, maxMrs, maxPds);
    var c1 := CreateCq(d0, cfg, 16, pick);
    PutZeroCapacityKeepsOnlyLast(d0.cqCache, 1, CQValue(1, 16, []), pick);
    assert c1.0.cqCache.entries == map[1 := CQValue(1, 16, [])];
    PutZeroCapacityKeepsOnlyLast(c1.0.cqCache, 2, CQValue(2, 16, []), pick);
    var c2 := CreateCq(c1.0, cfg, 16, pick);
    assert c2.0.cqCache.entries == map[2 := CQValue(2, 16, [])];
  }

  /** Handing out the counter's id into at most one tier keeps the tier invariant with the counter one higher. */
  lemma TiersFresh<A, B, C>(dev: map<u32, A>, cache: map<u32, B>, host: map<u32, C>, next: u32,
                            dev': map<u32, A>, cache': map<u32, B>, host': map<u32, C>)
    requires Tiers(dev, cache, host, next) && next < U32_MAX
    requires dev'.Keys <= dev.Keys + {next} && cache'.Keys <= cache.Keys + {next} && host'.Keys <= host.Keys + {next}
    requires next in dev' ==> next !in cache' && next !in host'
    requires next in cache' ==> next !in host'
    ensures Tiers(dev', cache', host', next + 1)
  {
  }

  /** A run of create_cq calls, one per requested depth; returns the ids in call order. */
  function CreateCqs(d: Device, cfg: Config, depths: seq<u32>, pick: Chooser): (r: (Device, seq<u32>))
    ensures |r.1| == |depths|
    decreases |depths|
  {
    if |depths| == 0 then (d, [])
    else
      var first := CreateCq(d, cfg, depths[0], pick);
      var rest := CreateCqs(first.0, cfg, depths[1..], pick);
      (rest.0, [first.1] + rest.1)
  }

  /**
   * Ids of one kind are handed out consecutively from the counter, so they
   * are pairwise distinct and strictly increasing, starting at 1 on a new
   * device.
   */
  lemma {:induction false} CreateCqsConsecutive(d: Device, cfg: Config, depths: seq<u32>, pick: Chooser)
    requires d.nextCq + |depths| <= U32_MAX
    ensures var r := CreateCqs(d, cfg, depths, pick);
      && (forall i :: 0 <= i < |r.1| ==> r.1[i] == d.nextCq + i)
      && r.0.nextCq == d.nextCq + |depths|
    decreases |depths|
  {
    if |depths| > 0 {
      var first := CreateCq(d, cfg, depths[0], pick);
      CreateCqsConsecutive(first.0, cfg, depths[1..], pick);
    }
  }

  /**
   * Capacity overflow: when every device-map id is below the counter, the
   * i-th CQ of a run of creations lands in the device map exactly when
   * i < maxCqs - m, where m is the number of CQs there before the run;
   * the rest overflow to the cache or the host map.
   */
  lemma {:induction false} CreateCqsPlacement(d: Device, cfg: Config, depths: seq<u32>, pick: Chooser)
    requires d.nextCq >= 1 && Below(d.cqs, d.nextCq) && d.nextCq + |depths| < U32_MAX
    ensures var r := CreateCqs(d, cfg, depths, pick);
      && (forall i :: 0 <= i < |r.1| ==> (r.1[i] in r.0.cqs <==> i < d.maxCqs - |d.cqs|))
      && d.cqs.Keys <= r.0.cqs.Keys
      && r.0.maxCqs == d.maxCqs
    decreases |depths|
  {
    if |depths| > 0 {
      var r := CreateCqs(d, cfg, depths, pick);
      var first := CreateCq(d, cfg, depths[0], pick);
      var d1 := first.0;
      var id := first.1;
      CreateCqStep(d, cfg, depths[0], pick);
      CreateCqsPlacement(d1, cfg, depths[1..], pick);
      var rest := CreateCqs(d1, cfg, depths[1..], pick);
      assert r.1 == [id] + rest.1 && r.0 == rest.0;
      forall i | 0 <= i < |r.1|
        ensures r.1[i] in r.0.cqs <==> i < d.maxCqs - |d.cqs|
      {
        if i == 0 && |d.cqs| >= d.maxCqs && id in r.0.cqs {
          RunGainsOnlyRunIds(d1, cfg, depths[1..], pick, id);
          assert false;
        } else if i > 0 {
          assert r.1[i] == rest.1[i - 1];
        }
      }
    }
  }

  /** One create_cq, as the placement proof needs it: the id lands in the device map exactly when there is room. */
  lemma CreateCqStep(d: Device, cfg: Config, maxCqe: u32, pick: Chooser)
    requires d.nextCq >= 1 && Below(d.cqs, d.nextCq) && d.nextCq < U32_MAX
    ensures var r := CreateCq(d, cfg, maxCqe, pick);
      && r.1 == d.nextCq && r.0.nextCq == d.nextCq + 1 && r.0.maxCqs == d.maxCqs
      && Below(r.0.cqs, r.0.nextCq)
      && d.cqs.Keys <= r.0.cqs.Keys
      && (r.1 in r.0.cqs <==> |d.cqs| < d.maxCqs)
      && |r.0.cqs| == (if |d.cqs| < d.maxCqs then |d.cqs| + 1 else |d.cqs|)
  {
    assert d.nextCq !in d.cqs;
  }

  /**
   * With the middle cache off the host map is unbounded: a run of
   * creations loses nothing a lookup found before, and every CQ of the run
   * is found afterwards.
   */
  lemma {:induction false} CreateCqsHostKeepsAll(d: Device, cfg: Config, depths: seq<u32>, pick: Chooser)
    requires !cfg.middleCache
    ensures var r := CreateCqs(d, cfg, depths, pick);
      && (forall k :: GetCqInfo(d, cfg, k).Some? ==> GetCqInfo(r.0, cfg, k).Some?)
      && (forall i :: 0 <= i < |r.1| ==> GetCqInfo(r.0, cfg, r.1[i]).Some?)
    decreases |depths|
  {
    if |depths| > 0 {
      var r := CreateCqs(d, cfg, depths, pick);
      var first := CreateCq(d, cfg, depths[0], pick);
      CreateCqsHostKeepsAll(first.0, cfg, depths[1..], pick);
      var rest := CreateCqs(first.0, cfg, depths[1..], pick);
      assert GetCqInfo(first.0, cfg, first.1).Some?;
      forall i | 0 <= i < |r.1|
        ensures GetCqInfo(r.0, cfg, r.1[i]).Some?
      {
        if i > 0 {
          assert r.1[i] == rest.1[i - 1];
        }
      }
    }
  }

  /** An id in the device map after a run was either there before or handed out by the run. */
  lemma {:induction false} RunGainsOnlyRunIds(d: Device, cfg: Config, depths: seq<u32>, pick: Chooser, k: u32)
    requires k in CreateCqs(d, cfg, depths, pick).0.cqs
    ensures k in d.cqs || exists j :: 0 <= j < |depths| && CreateCqs(d, cfg, depths, pick).1[j] == k
    decreases |depths|
  {
    if |depths| > 0 {
      var first := CreateCq(d, cfg, depths[0], pick);
      var rest := CreateCqs(first.0, cfg, depths[1..], pick);
      RunGainsOnlyRunIds(first.0, cfg, depths[1..], pick, k);
      if k !in first.0.cqs {
        var j :| 0 <= j < |depths| - 1 && rest.1[j] == k;
        assert CreateCqs(d, cfg, depths, pick).1[j + 1] == k;
      } else if k !in d.cqs {
        assert CreateCqs(d, cfg, depths, pick).1[0] == k;
      }
    }
  }

  // ---------------------------------------------------------------------
  // Destruction
  // ---------------------------------------------------------------------

  /**
   * destroy_qp: a device-map QP disappears from every lookup; a cached QP
   * is overwritten with the default value, so with the cache switched on
   * get_qp_info still succeeds and reports qp number 0; a host-map QP and
   * an unknown id leave the device unchanged.
   */
  lemma DestroyQpOutcome(d: Device, cfg: Config, qpNum: u32, pick: Chooser)
    requires Inv(d)
    ensures var r := DestroyQp(d, qpNum, pick);
      && Inv(r)
      && (qpNum in d.qps ==> GetQpInfo(r, cfg, qpNum).None? && r.qpCache == d.qpCache && r.qpsHost == d.qpsHost)
      && (qpNum in d.qpCache.entries && cfg.middleCache ==>
            GetQpInfo(r, cfg, qpNum) == Some(DefaultQp) && GetQpInfo(r, cfg, qpNum).value.qpNum == 0)
      && (qpNum !in d.qps && qpNum !in d.qpCache.entries ==> r == d)
  {
    var r := DestroyQp(d, qpNum, pick);
    if qpNum in d.qps {
      assert r == d.(qps := d.qps - {qpNum});
      assert qpNum !in d.qpCache.entries && qpNum !in d.qpsHost;
    } else if qpNum in d.qpCache.entries {
      assert r == d.(qpCache := r.qpCache);
      assert r.qpCache.entries.Keys <= d.qpCache.entries.Keys;
      assert qpNum !in d.qpsHost;
    }
  }

  /** destroy_cq: as destroy_qp; a cached CQ stays with id 0 and no completions. */
  lemma DestroyCqOutcome(d: Device, cfg: Config, cqNum: u32, pick: Chooser)
    requires Inv(d)
    ensures var r := DestroyCq(d, cqNum, pick);
      && Inv(r)
      && (cqNum in d.cqs ==> GetCqInfo(r, cfg, cqNum).None? && r.cqCache == d.cqCache && r.cqsHost == d.cqsHost)
      && (cqNum in d.cqCache.entries && cfg.middleCache ==> GetCqInfo(r, cfg, cqNum) == Some(DefaultCq))
      && (cqNum !in d.cqs && cqNum !in d.cqCache.entries ==> r == d)
  {
    var r := DestroyCq(d, cqNum, pick);
    if cqNum in d.cqs {
      assert r == d.(cqs := d.cqs - {cqNum});
      assert cqNum !in d.cqCache.entries && cqNum !in d.cqsHost;
    } else if cqNum in d.cqCache.entries {
      assert r == d.(cqCache := r.cqCache);
      assert r.cqCache.entries.Keys <= d.cqCache.entries.Keys;
      assert cqNum !in d.cqsHost;
    }
  }

  /**
   * deregister_mr: a device-map MR disappears; a cached MR is overwritten
   * with the default value in place (the MR cache never evicts on an
   * existing key), so every other cached MR survives.
   */
  lemma DeregisterMrOutcome(d: Device, lkey: u32, pick: Chooser)
    requires Inv(d)
    ensures var r := DeregisterMr(d, lkey, pick);
      && Inv(r)
      && (lkey in d.mrs ==> GetMrInfo(r, lkey).None? && r.mrCache == d.mrCache)
      && (lkey in d.mrCache.entries ==>
            GetMrInfo(r, lkey) == Some(DefaultMr) && r.mrCache.entries == d.mrCache.entries[lkey := DefaultMr])
      && (lkey !in d.mrs && lkey !in d.mrCache.entries ==> r == d)
  {
    var r := DeregisterMr(d, lkey, pick);
    if lkey in d.mrs {
      assert r == d.(mrs := d.mrs - {lkey});
      assert lkey !in d.mrCache.entries;
    } else if lkey in d.mrCache.entries {
      assert r == d.(mrCache := d.mrCache.(entries := d.mrCache.entries[lkey := DefaultMr]));
    }
  }

  /** destroy_pd: as deregister_mr. */
  lemma DestroyPdOutcome(d: Device, handle: u32, pick: Chooser)
    requires Inv(d)
    ensures var r := DestroyPd(d, handle, pick);
      && Inv(r)
      && (handle in d.pds ==> handle !in r.pds && handle !in r.pdCache.entries && r.pdCache == d.pdCache)
      && (handle in d.pdCache.entries ==> r.pdCache.entries == d.pdCache.entries[handle := DefaultPd])
      && (handle !in d.pds && handle !in d.pdCache.entries ==> r == d)
  {
    var r := DestroyPd(d, handle, pick);
    if handle in d.pds {
      assert r == d.(pds := d.pds - {handle});
      assert handle !in d.pdCache.entries;
    } else if handle in d.pdCache.entries {
      assert r == d.(pdCache := d.pdCache.(entries := d.pdCache.entries[handle := DefaultPd]));
    }
  }

  // ---------------------------------------------------------------------
  // QP state
  // ---------------------------------------------------------------------

  /**
   * The transition table this model adopts for the QP state machine, over
   * the seven states: RESET->INIT, INIT->RTR, RTR->RTS, RTS->SQD, SQD->RTS,
   * SQD->SQE, RTS->SQE, any state->ERR, ERR->RESET, SQE->RESET. It accepts
   * the RESET->INIT->RTR->RTS walk of the device test and refuses the
   * RTS->INIT step that test expects to fail.
   */
  predicate LegalTransition(from: QpState, to: QpState)
  {
    || (from == Reset && to == Init)
    || (from == Init && to == Rtr)
    || (from == Rtr && to == Rts)
    || (from == Rts && to == Sqd)
    || (from == Sqd && to == Rts)
    || (from == Sqd && to == Sqe)
    || (from == Rts && to == Sqe)
    || to == Err
    || (from == Err && to == Reset)
    || (from == Sqe && to == Reset)
  }

  /**
   * The adopted table read by target state: which states may move to each
   * state. Only ERR accepts a move from itself, and every state may enter
   * ERR.
   */
  lemma LegalTransitionByTarget(from: QpState)
    ensures LegalTransition(from, Reset) <==> from == Err || from == Sqe
    ensures LegalTransition(from, Init) <==> from == Reset
    ensures LegalTransition(from, Rtr) <==> from == Init
    ensures LegalTransition(from, Rts) <==> from == Rtr || from == Sqd
    ensures LegalTransition(from, Sqd) <==> from == Rts
    ensures LegalTransition(from, Sqe) <==> from == Rts || from == Sqd
    ensures LegalTransition(from, Err)
    ensures LegalTransition(from, from) <==> from == Err
  {
  }

  /** A successful state change in the device map touches nothing but that QP's state. */
  lemma ModifyDeviceTierOnlyState(d: Device, cfg: Config, qpNum: u32, s: QpState,
                                  validate: (QpState, QpState) -> bool, pick: Chooser)
    requires qpNum in d.qps && validate(d.qps[qpNum].state, s)
    ensures ModifyQpState(d, cfg, qpNum, s, validate, pick) == (d.(qps := d.qps[qpNum := d.qps[qpNum].(state := s)]), true)
  {
  }

  /** modify_qp_state keeps the invariant, for every validator. */
  lemma ModifyQpStateKeepsInv(d: Device, cfg: Config, qpNum: u32, s: QpState,
                              validate: (QpState, QpState) -> bool, pick: Chooser)
    requires Inv(d)
    ensures Inv(ModifyQpState(d, cfg, qpNum, s, validate, pick).0)
  {
    match GetQpInfo(d, cfg, qpNum)
    case None =>
    case Some(qp) =>
      if validate(qp.state, s) {
        UpdateQpKeepsInv(d, cfg, qpNum, qp.(state := s), pick);
      }
  }

  /**
   * A state update of a cached QP goes through the cache's set, which
   * evicts when the cache is full even though the key is present: with two
   * cached QPs, capacity 2 and a chooser naming the other one, the other QP
   * is lost.
   */
  lemma CachedStateUpdateCanEvictNeighbour(d: Device, qpNum: u32, other: u32, s: QpState, pick: Chooser)
    requires qpNum != other && qpNum !in d.qps && other !in d.qps
    requires d.qpCache.capacity == 2 && d.qpCache.entries.Keys == {qpNum, other}
    requires pick({qpNum, other}) == other
    ensures GetQpInfo(d, Config(true), other).Some?
    ensures var r := ModifyQpState(d, Config(true), qpNum, s, ValidateTransitionStub, pick);
      r.1 && GetQpInfo(r.0, Config(true), other).None?
  {
    var c := d.qpCache;
    assert |c.entries| == |c.entries.Keys| == 2;
    var qp := c.entries[qpNum];
    var after := Put(c, qpNum, qp.(state := s), pick).entries;
    assert after == (c.entries - {other})[qpNum := qp.(state := s)];
  }

  /**
   * As written, the validator accepts every transition: a QP in RTS moves
   * back to INIT, which the test suite expects to fail.
   */
  lemma StubAcceptsRtsToInit(d: Device, cfg: Config, qpNum: u32, pick: Chooser)
    requires GetQpInfo(d, cfg, qpNum).Some? && GetQpInfo(d, cfg, qpNum).value.state == Rts
    ensures var r := ModifyQpState(d, cfg, qpNum, Init, ValidateTransitionStub, pick);
      r.1 && GetQpInfo(r.0, cfg, qpNum).value.state == Init
  {
  }

  /**
   * With the transition table, RESET->INIT->RTR->RTS succeeds step by step,
   * and the following RTS->INIT fails and leaves the QP in RTS.
   */
  lemma LegalTableDrivesToRtsAndRejectsInit(d: Device, cfg: Config, qpNum: u32, pick: Chooser)
    requires GetQpInfo(d, cfg, qpNum).Some? && GetQpInfo(d, cfg, qpNum).value.state == Reset
    ensures var r1 := ModifyQpState(d, cfg, qpNum, Init, LegalTransition, pick);
      var r2 := ModifyQpState(r1.0, cfg, qpNum, Rtr, LegalTransition, pick);
      var r3 := ModifyQpState(r2.0, cfg, qpNum, Rts, LegalTransition, pick);
      var r4 := ModifyQpState(r3.0, cfg, qpNum, Init, LegalTransition, pick);
      && r1.1 && r2.1 && r3.1 && !r4.1
      && GetQpInfo(r4.0, cfg, qpNum).value.state == Rts
  {
  }

  /** connect_qp keeps the invariant. */
  lemma ConnectQpKeepsInv(d: Device, cfg: Config, qpNum: u32, remote: QPValue, pick: Chooser)
    requires Inv(d)
    ensures Inv(ConnectQp(d, cfg, qpNum, remote, pick).0)
  {
    if GetQpInfo(d, cfg, qpNum).Some? {
      UpdateQpKeepsInv(d, cfg, qpNum, Connected(GetQpInfo(d, cfg, qpNum).value, remote), pick);
    }
  }

  /** Writing back a QP that get_qp_info finds keeps the invariant: no tier gains an id. */
  lemma UpdateQpKeepsInv(d: Device, cfg: Config, qpNum: u32, qp: QPValue, pick: Chooser)
    requires Inv(d) && GetQpInfo(d, cfg, qpNum).Some?
    ensures Inv(UpdateQp(d, cfg, qpNum, qp, pick))
  {
    var r := UpdateQp(d, cfg, qpNum, qp, pick);
    if qpNum in d.qps {
      assert r == d.(qps := r.qps);
    } else if cfg.middleCache {
      assert r == d.(qpCache := r.qpCache);
      assert r.qpCache.entries.Keys <= d.qpCache.entries.Keys;
    } else {
      assert r == d.(qpsHost := r.qpsHost);
    }
  }

  // ---------------------------------------------------------------------
  // Completion queues
  // ---------------------------------------------------------------------

  /**
   * poll_cq on a CQ that get_cq_info finds, in whichever tier it lives:
   * the first min(maxEntries, n) completions come out in FIFO order after
   * `out`, get_cq_info then finds the CQ holding exactly the rest, and the
   * invariant is kept.
   */
  lemma PollFoundCq(d: Device, cfg: Config, cqNum: u32, out: seq<CompletionEntry>, maxEntries: u32)
    requires Inv(d) && GetCqInfo(d, cfg, cqNum).Some?
    ensures var cq := GetCqInfo(d, cfg, cqNum).value;
      var n := Min(maxEntries, |cq.completions|);
      var r := PollCq(d, cfg, cqNum, out, maxEntries);
      && r.1 == out + cq.completions[..n]
      && GetCqInfo(r.0, cfg, cqNum) == Some(cq.(completions := cq.completions[n..]))
      && Inv(r.0)
  {
  }

  /**
   * Polling in two batches of k1 and k2 hands out the same completions, in
   * the same order, as one batch of k1 + k2, and leaves the same rest.
   */
  lemma PollInBatches(d: Device, cfg: Config, cqNum: u32, k1: u32, k2: u32)
    requires Inv(d) && GetCqInfo(d, cfg, cqNum).Some?
    ensures var cq := GetCqInfo(d, cfg, cqNum).value;
      var n := Min(k1 + k2, |cq.completions|);
      var p1 := PollCq(d, cfg, cqNum, [], k1);
      var p2 := PollCq(p1.0, cfg, cqNum, p1.1, k2);
      && p2.1 == cq.completions[..n]
      && GetCqInfo(p2.0, cfg, cqNum) == Some(cq.(completions := cq.completions[n..]))
  {
    var cq := GetCqInfo(d, cfg, cqNum).value;
    var cs := cq.completions;
    var n1 := Min(k1, |cs|);
    var p1 := PollCq(d, cfg, cqNum, [], k1);
    PollFoundCq(d, cfg, cqNum, [], k1);
    var n2 := Min(k2, |cs[n1..]|);
    PollFoundCq(p1.0, cfg, cqNum, p1.1, k2);
    assert n1 + n2 == Min(k1 + k2, |cs|);
    assert cs[..n1] + cs[n1..][..n2] == cs[..n1 + n2];
    assert cs[n1..][n2..] == cs[n1 + n2..];
  }

  /**
   * Draining: polling a device-map CQ with maxEntries at least its length
   * takes everything, and polling it again finds nothing.
   */
  lemma PollDrainThenEmpty(d: Device, cfg: Config, cqNum: u32, maxEntries: u32)
    requires Inv(d) && cqNum in d.cqs && |d.cqs[cqNum].completions| <= maxEntries
    ensures var r := PollCq(d, cfg, cqNum, [], maxEntries);
      && r.1 == d.cqs[cqNum].completions
      && !PollCq(r.0, cfg, cqNum, [], maxEntries).2
  {
    var r := PollCq(d, cfg, cqNum, [], maxEntries);
    assert cqNum !in d.cqCache.entries && cqNum !in d.cqsHost;
    if |d.cqs[cqNum].completions| > 0 {
      assert r.0.cqs[cqNum].completions == [];
    }
  }

  /**
   * req_notify_cq never searches the host map: with the middle cache off a
   * CQ that get_cq_info finds in the host map is reported as absent.
   */
  lemma NotifyIgnoresHostTier(d: Device, cqNum: u32, solicitedOnly: bool)
    requires Inv(d) && cqNum in d.cqsHost
    ensures GetCqInfo(d, Config(false), cqNum).Some?
    ensures !ReqNotifyCq(d, cqNum, solicitedOnly)
  {
    assert cqNum !in d.cqs && cqNum !in d.cqCache.entries;
  }
}

=== FILE: overflow_cache.dfy ===
/**
 * The bounded overflow ("middle") caches: RdmaQPCache, RdmaCQCache,
 * RdmaMRCache and RdmaPDCache. Each is a map from a 32-bit id to a value
 * with a capacity. When full, the source erases `cache_.begin()` of an
 * `unordered_map`, an entry the language leaves unspecified; the model
 * takes that choice as a `Chooser` argument that names some present key.
 *
 * Two insertion policies exist:
 *  - `Put` (QP and CQ caches): evict whenever size >= capacity, even when
 *    the key being written is already present;
 *  - `PutKeep` (MR and PD caches): evict only when a NEW key arrives at a
 *    full cache.
 */
module OverflowCache {
  import opened RdmaTypes

  /** Picks the entry a full cache gives up: always one of the keys offered. */
  type Chooser = c: set<u32> -> u32 | forall s :: s != {} ==> c(s) in s
    ghost witness (s: set<u32>) => if s == {} then 0 else var x :| x in s; x

  datatype Cache<V> = Cache(capacity: nat, entries: map<u32, V>)

  function Empty<V>(capacity: nat): Cache<V>
  {
    Cache(capacity, map[])
  }

  /** `get`: a copy of the value stored under `k`, if any. */
  function Get<V>(c: Cache<V>, k: u32): Option<V>
  {
    if k in c.entries then Some(c.entries[k]) else None
  }

  /** The key `cache_.begin()` denotes in a non-empty cache. */
  function Victim<V>(m: map<u32, V>, pick: Chooser): (k: u32)
    requires |m| > 0
    ensures k in m
  {
    assert m.Keys != {} by { var j :| j in m; }
    pick(m.Keys)
  }

  /** Erases the `begin()` entry if there is one. */
  function EvictOne<V>(m: map<u32, V>, pick: Chooser): (r: map<u32, V>)
    ensures |m| == 0 ==> r == m
    ensures |m| > 0 ==> exists v :: v in m && r == m - {v}
    ensures |m| > 0 ==> |r| == |m| - 1
  {
    if |m| == 0 then m
    else
      var v := Victim(m, pick);
      assert (m - {v}).Keys == m.Keys - {v};
      m - {v}
  }

  /** RdmaQPCache::set / RdmaCQCache::set. */
  function Put<V>(c: Cache<V>, k: u32, v: V, pick: Chooser): (r: Cache<V>)
    ensures r.capacity == c.capacity
    ensures Get(r, k) == Some(v)
    ensures |c.entries| < c.capacity ==> forall j :: j != k ==> Get(r, j) == Get(c, j)
    ensures forall j :: j != k && j in r.entries ==> j in c.entries && r.entries[j] == c.entries[j]
  {
    var kept := if |c.entries| >= c.capacity then EvictOne(c.entries, pick) else c.entries;
    c.(entries := kept[k := v])
  }

  /** RdmaMRCache::set / RdmaPDCache::set. */
  function PutKeep<V>(c: Cache<V>, k: u32, v: V, pick: Chooser): (r: Cache<V>)
    ensures r.capacity == c.capacity
    ensures Get(r, k) == Some(v)
    ensures k in c.entries || |c.entries| < c.capacity ==> forall j :: j != k ==> Get(r, j) == Get(c, j)
    ensures forall j :: j != k && j in r.entries ==> j in c.entries && r.entries[j] == c.entries[j]
  {
    var kept := if |c.entries| >= c.capacity && k !in c.entries then EvictOne(c.entries, pick) else c.entries;
    c.(entries := kept[k := v])
  }

  /** The size bound both policies keep: never above the capacity, except that a capacity of 0 still holds one entry. */
  ghost predicate Bounded<V>(c: Cache<V>)
  {
    |c.entries| <= if c.capacity == 0 then 1 else c.capacity
  }

  // ---------------------------------------------------------------------
  // Properties of Put (QP and CQ caches)
  // ---------------------------------------------------------------------

  /**
   * A set on a full, non-empty QP/CQ cache evicts exactly one entry (possibly
   * the key being written) before storing the new value.
   */
  lemma PutFullEvictsOne<V>(c: Cache<V>, k: u32, v: V, pick: Chooser)
    requires |c.entries| >= c.capacity && |c.entries| > 0
    ensures exists e :: e in c.entries && Put(c, k, v, pick).entries == (c.entries - {e})[k := v]
  {
    var e := Victim(c.entries, pick);
    assert Put(c, k, v, pick).entries == (c.entries - {e})[k := v];
  }

  /**
   * Overwriting a key in a full QP/CQ cache can lose a different key: with
   * two entries, capacity 2 and a chooser that picks the other key, a state
   * update of key 1 evicts key 2.
   */
  lemma PutOverwriteCanEvictNeighbour<V>(c: Cache<V>, v: V, pick: Chooser)
    requires c.capacity == 2 && c.entries.Keys == {1, 2}
    requires pick({1, 2}) == 2
    ensures 1 in c.entries
    ensures Get(Put(c, 1, v, pick), 2) == None
    ensures |Put(c, 1, v, pick).entries| == 1
  {
    assert |c.entries| == |c.entries.Keys| == 2;
    var r := Put(c, 1, v, pick).entries;
    assert r == (c.entries - {2})[1 := v];
    assert r.Keys == {1};
  }

  /** set keeps the size bound. */
  lemma PutKeepsBound<V>(c: Cache<V>, k: u32, v: V, pick: Chooser)
    requires Bounded(c)
    ensures Bounded(Put(c, k, v, pick))
  {
    var m := c.entries;
    if |m| >= c.capacity && |m| > 0 {
      var e :| e in m && EvictOne(m, pick) == m - {e};
      assert |m - {e}| == |m| - 1;
    }
  }

  /**
   * With capacity 0 every set leaves exactly the written entry: each new
   * item evicts the previous one.
   */
  lemma PutZeroCapacityKeepsOnlyLast<V>(c: Cache<V>, k: u32, v: V, pick: Chooser)
    requires c.capacity == 0 && Bounded(c)
    ensures Put(c, k, v, pick).entries == map[k := v]
  {
    var m := c.entries;
    if |m| > 0 {
      var e :| e in m && EvictOne(m, pick) == m - {e};
      assert |m - {e}| == 0;
      EmptyMap(m - {e});
    } else {
      EmptyMap(m);
    }
  }

  lemma EmptyMap<K, V>(m: map<K, V>)
    requires |m| == 0
    ensures m == map[]
  {
    assert m.Keys == {};
  }

  // ---------------------------------------------------------------------
  // Properties of PutKeep (MR and PD caches)
  // ---------------------------------------------------------------------

  /** Overwriting a present key never evicts: the size and every other entry stay as they were. */
  lemma PutKeepOverwriteNeverEvicts<V>(c: Cache<V>, k: u32, v: V, pick: Chooser)
    requires k in c.entries
    ensures PutKeep(c, k, v, pick).entries == c.entries[k := v]
    ensures |PutKeep(c, k, v, pick).entries| == |c.entries|
  {
  }

  /** A NEW key arriving at a full, non-empty MR/PD cache evicts exactly one other entry. */
  lemma PutKeepFullEvictsOne<V>(c: Cache<V>, k: u32, v: V, pick: Chooser)
    requires k !in c.entries && |c.entries| >= c.capacity && |c.entries| > 0
    ensures exists e :: e in c.entries && e != k && PutKeep(c, k, v, pick).entries == (c.entries - {e})[k := v]
  {
    var e := Victim(c.entries, pick);
    assert PutKeep(c, k, v, pick).entries == (c.entries - {e})[k := v];
  }

  /** set keeps the size bound. */
  lemma PutKeepKeepsBound<V>(c: Cache<V>, k: u32, v: V, pick: Chooser)
    requires Bounded(c)
    ensures Bounded(PutKeep(c, k, v, pick))
  {
    var m := c.entries;
    if |m| >= c.capacity && k !in m && |m| > 0 {
      var e :| e in m && EvictOne(m, pick) == m - {e};
      assert |m - {e}| == |m| - 1;
    }
  }

  // ---------------------------------------------------------------------
  // Completion batches of the CQ cache
  // ---------------------------------------------------------------------

  /**
   * batch_add_completions: appends `comps` at the back of the CQ's
   * completions; an absent CQ is created holding exactly `comps`, with no
   * capacity check. The created CQ records a depth of 0: the C++ `CQValue`
   * it default-initialises leaves `cqe` (and `comp_vector`) indeterminate,
   * and 0 stands for that unknown value.
   */
  function AddCompletions(c: Cache<CQValue>, cqNum: u32, comps: seq<CompletionEntry>): (r: Cache<CQValue>)
    ensures r.capacity == c.capacity
    ensures cqNum in r.entries && r.entries[cqNum].completions == (if cqNum in c.entries then c.entries[cqNum].completions else []) + comps
    ensures cqNum in c.entries ==> r.entries[cqNum] == c.entries[cqNum].(completions := r.entries[cqNum].completions)
    ensures cqNum !in c.entries ==> r.entries[cqNum].cqNum == cqNum
    ensures forall j :: j != cqNum ==> Get(r, j) == Get(c, j)
  {
    if cqNum in c.entries then
      var cq := c.entries[cqNum];
      c.(entries := c.entries[cqNum := cq.(completions := cq.completions + comps)])
    else
      c.(entries := c.entries[cqNum := CQValue(cqNum, 0, comps)])
  }

  /** batch_add_completions can push a full cache past its capacity. */
  lemma AddCompletionsIgnoresCapacity(c: Cache<CQValue>, cqNum: u32, comps: seq<CompletionEntry>)
    requires cqNum !in c.entries && |c.entries| >= c.capacity
    ensures |AddCompletions(c, cqNum, comps).entries| == |c.entries| + 1
    ensures |AddCompletions(c, cqNum, comps).entries| > c.capacity
  {
  }

  /**
   * batch_get_completions: takes the first min(maxCount, n) completions in
   * order and removes exactly those; an absent CQ yields nothing and no change.
   */
  function TakeCompletions(c: Cache<CQValue>, cqNum: u32, maxCount: u32): (r: (Cache<CQValue>, seq<CompletionEntry>))
    ensures cqNum !in c.entries ==> r.0 == c && r.1 == []
    ensures cqNum in c.entries ==>
      var old_ := c.entries[cqNum].completions;
      && |r.1| == Min(maxCount, |old_|)
      && cqNum in r.0.entries
      && r.1 + r.0.entries[cqNum].completions == old_
      && r.0.entries[cqNum] == c.entries[cqNum].(completions := r.0.entries[cqNum].completions)
    ensures r.0.capacity == c.capacity && r.0.entries.Keys == c.entries.Keys
    ensures forall j :: j != cqNum ==> Get(r.0, j) == Get(c, j)
  {
    if cqNum in c.entries then
      var cq := c.entries[cqNum];
      var n := Min(maxCount, |cq.completions|);
      var taken := cq.completions[..n];
      assert taken + cq.completions[n..] == cq.completions;
      (c.(entries := c.entries[cqNum := cq.(completions := cq.completions[n..])]), taken)
    else
      (c, [])
  }

  /** Adding a batch and taking as many back returns the batch when the CQ was empty (FIFO). */
  lemma AddThenTakeIsFifo(c: Cache<CQValue>, cqNum: u32, comps: seq<CompletionEntry>)
    requires cqNum in c.entries ==> c.entries[cqNum].completions == []
    requires |comps| < 0x1_0000_0000
    ensures TakeCompletions(AddCompletions(c, cqNum, comps), cqNum, |comps|).1 == comps
  {
    var a := AddCompletions(c, cqNum, comps);
    var t := TakeCompletions(a, cqNum, |comps|);
    assert a.entries[cqNum].completions == comps;
    assert t.1 + t.0.entries[cqNum].completions == comps;
    assert |t.1| == |comps|;
  }
}

=== FILE: rdma_device.dfy ===
/**
 * One RdmaDevice (src/rdma_device.cpp) as an immutable value: the four
 * bounded device maps, the four overflow caches (capacity twice the device
 * limit), the two unbounded host maps (QP and CQ only) and the four id
 * counters. Every public operation is a function from the old device to
 * the new one and the call's result.
 *
 * The process-wide simulation switch becomes the `Config` argument. The
 * per-tier delays only sleep and are left out.
 */
module RdmaDevice {
  import opened RdmaTypes
  import opened OverflowCache

  /** Whether the overflow cache is in use; when off, QPs and CQs past the device limit go to the host maps. */
  datatype Config = Config(middleCache: bool)

  datatype Device = Device(
    maxQps: nat,
    maxCqs: nat,
    maxMrs: nat,
    maxPds: nat,
    qps: map<u32, QPValue>,
    cqs: map<u32, CQValue>,
    mrs: map<u32, MRValue>,
    pds: map<u32, PDValue>,
    qpCache: Cache<QPValue>,
    cqCache: Cache<CQValue>,
    mrCache: Cache<MRValue>,
    pdCache: Cache<PDValue>,
    qpsHost: map<u32, QPValue>,
    cqsHost: map<u32, CQValue>,
    nextQp: u32,
    nextCq: u32,
    nextMr: u32,
    nextPd: u32)

  /** The constructor: empty tiers, caches of twice the device limits, every counter at 1. */
  function NewDevice(maxQps: nat, maxCqs: nat, maxMrs: nat, maxPds: nat): (d: Device)
    ensures d.qpCache.capacity == 2 * maxQps && d.cqCache.capacity == 2 * maxCqs
    ensures d.mrCache.capacity == 2 * maxMrs && d.pdCache.capacity == 2 * maxPds
    ensures d.nextQp == 1 && d.nextCq == 1 && d.nextMr == 1 && d.nextPd == 1
    ensures Inv(d)
  {
    Device(maxQps, maxCqs, maxMrs, maxPds,
      map[], map[], map[], map[],
      Empty(2 * maxQps), Empty(2 * maxCqs), Empty(2 * maxMrs), Empty(2 * maxPds),
      map[], map[],
      1, 1, 1, 1)
  }

  /** A uint32 post-increment: the counter wraps from 2^32-1 to 0. */
  function Bump(n: u32): u32
  {
    if n == U32_MAX then 0 else n + 1
  }

  // ---------------------------------------------------------------------
  // Invariant: ids are below their counter and live in one tier only
  // ---------------------------------------------------------------------

  ghost predicate Below<V>(m: map<u32, V>, next: u32)
  {
    forall k :: k in m ==> 0 < k < next
  }

  /** The three tiers of one kind of resource: every id below `next`, and no id in two tiers. */
  ghost predicate Tiers<A, B, C>(dev: map<u32, A>, cache: map<u32, B>, host: map<u32, C>, next: u32)
  {
    && next >= 1
    && Below(dev, next) && Below(cache, next) && Below(host, next)
    && dev.Keys !! cache.Keys && dev.Keys !! host.Keys && cache.Keys !! host.Keys
  }

  /** MRs and PDs have no host tier. */
  const NoHost: map<u32, bool> := map[]

  ghost predicate Inv(d: Device)
  {
    && Tiers(d.qps, d.qpCache.entries, d.qpsHost, d.nextQp)
    && Tiers(d.cqs, d.cqCache.entries, d.cqsHost, d.nextCq)
    && Tiers(d.mrs, d.mrCache.entries, NoHost, d.nextMr)
    && Tiers(d.pds, d.pdCache.entries, NoHost, d.nextPd)
  }

  // ---------------------------------------------------------------------
  // Lookups
  // ---------------------------------------------------------------------

  /**
   * get_qp_info: the device map, then the cache (switch on) or the host map
   * (switch off). The QP is found exactly when one of the searched tiers
   * holds it, and the answer is the value stored there, the device map's
   * first.
   */
  function GetQpInfo(d: Device, cfg: Config, qpNum: u32): (r: Option<QPValue>)
    ensures r.Some? <==>
      qpNum in d.qps || (cfg.middleCache && qpNum in d.qpCache.entries) || (!cfg.middleCache && qpNum in d.qpsHost)
    ensures qpNum in d.qps ==> r == Some(d.qps[qpNum])
    ensures r.Some? && qpNum !in d.qps ==>
      if cfg.middleCache then r.value == d.qpCache.entries[qpNum] else r.value == d.qpsHost[qpNum]
  {
    if qpNum in d.qps then Some(d.qps[qpNum])
    else if cfg.middleCache then Get(d.qpCache, qpNum)
    else if qpNum in d.qpsHost then Some(d.qpsHost[qpNum])
    else None
  }

  /** get_cq_info: same order, and the same answer, as get_qp_info. */
  function GetCqInfo(d: Device, cfg: Config, cqNum: u32): (r: Option<CQValue>)
    ensures r.Some? <==>
      cqNum in d.cqs || (cfg.middleCache && cqNum in d.cqCache.entries) || (!cfg.middleCache && cqNum in d.cqsHost)
    ensures cqNum in d.cqs ==> r == Some(d.cqs[cqNum])
    ensures r.Some? && cqNum !in d.cqs ==>
      if cfg.middleCache then r.value == d.cqCache.entries[cqNum] else r.value == d.cqsHost[cqNum]
  {
    if cqNum in d.cqs then Some(d.cqs[cqNum])
    else if cfg.middleCache then Get(d.cqCache, cqNum)
    else if cqNum in d.cqsHost then Some(d.cqsHost[cqNum])
    else None
  }

  /** get_mr_info: the device map, then the cache, whatever the switch says. */
  function GetMrInfo(d: Device, lkey: u32): (r: Option<MRValue>)
    ensures r.Some? <==> lkey in d.mrs || lkey in d.mrCache.entries
    ensures lkey in d.mrs ==> r == Some(d.mrs[lkey])
    ensures r.Some? && lkey !in d.mrs ==> r.value == d.mrCache.entries[lkey]
  {
    if lkey in d.mrs then Some(d.mrs[lkey]) else Get(d.mrCache, lkey)
  }

  // ---------------------------------------------------------------------
  // Creation
  // ---------------------------------------------------------------------

  /** The QP create_qp stores: RESET, with the two CQ ids and everything else at its default. */
  function NewQp(qpNum: u32, sendCq: u32, recvCq: u32): QPValue
  {
    DefaultQp.(qpNum := qpNum, state := Reset, sendCq := sendCq, recvCq := recvCq)
  }

  /**
   * create_qp. The work-request depths are accepted and ignored. Both CQ
   * ids must be found by the same lookup get_cq_info uses; otherwise the
   * result is 0 and no id is consumed.
   */
  function CreateQp(d: Device, cfg: Config, maxSendWr: u32, maxRecvWr: u32, sendCq: u32, recvCq: u32, pick: Chooser): (r: (Device, u32))
    ensures !(GetCqInfo(d, cfg, sendCq).Some? && GetCqInfo(d, cfg, recvCq).Some?) ==> r == (d, 0)
    ensures GetCqInfo(d, cfg, sendCq).Some? && GetCqInfo(d, cfg, recvCq).Some? ==>
      && r.1 == d.nextQp && r.0.nextQp == Bump(d.nextQp)
      && r.0.cqs == d.cqs && r.0.cqCache == d.cqCache && r.0.cqsHost == d.cqsHost
      && (|d.qps| < d.maxQps ==>
            r.0.qps == d.qps[r.1 := NewQp(r.1, sendCq, recvCq)] && r.0.qpCache == d.qpCache && r.0.qpsHost == d.qpsHost)
      && (|d.qps| >= d.maxQps && cfg.middleCache ==>
            r.0.qps == d.qps && Get(r.0.qpCache, r.1) == Some(NewQp(r.1, sendCq, recvCq)) && r.0.qpsHost == d.qpsHost)
      && (|d.qps| >= d.maxQps && !cfg.middleCache ==>
            r.0.qps == d.qps && r.0.qpCache == d.qpCache && r.0.qpsHost == d.qpsHost[r.1 := NewQp(r.1, sendCq, recvCq)])
  {
    if !(GetCqInfo(d, cfg, sendCq).Some? && GetCqInfo(d, cfg, recvCq).Some?) then (d, 0)
    else
      var qpNum := d.nextQp;
      var qp := NewQp(qpNum, sendCq, recvCq);
      var placed :=
        if |d.qps| < d.maxQps then (d.qps[qpNum := qp], d.qpCache, d.qpsHost)
        else if cfg.middleCache then (d.qps, Put(d.qpCache, qpNum, qp, pick), d.qpsHost)
        else (d.qps, d.qpCache, d.qpsHost[qpNum := qp]);
      (d.(nextQp := Bump(d.nextQp), qps := placed.0, qpCache := placed.1, qpsHost := placed.2), qpNum)
  }

  /** create_cq. No depth is rejected: the requested depth is only recorded. */
  function CreateCq(d: Device, cfg: Config, maxCqe: u32, pick: Chooser): (r: (Device, u32))
    ensures r.1 == d.nextCq && r.0.nextCq == Bump(d.nextCq)
    ensures r.0.qps == d.qps && r.0.qpCache == d.qpCache && r.0.qpsHost == d.qpsHost
    ensures |d.cqs| < d.maxCqs ==>
      r.0.cqs == d.cqs[r.1 := CQValue(r.1, maxCqe, [])] && r.0.cqCache == d.cqCache && r.0.cqsHost == d.cqsHost
    ensures |d.cqs| >= d.maxCqs && cfg.middleCache ==>
      r.0.cqs == d.cqs && Get(r.0.cqCache, r.1) == Some(CQValue(r.1, maxCqe, [])) && r.0.cqsHost == d.cqsHost
    ensures |d.cqs| >= d.maxCqs && !cfg.middleCache ==>
      r.0.cqs == d.cqs && r.0.cqCache == d.cqCache && r.0.cqsHost == d.cqsHost[r.1 := CQValue(r.1, maxCqe, [])]
  {
    var cqNum := d.nextCq;
    var cq := CQValue(cqNum, maxCqe, []);
    var placed :=
      if |d.cqs| < d.maxCqs then (d.cqs[cqNum := cq], d.cqCache, d.cqsHost)
      else if cfg.middleCache then (d.cqs, Put(d.cqCache, cqNum, cq, pick), d.cqsHost)
      else (d.cqs, d.cqCache, d.cqsHost[cqNum := cq]);
    (d.(nextCq := Bump(d.nextCq), cqs := placed.0, cqCache := placed.1, cqsHost := placed.2), cqNum)
  }

  /** register_mr. A full device map sends the MR to the cache whatever the switch says; no address is rejected. */
  function RegisterMr(d: Device, addr: Option<BufferId>, length: u64, accessFlags: u32, pick: Chooser): (r: (Device, u32))
    ensures r.1 == d.nextMr && r.0.nextMr == Bump(d.nextMr)
    ensures |d.mrs| < d.maxMrs ==>
      r.0.mrs == d.mrs[r.1 := MRValue(r.1, accessFlags, length, addr)] && r.0.mrCache == d.mrCache
    ensures |d.mrs| >= d.maxMrs ==>
      r.0.mrs == d.mrs && Get(r.0.mrCache, r.1) == Some(MRValue(r.1, accessFlags, length, addr))
  {
    var lkey := d.nextMr;
    var mr := MRValue(lkey, accessFlags, length, addr);
    var d1 := d.(nextMr := Bump(d.nextMr));
    if |d.mrs| < d.maxMrs then (d1.(mrs := d.mrs[lkey := mr]), lkey)
    else (d1.(mrCache := PutKeep(d.mrCache, lkey, mr, pick)), lkey)
  }

  /** create_pd. Same placement as register_mr. */
  function CreatePd(d: Device, pick: Chooser): (r: (Device, u32))
    ensures r.1 == d.nextPd && r.0.nextPd == Bump(d.nextPd)
    ensures |d.pds| < d.maxPds ==> r.0.pds == d.pds[r.1 := PDValue(r.1)] && r.0.pdCache == d.pdCache
    ensures |d.pds| >= d.maxPds ==> r.0.pds == d.pds && Get(r.0.pdCache, r.1) == Some(PDValue(r.1))
  {
    var handle := d.nextPd;
    var pd := PDValue(handle);
    var d1 := d.(nextPd := Bump(d.nextPd));
    if |d.pds| < d.maxPds then (d1.(pds := d.pds[handle := pd]), handle)
    else (d1.(pdCache := PutKeep(d.pdCache, handle, pd, pick)), handle)
  }

  // ---------------------------------------------------------------------
  // Creation with the argument checks the test suite expects
  // ---------------------------------------------------------------------

  /** create_qp that rejects a send-queue depth of 0 before doing anything else. */
  function CreateQpChecked(d: Device, cfg: Config, maxSendWr: u32, maxRecvWr: u32, sendCq: u32, recvCq: u32, pick: Chooser): (r: (Device, u32))
    ensures maxSendWr == 0 ==> r == (d, 0)
    ensures maxSendWr > 0 ==> r == CreateQp(d, cfg, maxSendWr, maxRecvWr, sendCq, recvCq, pick)
  {
    if maxSendWr == 0 then (d, 0) else CreateQp(d, cfg, maxSendWr, maxRecvWr, sendCq, recvCq, pick)
  }

  /** create_cq that rejects a depth of 0 and consumes no id for it. */
  function CreateCqChecked(d: Device, cfg: Config, maxCqe: u32, pick: Chooser): (r: (Device, u32))
    ensures maxCqe == 0 ==> r == (d, 0)
    ensures maxCqe > 0 ==> r == CreateCq(d, cfg, maxCqe, pick)
  {
    if maxCqe == 0 then (d, 0) else CreateCq(d, cfg, maxCqe, pick)
  }

  /** register_mr that rejects a null address and consumes no key for it. */
  function RegisterMrChecked(d: Device, addr: Option<BufferId>, length: u64, accessFlags: u32, pick: Chooser): (r: (Device, u32))
    ensures addr.None? ==> r == (d, 0)
    ensures addr.Some? ==> r == RegisterMr(d, addr, length, accessFlags, pick)
  {
    if addr.None? then (d, 0) else RegisterMr(d, addr, length, accessFlags, pick)
  }

  // ---------------------------------------------------------------------
  // Destruction
  // ---------------------------------------------------------------------

  /**
   * destroy_qp: a device-map entry is erased; a cached entry is overwritten
   * with `QPValue{}` (a cache write, so it may evict when the cache is
   * full); the host map is never consulted.
   */
  function DestroyQp(d: Device, qpNum: u32, pick: Chooser): (r: Device)
    ensures r.qps == d.qps - {qpNum}
    ensures r == d.(qps := r.qps, qpCache := r.qpCache)
    ensures qpNum !in d.qps && qpNum in d.qpCache.entries ==>
      && Get(r.qpCache, qpNum) == Some(DefaultQp)
      && forall j :: j != qpNum && j in r.qpCache.entries ==> j in d.qpCache.entries && r.qpCache.entries[j] == d.qpCache.entries[j]
    ensures !(qpNum !in d.qps && qpNum in d.qpCache.entries) ==> r.qpCache == d.qpCache
  {
    if qpNum in d.qps then d.(qps := d.qps - {qpNum})
    else if qpNum in d.qpCache.entries then d.(qpCache := Put(d.qpCache, qpNum, DefaultQp, pick))
    else d
  }

  /** destroy_cq: as destroy_qp, with `CQValue{}`. */
  function DestroyCq(d: Device, cqNum: u32, pick: Chooser): (r: Device)
    ensures r.cqs == d.cqs - {cqNum}
    ensures r == d.(cqs := r.cqs, cqCache := r.cqCache)
    ensures cqNum !in d.cqs && cqNum in d.cqCache.entries ==>
      && Get(r.cqCache, cqNum) == Some(DefaultCq)
      && forall j :: j != cqNum && j in r.cqCache.entries ==> j in d.cqCache.entries && r.cqCache.entries[j] == d.cqCache.entries[j]
    ensures !(cqNum !in d.cqs && cqNum in d.cqCache.entries) ==> r.cqCache == d.cqCache
  {
    if cqNum in d.cqs then d.(cqs := d.cqs - {cqNum})
    else if cqNum in d.cqCache.entries then d.(cqCache := Put(d.cqCache, cqNum, DefaultCq, pick))
    else d
  }

  /**
   * deregister_mr: as destroy_qp, with `MRValue{}`; the MR cache overwrites
   * a present key in place, so no other cached MR is lost.
   */
  function DeregisterMr(d: Device, lkey: u32, pick: Chooser): (r: Device)
    ensures r.mrs == d.mrs - {lkey}
    ensures r == d.(mrs := r.mrs, mrCache := r.mrCache)
    ensures lkey !in d.mrs && lkey in d.mrCache.entries ==>
      && Get(r.mrCache, lkey) == Some(DefaultMr)
      && forall j :: j != lkey ==> Get(r.mrCache, j) == Get(d.mrCache, j)
    ensures !(lkey !in d.mrs && lkey in d.mrCache.entries) ==> r.mrCache == d.mrCache
  {
    if lkey in d.mrs then d.(mrs := d.mrs - {lkey})
    else if lkey in d.mrCache.entries then d.(mrCache := PutKeep(d.mrCache, lkey, DefaultMr, pick))
    else d
  }

  /** destroy_pd: as deregister_mr, with `PDValue{}`. */
  function DestroyPd(d: Device, handle: u32, pick: Chooser): (r: Device)
    ensures r.pds == d.pds - {handle}
    ensures r == d.(pds := r.pds, pdCache := r.pdCache)
    ensures handle !in d.pds && handle in d.pdCache.entries ==>
      && Get(r.pdCache, handle) == Some(DefaultPd)
      && forall j :: j != handle ==> Get(r.pdCache, j) == Get(d.pdCache, j)
    ensures !(handle !in d.pds && handle in d.pdCache.entries) ==> r.pdCache == d.pdCache
  {
    if handle in d.pds then d.(pds := d.pds - {handle})
    else if handle in d.pdCache.entries then d.(pdCache := PutKeep(d.pdCache, handle, DefaultPd, pick))
    else d
  }

  // ---------------------------------------------------------------------
  // QP state and connection parameters
  // ---------------------------------------------------------------------

  /** validate_qp_transition as written: accepts every transition. */
  function ValidateTransitionStub(from: QpState, to: QpState): (ok: bool)
    ensures ok
  {
    true
  }

  /**
   * Writes `qp` back under `qpNum` in the tier get_qp_info finds it in, so
   * that get_qp_info then returns it. Only the QP tiers change; the device
   * map never gains an id, and only a cache write can lose a neighbour.
   */
  function UpdateQp(d: Device, cfg: Config, qpNum: u32, qp: QPValue, pick: Chooser): (r: Device)
    ensures GetQpInfo(r, cfg, qpNum) == Some(qp)
    ensures r == d.(qps := r.qps, qpCache := r.qpCache, qpsHost := r.qpsHost)
    ensures r.qps.Keys == d.qps.Keys && forall j :: j != qpNum && j in d.qps ==> r.qps[j] == d.qps[j]
    ensures forall j :: j != qpNum && j in d.qpsHost ==> j in r.qpsHost && r.qpsHost[j] == d.qpsHost[j]
    ensures qpNum in d.qps || !cfg.middleCache ==> r.qpCache == d.qpCache
    ensures qpNum in d.qps || cfg.middleCache ==> r.qpsHost == d.qpsHost
  {
    if qpNum in d.qps then d.(qps := d.qps[qpNum := qp])
    else if cfg.middleCache then d.(qpCache := Put(d.qpCache, qpNum, qp, pick))
    else d.(qpsHost := d.qpsHost[qpNum := qp])
  }

  /**
   * modify_qp_state, for any transition validator: fails and changes
   * nothing when the QP is not found or the validator rejects; otherwise
   * only the state of that QP changes.
   */
  function ModifyQpState(d: Device, cfg: Config, qpNum: u32, newState: QpState,
                         validate: (QpState, QpState) -> bool, pick: Chooser): (r: (Device, bool))
    ensures r.1 <==> GetQpInfo(d, cfg, qpNum).Some? && validate(GetQpInfo(d, cfg, qpNum).value.state, newState)
    ensures !r.1 ==> r.0 == d
    ensures r.1 ==> GetQpInfo(r.0, cfg, qpNum) == Some(GetQpInfo(d, cfg, qpNum).value.(state := newState))
  {
    match GetQpInfo(d, cfg, qpNum)
    case None => (d, false)
    case Some(qp) =>
      if !validate(qp.state, newState) then (d, false)
      else (UpdateQp(d, cfg, qpNum, qp.(state := newState), pick), true)
  }

  /** The connection parameters connect_qp copies from the peer's QP description. */
  function Connected(qp: QPValue, remote: QPValue): QPValue
  {
    qp.(destQpNum := remote.qpNum, remoteLid := remote.lid, remotePsn := remote.psn, remoteGid := remote.gid)
  }

  /**
   * connect_qp: copies the peer's qp number, LID, PSN and GID into
   * dest_qp_num, remote_lid, remote_psn and remote_gid; no state check.
   */
  function ConnectQp(d: Device, cfg: Config, qpNum: u32, remote: QPValue, pick: Chooser): (r: (Device, bool))
    ensures r.1 <==> GetQpInfo(d, cfg, qpNum).Some?
    ensures !r.1 ==> r.0 == d
    ensures r.1 ==>
      var before := GetQpInfo(d, cfg, qpNum).value;
      var after := GetQpInfo(r.0, cfg, qpNum);
      && after.Some?
      && after.value.destQpNum == remote.qpNum && after.value.remoteLid == remote.lid
      && after.value.remotePsn == remote.psn && after.value.remoteGid == remote.gid
      && after.value.(destQpNum := before.destQpNum, remoteLid := before.remoteLid,
                      remotePsn := before.remotePsn, remoteGid := before.remoteGid) == before
  {
    match GetQpInfo(d, cfg, qpNum)
    case None => (d, false)
    case Some(qp) => (UpdateQp(d, cfg, qpNum, Connected(qp, remote), pick), true)
  }

  // ---------------------------------------------------------------------
  // Completion queues
  // ---------------------------------------------------------------------

  /**
   * The CQ the data path appends to: the device map, then the cache, then
   * (when `useHost`) the host map, whatever the switch says. post_send
   * searches all three; post_recv never searches the host map.
   */
  function CqForAppend(d: Device, cqNum: u32, useHost: bool): (r: Option<CQValue>)
    ensures r.Some? <==> cqNum in d.cqs || cqNum in d.cqCache.entries || (useHost && cqNum in d.cqsHost)
    ensures !useHost ==> r == GetCqInfo(d, Config(true), cqNum)
    ensures useHost && cqNum !in d.cqCache.entries ==> r == GetCqInfo(d, Config(false), cqNum)
  {
    if cqNum in d.cqs then Some(d.cqs[cqNum])
    else if cqNum in d.cqCache.entries then Some(d.cqCache.entries[cqNum])
    else if useHost && cqNum in d.cqsHost then Some(d.cqsHost[cqNum])
    else None
  }

  /**
   * Appends one completion at the back of the CQ that CqForAppend finds;
   * when no searched tier holds the CQ the completion is silently dropped.
   * Only that CQ changes, except that a write to a full cache may evict
   * another cached CQ.
   */
  function AppendCompletion(d: Device, cqNum: u32, e: CompletionEntry, useHost: bool, pick: Chooser): (r: Device)
    ensures CqForAppend(d, cqNum, useHost).None? ==> r == d
    ensures CqForAppend(d, cqNum, useHost).Some? ==>
      var cq := CqForAppend(d, cqNum, useHost).value;
      CqForAppend(r, cqNum, useHost) == Some(cq.(completions := cq.completions + [e]))
    ensures r.qps == d.qps && r.qpCache == d.qpCache && r.qpsHost == d.qpsHost
    ensures r.maxQps == d.maxQps && r.maxCqs == d.maxCqs && r.nextQp == d.nextQp
    ensures r.mrs == d.mrs && r.mrCache == d.mrCache && r.pds == d.pds && r.pdCache == d.pdCache
    ensures r.nextCq == d.nextCq && r.nextMr == d.nextMr && r.nextPd == d.nextPd
    ensures cqNum in d.cqs ==> r.cqs.Keys == d.cqs.Keys && r.cqCache == d.cqCache && r.cqsHost == d.cqsHost
    ensures forall j :: j != cqNum && j in d.cqs ==> j in r.cqs && r.cqs[j] == d.cqs[j]
    ensures forall j :: j != cqNum && j in d.cqsHost ==> j in r.cqsHost && r.cqsHost[j] == d.cqsHost[j]
  {
    if cqNum in d.cqs then
      var cq := d.cqs[cqNum];
      d.(cqs := d.cqs[cqNum := cq.(completions := cq.completions + [e])])
    else if cqNum in d.cqCache.entries then
      var cq := d.cqCache.entries[cqNum];
      d.(cqCache := Put(d.cqCache, cqNum, cq.(completions := cq.completions + [e]), pick))
    else if useHost && cqNum in d.cqsHost then
      var cq := d.cqsHost[cqNum];
      d.(cqsHost := d.cqsHost[cqNum := cq.(completions := cq.completions + [e])])
    else d
  }

  /** Removes the first min(maxEntries, n) completions of `cq` and returns them in order. */
  function TakeFront(cq: CQValue, maxEntries: u32): (r: (CQValue, seq<CompletionEntry>))
    ensures |r.1| == Min(maxEntries, |cq.completions|)
    ensures r.1 + r.0.completions == cq.completions
    ensures r.0 == cq.(completions := r.0.completions)
  {
    var n := Min(maxEntries, |cq.completions|);
    assert cq.completions[..n] + cq.completions[n..] == cq.completions;
    (cq.(completions := cq.completions[n..]), cq.completions[..n])
  }

  /**
   * poll_cq: the first tier that yields at least one entry supplies the
   * first min(maxEntries, n) completions, appended in order to `out`. A
   * non-empty device- or host-map CQ answers true even when maxEntries is 0.
   */
  function PollCq(d: Device, cfg: Config, cqNum: u32, out: seq<CompletionEntry>, maxEntries: u32)
    : (r: (Device, seq<CompletionEntry>, bool))
    ensures !r.2 ==> r.1 == out
    ensures r.2 <==>
      || (cqNum in d.cqs && |d.cqs[cqNum].completions| > 0)
      || (cfg.middleCache && cqNum in d.cqCache.entries && |d.cqCache.entries[cqNum].completions| > 0 && maxEntries > 0)
      || (!cfg.middleCache && cqNum in d.cqsHost && |d.cqsHost[cqNum].completions| > 0)
    ensures |out| <= |r.1| <= |out| + maxEntries && r.1[..|out|] == out
    ensures cqNum in d.cqs && |d.cqs[cqNum].completions| > 0 ==>
      var cq := d.cqs[cqNum];
      var n := Min(maxEntries, |cq.completions|);
      && r.1 == out + cq.completions[..n]
      && r.0.cqs == d.cqs[cqNum := cq.(completions := cq.completions[n..])]
      && r.0.cqCache == d.cqCache && r.0.cqsHost == d.cqsHost
    ensures !(cqNum in d.cqs && |d.cqs[cqNum].completions| > 0) && cfg.middleCache && cqNum in d.cqCache.entries ==>
      var cq := d.cqCache.entries[cqNum];
      var n := Min(maxEntries, |cq.completions|);
      && r.1 == out + cq.completions[..n]
      && Get(r.0.cqCache, cqNum) == Some(cq.(completions := cq.completions[n..]))
      && (forall j :: j != cqNum ==> Get(r.0.cqCache, j) == Get(d.cqCache, j))
      && r.0.cqs == d.cqs && r.0.cqsHost == d.cqsHost
    ensures !(cqNum in d.cqs && |d.cqs[cqNum].completions| > 0) && !cfg.middleCache && cqNum in d.cqsHost ==>
      var cq := d.cqsHost[cqNum];
      var n := Min(maxEntries, |cq.completions|);
      && r.1 == out + cq.completions[..n]
      && r.0.cqsHost == d.cqsHost[cqNum := cq.(completions := cq.completions[n..])]
      && r.0.cqs == d.cqs && r.0.cqCache == d.cqCache
    ensures !(cqNum in d.cqs && |d.cqs[cqNum].completions| > 0) && !(cfg.middleCache && cqNum in d.cqCache.entries) && !(!cfg.middleCache && cqNum in d.cqsHost) ==>
      r.0 == d
    ensures r.0 == d.(cqs := r.0.cqs, cqCache := r.0.cqCache, cqsHost := r.0.cqsHost)
    ensures r.0.nextCq == d.nextCq && r.0.cqs.Keys == d.cqs.Keys && r.0.cqCache.entries.Keys == d.cqCache.entries.Keys
    ensures r.0.cqsHost.Keys == d.cqsHost.Keys && r.0.cqCache.capacity == d.cqCache.capacity
  {
    if cqNum in d.cqs && |d.cqs[cqNum].completions| > 0 then
      var t := TakeFront(d.cqs[cqNum], maxEntries);
      (d.(cqs := d.cqs[cqNum := t.0]), out + t.1, true)
    else if cfg.middleCache then
      var t := TakeCompletions(d.cqCache, cqNum, maxEntries);
      if |t.1| > 0 then (d.(cqCache := t.0), out + t.1, true)
      else (d.(cqCache := t.0), out, false)
    else if cqNum in d.cqsHost && |d.cqsHost[cqNum].completions| > 0 then
      var t := TakeFront(d.cqsHost[cqNum], maxEntries);
      (d.(cqsHost := d.cqsHost[cqNum := t.0]), out + t.1, true)
    else (d, out, false)
  }

  /**
   * req_notify_cq: whether the device map or the cache holds the CQ; the
   * host map is not searched, whatever the switch says, and no notification
   * is armed.
   */
  function ReqNotifyCq(d: Device, cqNum: u32, solicitedOnly: bool): (r: bool)
    ensures r <==> GetCqInfo(d, Config(true), cqNum).Some?
    ensures r <==> CqForAppend(d, cqNum, false).Some?
  {
    cqNum in d.cqs || cqNum in d.cqCache.entries
  }
}

=== FILE: rdma_types.dfy ===
/**
 * Value types shared by the simulated RDMA device, its overflow caches and
 * its control channel (include/rdma_types.h).
 *
 * Fixed-width C++ integers are subset types of `int`; the enums carry the
 * byte values they are stored as. `QpState` and `ControlMsgType` are
 * `enum class : uint8_t` in the source and may hold any byte (the control
 * message decoder casts without a range check), so each has an extra
 * constructor for the bytes that name no enumerator.
 */
module RdmaTypes {

  type u8 = x: int | 0 <= x < 0x100
  type u16 = x: int | 0 <= x < 0x1_0000
  type u32 = x: int | 0 <= x < 0x1_0000_0000
  type u64 = x: int | 0 <= x < 0x1_0000_0000_0000_0000

  const U32_MAX: u32 := 0xFFFF_FFFF

  datatype Option<+T> = None | Some(value: T)

  /** Identifies one caller-owned buffer; `None` plays the null pointer. */
  type BufferId = nat

  /** A 16-byte global identifier (GID). */
  type Gid = s: seq<u8> | |s| == 16 witness ZeroGid

  const ZeroGid: seq<u8> := [0, 0, 0, 0, 0, 0, 0, 0, 0, 0, 0, 0, 0, 0, 0, 0]

  // ---------------------------------------------------------------------
  // Enumerations and their byte encodings
  // ---------------------------------------------------------------------

  /** RdmaOpcode: SEND..ATOMIC_FETCH_AND_ADD = 0..5. */
  datatype Opcode = Send | Recv | RdmaWrite | RdmaRead | AtomicCmpAndSwp | AtomicFetchAndAdd

  function OpcodeByte(op: Opcode): (b: u8)
    ensures b <= 5
  {
    match op
    case Send => 0
    case Recv => 1
    case RdmaWrite => 2
    case RdmaRead => 3
    case AtomicCmpAndSwp => 4
    case AtomicFetchAndAdd => 5
  }

  /** Byte values of a QP state that name no enumerator. */
  type ExtraStateCode = x: int | 7 <= x < 0x100 witness 7

  /** QpState: RESET..ERR = 0..6. */
  datatype QpState = Reset | Init | Rtr | Rts | Sqd | Sqe | Err | UnnamedState(code: ExtraStateCode)

  function StateByte(s: QpState): (b: u8)
    ensures b <= 6 <==> !s.UnnamedState?
  {
    match s
    case Reset => 0
    case Init => 1
    case Rtr => 2
    case Rts => 3
    case Sqd => 4
    case Sqe => 5
    case Err => 6
    case UnnamedState(c) => c
  }

  /** The state a `static_cast<QpState>` of byte `b` yields. */
  function StateOfByte(b: u8): (s: QpState)
    ensures StateByte(s) == b
  {
    if b == 0 then Reset
    else if b == 1 then Init
    else if b == 2 then Rtr
    else if b == 3 then Rts
    else if b == 4 then Sqd
    else if b == 5 then Sqe
    else if b == 6 then Err
    else UnnamedState(b)
  }

  lemma StateByteInjective(s: QpState, t: QpState)
    requires StateByte(s) == StateByte(t)
    ensures s == t
  {
  }

  /** Byte values of a control message type that name no enumerator. */
  type ExtraTypeCode = x: int | 4 <= x < 0x100 witness 4

  /** RdmaControlMsgType: CONNECT_REQUEST..ERROR = 0..3. */
  datatype ControlMsgType = ConnectRequest | ConnectResponse | Ready | ErrorMsg | UnnamedType(code: ExtraTypeCode)

  function TypeByte(t: ControlMsgType): (b: u8)
    ensures b <= 3 <==> !t.UnnamedType?
  {
    match t
    case ConnectRequest => 0
    case ConnectResponse => 1
    case Ready => 2
    case ErrorMsg => 3
    case UnnamedType(c) => c
  }

  function TypeOfByte(b: u8): (t: ControlMsgType)
    ensures TypeByte(t) == b
  {
    if b == 0 then ConnectRequest
    else if b == 1 then ConnectResponse
    else if b == 2 then Ready
    else if b == 3 then ErrorMsg
    else UnnamedType(b)
  }

  lemma TypeByteInjective(s: ControlMsgType, t: ControlMsgType)
    requires TypeByte(s) == TypeByte(t)
    ensures s == t
  {
  }

  // ---------------------------------------------------------------------
  // Records
  // ---------------------------------------------------------------------

  /** CompletionEntry; the default is all zeros with opcode SEND. */
  datatype CompletionEntry = CompletionEntry(
    wrId: u64,
    status: u32,
    opcode: Opcode,
    length: u32,
    immData: u32)

  const DefaultCompletion := CompletionEntry(0, 0, Send, 0, 0)

  /** RdmaWorkRequest; the default is a signaled SEND of length 0 with null addresses. */
  datatype WorkRequest = WorkRequest(
    opcode: Opcode,
    localAddr: Option<BufferId>,
    lkey: u32,
    length: u32,
    remoteAddr: Option<BufferId>,
    rkey: u32,
    immData: u32,
    signaled: bool,
    wrId: u64)

  const DefaultWorkRequest := WorkRequest(Send, None, 0, 0, None, 0, 0, true, 0)

  /**
   * QPValue: connection parameters, state, the two CQ numbers, and the
   * simulated receive buffer (`recv_addr`/`recv_length`) and the one
   * payload waiting for a receive (`pending_data`). `created_time` is left out.
   */
  datatype QPValue = QPValue(
    qpNum: u32,
    destQpNum: u32,
    lid: u16,
    remoteLid: u16,
    portNum: u8,
    qpAccessFlags: u32,
    psn: u32,
    remotePsn: u32,
    gid: Gid,
    remoteGid: Gid,
    mtu: u32,
    state: QpState,
    sendCq: u32,
    recvCq: u32,
    recvAddr: Option<BufferId>,
    recvLength: u32,
    pendingData: seq<u8>)

  /** `QPValue{}`: zero ids, port 1, MTU 1024, RESET, zero GIDs, no buffer, nothing pending. */
  const DefaultQp := QPValue(0, 0, 0, 0, 1, 0, 0, 0, ZeroGid, ZeroGid, 1024, Reset, 0, 0, None, 0, [])

  /** MRValue; `addr` is the registered caller buffer. */
  datatype MRValue = MRValue(lkey: u32, accessFlags: u32, length: u64, addr: Option<BufferId>)

  const DefaultMr := MRValue(0, 0, 0, None)

  /** PDValue; the per-kind `resources` table is never populated and is left out. */
  datatype PDValue = PDValue(pdHandle: u32)

  const DefaultPd := PDValue(0)

  /** CQValue; `comp_vector` is never read and is left out. */
  datatype CQValue = CQValue(cqNum: u32, cqe: u32, completions: seq<CompletionEntry>)

  const DefaultCq := CQValue(0, 0, [])

  /** RdmaControlMsg; the default is a CONNECT_REQUEST with a default QP, not accepted, no error text. */
  datatype ControlMsg = ControlMsg(
    msgType: ControlMsgType,
    qpInfo: QPValue,
    accept: bool,
    errorMsg: seq<u8>)

  const DefaultControlMsg := ControlMsg(ConnectRequest, DefaultQp, false, [])

  function Min(a: int, b: int): int
  {
    if a <= b then a else b
  }
}
